=== FILE: README.md ===
# rusty-dl in Dafny

A model of the decision logic of rusty-dl, a Rust library that downloads three kinds of
media. It covers:

- plain web resources, through `ResourceDownloader`;
- tweet media, through `TwitterDownloader`;
- YouTube videos and playlists, through `YoutubeDownloader`.

Every network answer, filesystem outcome, parsed URL, parsed JSON value, scraped page
and call into the video library is a parameter. What a download does with them is
returned as an ordered trace of requests or effects next to its result.

Modules, one per source file plus four support modules:

| module | models |
|---|---|
| `Errors` | `DownloadError` and the `Result`/`Option` wrappers (`src/errors.rs`) |
| `Http` | parsed URLs, requests, responses, header maps and the header-name and header-value rules of the `http` crate |
| `Downloader` | the provided methods of the `Downloader` trait (`src/lib.rs`) |
| `Header` | `HeaderMapBuilder` and `HeaderBuilderValue` (`src/header.rs`) |
| `Resource` | `ResourceDownloader` (`src/resource.rs`) |
| `Json` | serde's decoding rules for derived records, and serde_json's compact text form |
| `PercentEncoding` | `utf8_percent_encode` with the `NON_ALPHANUMERIC` set (section 2.1 of RFC 3986) |
| `TwitterScan` | the three regular expressions of `src/twitter.rs`, as scanners with declarative match predicates |
| `TwitterUtils` | `Features`, `Variables`, `RequestDetails` and `ErrorResponse` (`src/twitter/utils.rs`) |
| `TwitterDetails` | the tweet-details response schema (`src/twitter/details.rs`) |
| `Twitter` | `TwitterDownloader` (`src/twitter.rs`) |
| `YoutubeInitialData` | the playlist page's initial data (`src/youtube/initial_data.rs`) |
| `Youtube` | `YoutubeDownloader` (`src/youtube.rs`) |

A `Result` has three cases:

- `Ok`;
- `Err` carries a `DownloadError`;
- `Panic` stands for a panic that reaches the caller. Examples are an `expect` on a
  header value built from a scraped token, or an `unwrap` on scraped page data.

A `HeaderValue::from_static` or `HeaderName::from_static` on a literal of the program
cannot panic. Its validity is a precondition, proved for the literals the library uses.

Where the code and its documentation disagree, the model follows the code:

- `TwitterDownloader::new` accepts only the bare hosts `twitter.com` and `x.com`,
  although its error text names the `www.` forms.
- `TwitterDownloader::download` succeeds once the details decode. It reads the media
  list and drops it, so a tweet without media also succeeds.
- `ResourceDownloader::download_to` does not check the response status. An error page
  is written like any other body.
- The default `download()` calls `download_to("./")`. `ResourceDownloader::download_to`
  refuses that path, because `./` is a directory.
- `get_playlist` does not check the page's status either.
- The audio download's fallback computes a `.webm` path and drops it, so it saves to
  the `.mp3` path.

## Model

| member | source | states |
|---|---|---|
| `Http.DomainOf` | src/youtube.rs:455-460 | the URL has a domain exactly when its host is a domain name, and the domain is that name |
| `Http.Received` | src/errors.rs:62-66 | `?` on a transfer: a delivered value passes through, and a transport error becomes `Reqwest` with its message |
| `Http.Performed` | src/errors.rs:75-79 | `?` on an io operation: success passes, and a failure becomes `IoError` with its message |
| `Http.HexDigit` | src/twitter.rs:189-191 | a value below 16 is spelled as a decimal digit exactly when it is below 10, and otherwise as a letter `A` to `F` or `a` to `f`, as the case is asked |
| `Http.LowerChar` | src/header.rs:23-26 | an ASCII capital becomes its small letter; every other character is kept |
| `Http.Lower` | src/header.rs:23-26 | same length, each character lower-cased, as `http` does to a static header name |
| `Http.LowerOfHeaderName` | src/header.rs:23-26 | a valid header name, which is lower case, is its own lower-cased form, so the builder's own names are stored as written |
| `Http.LowerIdempotent` | src/header.rs:23-26 | lower-casing twice equals lower-casing once |
| `Downloader.ParseUrl` | src/lib.rs:78-89 | succeeds exactly when `Url::parse` did, with that URL; every failure is `InvalidUrl`, naming the given format or the default one |
| `Downloader.ReplaceChar` | src/lib.rs:111 | `str::replace` of one character keeps the length and changes exactly the matching positions |
| `Downloader.SanitizeFileName` | src/lib.rs:110-112 | same length; each `/` or `\` becomes `\|` and every other character stays in place; the result has no `/` and no `\` |
| `Downloader.SanitizeFileNameIdempotent` | src/lib.rs:110-112 | sanitising twice equals sanitising once |
| `Downloader.DownloadStatus.constructor` | src/lib.rs:97-102 | the status flag starts at the given value |
| `Downloader.DownloadStatus.PrintDlStatus` | src/lib.rs:97-102 | the status flag is `true` afterwards, whatever it was before |
| `Downloader.Blocking` | src/lib.rs:224-238 | a runtime build failure gives `FailedToBuildBlockingRuntime` with no effects; otherwise the download's effects happen and the result is `Ok`, unless the download panicked |
| `Downloader.BlockingDiscardsResult` | src/lib.rs:236-237 | two downloads that return different results but have the same effects are indistinguishable through `blocking` |
| `Header.UserAgentIsVisibleAscii` | src/header.rs:29-34 | the fixed Firefox 84 user agent is a valid static header value, so `with_user_agent` cannot panic |
| `Header.IntoHeaderValue` | src/header.rs:119-127 | `Static(s)` and `Value(v)` convert to their text and `Name(n)` to the name's text; the result is a valid header value |
| `Header.HeaderMapBuilder.constructor` | src/header.rs:11-15 | a new builder holds the empty map |
| `Header.HeaderMapBuilder.Build` | src/header.rs:18-20 | `build` returns exactly the accumulated map, and that map is well formed |
| `Header.HeaderMapBuilder.Field` | src/header.rs:23-26 | the key, lower-cased as `http` does for a static name, maps to the converted value, replacing any earlier value; every other key keeps its value |
| `Header.HeaderMapBuilder.WithUserAgent` | src/header.rs:29-34 | `user-agent` is set to the Firefox 84 string and nothing else changes |
| `Header.HeaderMapBuilder.SetUserAgent` | src/header.rs:37-39 | only `user-agent` changes, to the given value |
| `Header.HeaderMapBuilder.Accept` | src/header.rs:42-44 | only `accept` changes, to the given value |
| `Header.HeaderMapBuilder.AcceptLanguage` | src/header.rs:47-49 | only `accept-language` changes |
| `Header.HeaderMapBuilder.Te` | src/header.rs:52-54 | only `te` changes |
| `Header.HeaderMapBuilder.Authorization` | src/header.rs:57-59 | only `authorization` changes |
| `Header.HeaderMapBuilder.ContentType` | src/header.rs:62-64 | only `content-type` changes |
| `Header.HeaderMapBuilder.ContentLength` | src/header.rs:67-69 | only `content-length` changes |
| `Header.HeaderMapBuilder.Referer` | src/header.rs:72-74 | only `referer` changes |
| `Header.HeaderMapBuilder.Origin` | src/header.rs:77-79 | only `origin` changes |
| `Header.HeaderMapBuilder.Host` | src/header.rs:82-84 | only `host` changes |
| `Header.HeaderMapBuilder.AcceptEncoding` | src/header.rs:87-89 | only `accept-encoding` changes |
| `Header.HeaderMapBuilder.Connection` | src/header.rs:92-94 | only `connection` changes |
| `Header.HeaderMapBuilder.CacheControl` | src/header.rs:97-99 | only `cache-control` changes |
| `Header.HeaderMapBuilder.Pragma` | src/header.rs:102-104 | only `pragma` changes |
| `Header.HeaderMapBuilder.ContentDisposition` | src/header.rs:107-109 | only `content-disposition` changes |
| `Header.UserAgentOnly` | src/youtube.rs:157 | `new().with_user_agent().build()` is the map with exactly one entry, `user-agent` mapped to the Firefox string |
| `Resource.ResourceDownloader.Init` | src/resource.rs:21-28 | the URL, the default client, and the user-agent header alone |
| `Resource.ResourceDownloader.New` | src/resource.rs:18-29 | fails exactly when the URL does not parse, with `parse_url`'s `InvalidUrl` for the default format; otherwise a fresh downloader with that URL, the default client and exactly one header |
| `Resource.ResourceDownloader.InitHeaders` | src/resource.rs:49-58 | exactly one entry, `user-agent` mapped to the Firefox string, and well formed |
| `Resource.ResourceDownloader.WithHeader` | src/resource.rs:31-34 | the key, lower-cased as `http` does for a static name, maps to the value, replacing any earlier value; other headers, the URL and the client are unchanged |
| `Resource.ResourceDownloader.WithHeaderValue` | src/resource.rs:35-38 | as `with_header`, for a ready header value, under the lower-cased key |
| `Resource.ResourceDownloader.WithCustomClient` | src/resource.rs:40-43 | only the client changes; the URL and headers are unchanged |
| `Resource.ResourceDownloader.RequestOf` | src/resource.rs:60-68 | the request sent is a GET of the URL carrying the downloader's headers |
| `Resource.ResourceDownloader.DownloadTo` | src/resource.rs:85-104 | a directory path is refused with `Downloader` and no effect. Otherwise the steps run in order: parent directories, file creation, request, write. Each runs only after the previous ones succeed. A failing directory creation, file creation or write is `IoError` with the file system's message. A transport error on the response or on its body is `Reqwest`, and leaves the created file behind. The call succeeds exactly when the body arrived and was written; it never panics |
| `Resource.ResourceDownloader.Download` | src/lib.rs:133-135 | `download_to("./")`: refused with no effect when `./` is a directory |
| `Json.Occurs` | src/twitter/details.rs:206-228 | a key is missing exactly when no member has it, repeated exactly when two members have it, and otherwise occurs once, with the value of every member under that key |
| `Json.OccursIgnoresOtherKey` | src/twitter/details.rs:206-228 | a member under another key does not change a key's occurrence |
| `Json.OccursAppendedKey` | src/twitter/details.rs:206-228 | a key absent from the members occurs once after one member with it is added |
| `Json.OnceIsAMember` | src/twitter/details.rs:206-228 | a key that occurs once occurs as a member with that value |
| `Json.ReaderOf` | src/twitter.rs:242-265 | `serde_json::from_str` into a type: the text reads exactly when it parses and the parsed value decodes, giving the decoded value |
| `Json.AsString` | src/twitter/details.rs:305 | a `String` field accepts exactly JSON strings, giving their text |
| `Json.AsBool` | src/twitter/details.rs:145 | a `bool` field accepts exactly JSON booleans, giving their value |
| `Json.AsU32` | src/twitter/details.rs:298 | a `u32` field accepts exactly the integers from 0 below 2^32 |
| `Json.AsU64` | src/twitter/details.rs:306 | a `u64` field accepts exactly the integers from 0 below 2^64 |
| `Json.AsU32Pair` | src/twitter/details.rs:148 | both halves of a decoded `[u32; 2]` are below 2^32 |
| `Json.AsU64Pair` | src/twitter/details.rs:179 | both halves of a decoded `[usize; 2]` are below 2^64, `usize` being 64 bits wide |
| `Json.AsFloat` | src/twitter/details.rs:297 | an `f32` field accepts exactly JSON numbers |
| `Json.AsArray` | src/twitter/details.rs:169-173 | a `Vec` field accepts only arrays, and decodes one as `Each` of its items |
| `Json.Each` | src/twitter/details.rs:169-173 | a `Vec<T>` decodes exactly when every item does, giving the items' values in order |
| `Json.AsUnsigned` | src/twitter/details.rs:262-272 | an unsigned integer field accepts exactly the integral numbers below its type's bound |
| `Json.AsPair` | src/twitter/details.rs:211 | a `[T; 2]` field accepts exactly arrays of two decodable items |
| `Json.Required` | src/twitter/details.rs:206-228 | a required field decodes exactly when its key occurs once and its value decodes |
| `Json.Optional` | src/twitter/details.rs:219-227 | an `Option` field is `None` when missing or `null` and fails when repeated; a single non-null value makes it decode exactly when that value does, holding `Some` of it |
| `Json.RequiredIgnoresOtherKey` | src/twitter/details.rs:206-228 | a member under another key does not change a required field |
| `Json.OptionalIgnoresOtherKey` | src/twitter/details.rs:219-227 | a member under another key does not change an optional field |
| `Json.EscapeChar` | src/twitter.rs:185-186 | a character is escaped, with a leading backslash, exactly when it is a quote, a backslash or a control character |
| `Json.LowerHexValue` | src/twitter.rs:185-186 | exactly the digits and the letters `a` to `f` have a value, below 16, which `HexDigit` spells back in lower case |
| `Json.UnescapeEscape` | src/twitter.rs:185-186 | serde_json's string escaping loses nothing: reading the escaped text back gives the string |
| `Json.FlatTextEndsWithString` | src/twitter.rs:186 | the compact text of a record whose last field is a string ends with that key and the escaped string, quoted |
| `PercentEncoding.EncodeByte` | src/twitter.rs:189-191 | an ASCII letter or digit is kept; any other byte becomes `%` and two upper-case hex digits spelling its value |
| `PercentEncoding.UpperHexValue` | src/twitter.rs:189-191 | the value of an upper-case hex digit, below 16, which `HexDigit` spells back in upper case |
| `PercentEncoding.PercentEncode` | src/twitter.rs:189-191 | one to three characters per byte, and exactly one per byte when every byte is an ASCII letter or digit |
| `PercentEncoding.Utf8PercentEncode` | src/twitter.rs:189-191 | the output is well encoded and decodes to the UTF-8 bytes of the input |
| `PercentEncoding.EncodedIsWellEncoded` | src/twitter.rs:189-191 | the encoding contains only letters, digits and `%XX` escapes |
| `PercentEncoding.DecodeEncode` | src/twitter.rs:189-191 | decoding the encoding gives the bytes back |
| `PercentEncoding.WellEncodedHasNoDelimiter` | src/twitter.rs:193 | well-encoded text contains no `&` and no `=`, so it cannot split the query |
| `PercentEncoding.Utf8Char` | src/twitter.rs:189-191 | one to four bytes; a single byte, equal to the code, exactly for ASCII; every byte of a longer form is at least 0x80 |
| `PercentEncoding.Utf8OfAscii` | src/twitter.rs:189-191 | an ASCII text's UTF-8 form is one byte per character, equal to its code |
| `TwitterScan.SiteAt` | src/twitter.rs:46 | the branch of `(twitter\|x)` whose prefix starts at the position, or none when neither does |
| `TwitterScan.GroupsAt` | src/twitter.rs:46 | when it finds groups, the owner has no `/`, `/status/` follows, and the id is a maximal run of digits |
| `TwitterScan.TweetMatchAt` | src/twitter.rs:46-49 | a found match satisfies the tweet pattern at the position, with a greedy digit group |
| `TwitterScan.SiteAtIsTheMatchingBranch` | src/twitter.rs:46 | when a branch's prefix starts at the position, that branch is the one found |
| `TwitterScan.GroupsAtComplete` | src/twitter.rs:46 | where the groups can match, the scanner finds them, with the same owner |
| `TwitterScan.TweetMatchAtComplete` | src/twitter.rs:46-49 | where the pattern matches, the scanner finds a match with the same branch and owner |
| `TwitterScan.TweetCapturesAreUnique` | src/twitter.rs:46-52 | at a position, a greedy match of the pattern has exactly one set of groups |
| `TwitterScan.GreedyMatchIsFound` | src/twitter.rs:46-49 | every greedy match is exactly the one the scanner returns at its position |
| `TwitterScan.GreedyGroupsAreFound` | src/twitter.rs:46 | every greedy match of the groups is the one the scanner returns |
| `TwitterScan.OwnerIsTheRunToSlash` | src/twitter.rs:46-51 | an owner with no `/`, followed by `/status/`, is the run of non-slashes |
| `TwitterScan.DigitsAreTheWholeRun` | src/twitter.rs:46-52 | a greedy digit group is the whole run of digits |
| `TwitterScan.TweetShapeIsFound` | src/twitter.rs:46-52 | for a URL of the documented shape, the leftmost match is at 0, with the owner as `status_id` and the whole digit run as `tweet_id` |
| `TwitterScan.FindTweet` | src/twitter.rs:46-49 | `captures` yields the leftmost match, with greedy groups; it yields none exactly when the pattern matches nowhere |
| `TwitterScan.LeftmostTweet` | src/twitter.rs:49 | the first position from a start where the scanner finds a match; no earlier position has one |
| `TwitterScan.TweetMatchesAreFound` | src/twitter.rs:46-49 | wherever the pattern matches, the scanner finds a match |
| `TwitterScan.RunEnd` | src/twitter.rs:46 | the end of the maximal run of characters of a class from a position |
| `TwitterScan.MainJsEndIsForced` | src/twitter.rs:84 | a main.js match's end is fixed: the hash runs to the first `.` |
| `TwitterScan.MainJsMatchAt` | src/twitter.rs:84 | the match of the main.js pattern at a position, or none when no end makes it match |
| `TwitterScan.LeftmostMainJs` | src/twitter.rs:86-89 | the first position from a start where the main.js pattern matches |
| `TwitterScan.FindMainJs` | src/twitter.rs:83-97 | the first `find_iter` match is the leftmost match; none exactly when the pattern matches nowhere |
| `TwitterScan.MainJsMatchesAreFound` | src/twitter.rs:84-89 | wherever the main.js pattern matches, the scanner finds a match there |
| `TwitterScan.BearerMatchNeedsOneMore` | src/twitter.rs:109 | a bearer match has a character after the nine `A`s, and it is no quote |
| `TwitterScan.BearerMatchAt` | src/twitter.rs:109 | the greedy bearer match at a position, or none when none starts there |
| `TwitterScan.LeftmostBearer` | src/twitter.rs:110-113 | the first position from a start where the bearer pattern matches |
| `TwitterScan.FindBearer` | src/twitter.rs:109-121 | the first `find_iter` match is the leftmost greedy match; none exactly when the pattern matches nowhere |
| `TwitterScan.BearerMatchesAreFound` | src/twitter.rs:109-113 | wherever the bearer pattern matches, the scanner finds a match there |
| `TwitterUtils.Variables.Default` | src/twitter/utils.rs:127-143 | the ten default flags (`with_rux_injections` false, `include_promoted_content` true, …) and no tweet id |
| `TwitterUtils.Variables.Flags` | src/twitter/utils.rs:66-86 | the ten flags in declaration order, starting with `with_rux_injections` and ending with `with_v2_timeline` |
| `TwitterUtils.Variables.SetTweetId` | src/twitter/utils.rs:92-94 | the id becomes `Some(id)` whatever it was, and no flag changes |
| `TwitterUtils.Variables.SetTweetIdTwice` | src/twitter/utils.rs:92-94 | of two calls the last id wins, and repeating the same id is idempotent; the flags stay |
| `TwitterUtils.Variables.Members` | src/twitter/utils.rs:64-89 | eleven serialised members, the last one `tweetId` holding the id or `null` |
| `TwitterUtils.VariablesMembers` | src/twitter/utils.rs:64-89 | the members `Variables` serialises to: eleven, ending with `tweetId` |
| `TwitterUtils.RetrieveRequestDetails` | src/twitter/utils.rs:19-38 | always succeeds, with the default features and fresh default variables |
| `TwitterUtils.VariablesTextEndsWithTweetId` | src/twitter.rs:182-186 | once a numeric id is set, the variables text ends with `,"tweetId":"<id>"}` |
| `TwitterUtils.DefaultFeatureFlags` | src/twitter/utils.rs:145-168 | the value of each of the nineteen default feature flags |
| `TwitterUtils.DecodeTrace` | src/twitter/utils.rs:122-125 | decodes exactly an object whose `trace_id` occurs once as a string, giving that string |
| `TwitterUtils.DecodeExtension` | src/twitter/utils.rs:113-120 | decodes exactly an object whose five fields each occur once and decode, `code` as a `u32`; the extension holds those values |
| `TwitterUtils.DecodeApiError` | src/twitter/utils.rs:102-111 | decodes exactly an object whose seven fields each occur once and decode, `code` as a `u32`; the error holds those values |
| `TwitterUtils.DecodeErrorResponse` | src/twitter/utils.rs:97-100 | decodes exactly an object whose `errors` occurs once as an array of decodable errors; the response holds one error per item, in order |
| `TwitterUtils.ErrorResponseNeedsErrors` | src/twitter/utils.rs:97-100 | an object with an empty `errors` array is an error response; one without `errors` is not |
| `TwitterDetails.VariantName` | src/twitter/details.rs:230-240 | a unit variant is named by a string, or by an object with one `null` member |
| `TwitterDetails.DecodeMediaType` | src/twitter/details.rs:215-240 | `photo` decodes to `Image`, `video` to `Video`, `animated_gif` to `Gif`, each exactly when the tag is that name |
| `TwitterDetails.MediaTypeTagRoundTrip` | src/twitter/details.rs:231-239 | each variant decodes back from its own name, in both spellings |
| `TwitterDetails.DecodeEmptyRecord` | src/twitter/details.rs:108-111 | an empty record accepts any object and nothing else |
| `TwitterDetails.CheckFocusRect` | src/twitter/details.rs:268-273 | accepts exactly an object with `x`, `y`, `w` and `h` each once as a `usize` |
| `TwitterDetails.CheckMediaSize` | src/twitter/details.rs:284-288 | accepts exactly an object with `h` and `w` as `usize` and a string `resize` |
| `TwitterDetails.CheckMediaSizes` | src/twitter/details.rs:276-281 | accepts exactly an object with the four sizes `large`, `medium`, `small` and `thumb` |
| `TwitterDetails.CheckFeatureFace` | src/twitter/details.rs:251-253 | accepts exactly an object whose `faces` is a list of focus rectangles |
| `TwitterDetails.CheckMediaFeatures` | src/twitter/details.rs:243-248 | accepts exactly an object with the four faces `large`, `medium`, `small` and `orig` |
| `TwitterDetails.CheckOriginalInfo` | src/twitter/details.rs:261-265 | accepts exactly an object with `height` and `width` as `usize` and a list of focus rectangles |
| `TwitterDetails.DecodeAdditionalMediaInfo` | src/twitter/details.rs:256-258 | decodes exactly an object whose `monetizable` occurs once as a boolean, giving it |
| `TwitterDetails.DecodeExtMediaAvailability` | src/twitter/details.rs:291-293 | decodes exactly an object whose `status` occurs once as a string, giving it |
| `TwitterDetails.DecodeVideoVariant` | src/twitter/details.rs:302-307 | decodes exactly an object with a string `content_type` and `url` and a valid optional `u64` `bitrate`; the variant holds those values |
| `TwitterDetails.DecodeVideoInfo` | src/twitter/details.rs:295-300 | decodes exactly an object whose `aspect_ratio` is an array of numbers, `duration_millis` an optional `u32` and `variants` a list of variants; it keeps the ratio's length, the duration and the variants |
| `TwitterDetails.DecodeMediaEntity` | src/twitter/details.rs:206-228 | decodes exactly an object whose other fields decode and whose optional `video_info` does; the entity is those fields with that video information |
| `TwitterDetails.DecodeMediaFields` | src/twitter/details.rs:206-226 | decodes exactly when each of the thirteen fields other than `video_info` decodes, required or optional as declared; the entity holds the ten kept values and no video information |
| `TwitterDetails.MediaFieldsIgnoreOtherKey` | src/twitter/details.rs:206-226 | a member under any other key leaves those fields as they were |
| `TwitterDetails.DecodeMediaList` | src/twitter/details.rs:169 | decodes exactly an array whose every item is a media entity, giving those entities in order |
| `TwitterDetails.CheckLegacyEntityUrl` | src/twitter/details.rs:176-180 | accepts exactly an object with string `display_url` and `expanded_url` and a `[usize; 2]` `indices` |
| `TwitterDetails.CheckTextIndices` | src/twitter/details.rs:183-199 | a symbol or hashtag is exactly an object with a string `text` and a `[usize; 2]` `indices` |
| `TwitterDetails.CheckUserMention` | src/twitter/details.rs:189-194 | accepts exactly an object with string `id_str`, `name` and `screen_name` and a `[usize; 2]` `indices` |
| `TwitterDetails.CheckEntityLists` | src/twitter/details.rs:168-174 | the four lists `user_mentions`, `urls`, `hashtags` and `symbols` are required, and each item must decode |
| `TwitterDetails.EntityListsIgnoreOtherKey` | src/twitter/details.rs:170-173 | the four required entity lists do not depend on members under other keys |
| `TwitterDetails.DecodeLegacyEntity` | src/twitter/details.rs:167-174 | decodes exactly when the four lists do; `media` is whatever the optional `media` field holds |
| `TwitterDetails.DecodeExtendedLegacyEntity` | src/twitter/details.rs:202-204 | decodes exactly an object whose `media` occurs once as a media list, giving that list |
| `TwitterDetails.CheckDescriptionUrl` | src/twitter/details.rs:101-106 | accepts exactly an object with three string URLs and a `[u32; 2]` `indices` |
| `TwitterDetails.CheckUrlList` | src/twitter/details.rs:91-98 | `EntityDescription` and `EntityUrl` accept exactly an object whose `urls` is a list of description URLs |
| `TwitterDetails.CheckLegacyUserEntities` | src/twitter/details.rs:85-88 | a required `description` and an optional `url`, both URL lists |
| `TwitterDetails.CheckLegacyUserTexts` | src/twitter/details.rs:53-82 | the twelve text fields of `LegacyUser`, two of them optional, decode |
| `TwitterDetails.CheckLegacyUserCounts` | src/twitter/details.rs:53-82 | the fourteen counters and flags of `LegacyUser` decode, counters as `u64` |
| `TwitterDetails.CheckLegacyUser` | src/twitter/details.rs:53-82 | accepts exactly an object whose texts, counters and `entities` decode |
| `TwitterDetails.CheckCategory` | src/twitter/details.rs:121-125 | accepts exactly an object with a `u32` `id` and string `name` and `icon_name` |
| `TwitterDetails.CheckProfessional` | src/twitter/details.rs:114-118 | accepts exactly an object with string `rest_id` and `professional_type` and a list of categories |
| `TwitterDetails.CheckUserResultValue` | src/twitter/details.rs:41-50 | accepts exactly an object whose eight fields decode, `professional` being optional |
| `TwitterDetails.CheckCore` | src/twitter/details.rs:31-33 | accepts exactly an object whose `user_results` decodes |
| `TwitterDetails.CheckUserResult` | src/twitter/details.rs:36-38 | accepts exactly an object whose `result` decodes |
| `TwitterDetails.DecodeViews` | src/twitter/details.rs:138-141 | decodes exactly an object with an optional string `count` and a string `state`, giving both |
| `TwitterDetails.DecodeQuickPromoteEligibility` | src/twitter/details.rs:310-312 | decodes exactly an object whose `eligibility` occurs once as a string, giving it |
| `TwitterDetails.DecodeLegacy` | src/twitter/details.rs:143-165 | decodes exactly an object whose nineteen fields decode, required or optional as declared; the record holds those values |
| `TwitterDetails.DecodeTweetResultValue` | src/twitter/details.rs:17-28 | decodes exactly an object whose nine fields decode; the record holds the seven kept values |
| `TwitterDetails.DecodeTweetResult` | src/twitter/details.rs:12-15 | decodes exactly an object whose `result` occurs once and decodes, holding it |
| `TwitterDetails.DecodeData` | src/twitter/details.rs:6-10 | the tweet result is read from the key `tweetResult` |
| `TwitterDetails.DecodeTweetDetails` | src/twitter/details.rs:1-4 | decodes exactly when `data` does |
| `TwitterDetails.MediasFollowPath` | src/twitter.rs:281-282 | the media `download` reads is the optional `media` list found through `data`, `tweetResult`, `result`, `legacy` and `entities`, each an object |
| `TwitterDetails.UnknownTypeRejectsMedia` | src/twitter/details.rs:215-240 | a media entity whose `type` is none of the three names does not decode |
| `TwitterDetails.MediaIsOptional` | src/twitter/details.rs:168-169 | entities without `media` decode with no media, exactly when the other lists decode |
| `TwitterDetails.VideoInfoIsOptional` | src/twitter/details.rs:227 | adding `video_info` to an entity without it changes only `video_info` |
| `TwitterDetails.BitrateIsOptional` | src/twitter/details.rs:303-306 | a variant without `bitrate` decodes with none; adding one changes only the bitrate |
| `TwitterDetails.TweetResultKeyIsCamelCase` | src/twitter/details.rs:7-10 | without `tweetResult` the data does not decode, even with a `tweet_result` member |
| `TwitterDetails.UnknownFieldIgnored` | src/twitter/details.rs:1-4 | members under undeclared keys are ignored |
| `Twitter.New` | src/twitter.rs:31-35 | a link that does not parse is `InvalidUrl` with the tweet format advice; otherwise the result depends on the parsed URL only |
| `Twitter.FromTweetUrl` | src/twitter.rs:37-64 | a host other than the bare `twitter.com` or `x.com` is `InvalidUrl`. Otherwise the pattern must match, else `TwitterError`. It succeeds exactly when both hold. Then `tweet_id` is a non-empty run of digits and `status_id` a non-empty text without `/`, both the groups of the leftmost greedy match |
| `Twitter.NewReadsOwnerAndId` | src/twitter.rs:46-58 | a tweet URL of the documented shape yields its owner as `status_id` and the whole digit run as `tweet_id` |
| `Twitter.OnlyBareHostsAreTweetHosts` | src/twitter.rs:37-43 | `twitter.com` and `x.com` are accepted; `www.twitter.com`, `www.x.com`, IP addresses and a missing host are not |
| `Twitter.PageRequest` | src/twitter.rs:74 | a GET of the tweet URL without headers |
| `Twitter.ScriptRequest` | src/twitter.rs:100 | a GET of the `main.js` URL without headers |
| `Twitter.GuestRequest` | src/twitter.rs:128-151 | a POST to the activation URL carrying `Bearer <token>` and the Firefox user agent |
| `Twitter.MainJsUrlFrom` | src/twitter.rs:73-98 | transport errors, on the response or on its body, become `Reqwest`; a status other than 200 fails before any scan; no match fails; a match gives exactly the matched text, and success is the leftmost match of the main.js pattern |
| `Twitter.BearerTokenFrom` | src/twitter.rs:99-124 | transport errors, on the response or on its body, become `Reqwest`; a status other than 200 fails, and no match is `TwitterError("Failed to find bearer token.")`. A match gives exactly the matched text. Success is the leftmost greedy match: at least ten characters, nine leading `A`s, no quote |
| `Twitter.GuestTokenHeaderMap` | src/twitter.rs:128-146 | the authorization value is `Bearer ` and the token; the user agent is the Firefox string |
| `Twitter.GuestTokenHeaders` | src/twitter.rs:128-146 | the five inserts succeed exactly when `Bearer <token>` is a valid header value, else the `expect` panics |
| `Twitter.DecodeGuestTokenResponse` | src/twitter.rs:25-28 | decodes exactly an object whose `guest_token` occurs once as a string, giving that string |
| `Twitter.GuestTokenFrom` | src/twitter.rs:148-165 | transport errors, on the response or on its body, become `Reqwest`; a status other than 200, or a delivered body that is not a guest-token object, is `TwitterError("Failed to find guest token.")`; success exactly when the body parses as a guest-token object, giving its token |
| `Twitter.Tokens` | src/twitter.rs:168-174 | the first failure of the chain is the result: the main.js error, the bearer error, a panic when `Bearer <token>` is not header text, or the guest-token error. When every step succeeds the result is the pair of their tokens |
| `Twitter.GetTokens` | src/twitter.rs:168-174 | the page, script and activation requests are sent in that order, each only after the earlier steps succeeded; the activation carries `Bearer <token>` |
| `Twitter.GetDetailsUrl` | src/twitter.rs:176-196 | the URL for the default blobs with the tweet id set (`DetailsUrlFor`); it never fails |
| `Twitter.DetailsUrlParts` | src/twitter.rs:185-193 | the URL is the endpoint, `?variables=`, the encoded variables, `&features=` and the encoded features. Neither encoded part holds `&` or `=`, and each decodes to its JSON bytes |
| `Twitter.VariablesTextHoldsTweetId` | src/twitter.rs:182-186 | the serialised default variables of a numeric id end with that id as `tweetId` |
| `Twitter.DetailsHeaderMap` | src/twitter.rs:206-215 | exactly the `authorization` and `x-guest-token` headers, with `Bearer <token>` and the guest token |
| `Twitter.DetailsRequest` | src/twitter.rs:198-220 | panics exactly when a token header value is invalid; otherwise the GET of the details URL with the two headers |
| `Twitter.DetailsRequestFor` | src/twitter.rs:198-217 | a GET of the tweet's details URL carrying exactly `authorization` with `Bearer <token>` and `x-guest-token` with the guest token |
| `Twitter.DetailsErrorMessage` | src/twitter.rs:242-246 | the fixed text, then the whole body, then a closing backtick |
| `Twitter.DetailsErrorMessageQuotesBody` | src/twitter.rs:242-246 | two different bodies give two different messages |
| `Twitter.DetailsFrom` | src/twitter.rs:258-271 | a status other than 200 is `TwitterError("Failed to get tweet details.")`; at status 200 a body transport error is `Reqwest`, a delivered body that does not read as tweet details is `TwitterError("Failed to parse tweet details.")`, and otherwise the result is the details read |
| `Twitter.Repeat` | src/twitter.rs:254 | `n` copies of the one request the loop resends |
| `Twitter.Attempts` | src/twitter.rs:227-262 | between one and eleven requests are sent, and the attempts never panic |
| `Twitter.AttemptsRetried` | src/twitter.rs:233-256 | every answer before the last was a 400 whose body reads as an error response |
| `Twitter.AttemptsLast` | src/twitter.rs:233-271 | the last answer alone decides the outcome: its transport error, a failure reading its body, or its reading as details |
| `Twitter.GetTweetDetails` | src/twitter.rs:222-272 | the loop behaves as `Attempts`, reading bodies with serde_json's parse followed by the `ErrorResponse` or `TweetDetails` decoder, and sends the same request every time; it panics only on invalid token headers |
| `Twitter.Download` | src/twitter.rs:276-285 | token failures propagate. It succeeds exactly when the tokens and the details succeed, the details read by the parse and the decoders, whatever media the tweet holds. A details failure is the failure of the retried attempts. The details requests follow the three token requests |
| `YoutubeInitialData.FilterVideosData` | src/youtube/initial_data.rs:185-192 | `Some(v)` exactly for a video entry, carrying its video; `None` for a continuation |
| `YoutubeInitialData.Videos` | src/youtube/initial_data.rs:169-173 | no more videos than entries, each from a video entry |
| `YoutubeInitialData.GetVideos` | src/youtube/initial_data.rs:168-175 | no more videos than entries, each from a video entry of the list |
| `YoutubeInitialData.VideosAppend` | src/youtube/initial_data.rs:169-173 | filtering a concatenation concatenates the filtered parts |
| `YoutubeInitialData.VideoPositions` | src/youtube/initial_data.rs:169-173 | the positions of the video entries, in increasing order, and all of them |
| `YoutubeInitialData.VideosAreTheVideoEntries` | src/youtube/initial_data.rs:168-175 | the k-th video is the video of the k-th video entry, so exactly the video entries are kept, in order |
| `YoutubeInitialData.VideosOfVideosOnly` | src/youtube/initial_data.rs:168-175 | a list without continuation entries loses nothing |
| `YoutubeInitialData.GetTitle` | src/youtube/initial_data.rs:225-238 | the text of the first run when there are runs; otherwise `YoutubeError` naming the video id; never a panic |
| `YoutubeInitialData.GetTitleIgnoresLaterRuns` | src/youtube/initial_data.rs:225-238 | runs after the first do not change the title |
| `YoutubeInitialData.TitleErrorNamesTheVideo` | src/youtube/initial_data.rs:229-235 | the error text contains the video id |
| `YoutubeInitialData.VideosData` | src/youtube/initial_data.rs:56-69 | the videos of the list at the single tab's single item section (`VideoList`), no more than its entries, each one of them |
| `YoutubeInitialData.GetPlaylistName` | src/youtube/initial_data.rs:71-73 | the metadata title, unchanged |
| `Youtube.IsValidUrl` | src/youtube.rs:455-460 | true exactly when the URL's domain is one of the four YouTube domains |
| `Youtube.NoDomainIsInvalid` | src/youtube.rs:455-460 | a URL whose host is an IP address, or that has no host, is never valid |
| `Youtube.IsPlaylist` | src/youtube.rs:48-57 | true exactly when some path segment is exactly `playlist` |
| `Youtube.Extension` | src/youtube.rs:322-356 | `mp4` for video with or without audio, `mp3` for audio, no change for a custom filter |
| `Youtube.TargetFile` | src/youtube.rs:322-356 | the path with `.mp4` for video with or without audio, with `.mp3` for audio, and unchanged for a custom filter |
| `Youtube.SaveSteps` | src/youtube.rs:322-356 | one save, or for audio an ffmpeg save with a plain save as fallback, always to the same file; a failure is the `Video` error of the plain save |
| `Youtube.DownloadVideoToPath` | src/youtube.rs:311-359 | the parent directory is created first. A failure there stops with `IoError`. Then the effects are exactly the saves of `SaveSteps`, each targeting the path with the filter's extension. Success exactly when a save succeeds; any other failure is the `Video` error of the plain save |
| `Youtube.AudioSavesMp3Only` | src/youtube.rs:331-353 | an audio download saves only to the `.mp3` path, the fallback included |
| `Youtube.GetVideo` | src/youtube.rs:95-139 | a video with the downloader's filter exactly when rusty_ytdl accepts the URL or id, else `VideoNotFound` |
| `Youtube.ScrapeVideosData` | src/youtube.rs:228-250 | a title that is not a string panics with the message of `Result::unwrap` on an `Err`; undecodable renderers give no videos; otherwise the filtered videos and the title |
| `Youtube.GetPlaylist` | src/youtube.rs:152-165 | one fetch with the user agent. A transport error on the request or its body is `Reqwest`, and a page that cannot be scraped is `YoutubeError`. Otherwise the playlist `scrape_videos_data` reads from it. The status is not checked |
| `Youtube.PageRequest` | src/youtube.rs:152-160 | a GET of the playlist URL carrying exactly the Firefox user agent |
| `Youtube.ItemTitle` | src/youtube.rs:386-392 | `get_title`, or on its failure the title from the basic information, fetched once |
| `Youtube.PlaylistItem` | src/youtube.rs:383-402 | an unknown id is `VideoNotFound` with no effect; for a known id, a failing title step is the result with its effects, and otherwise the result is that of the download to `folder/<title>`, after the title's effects |
| `Youtube.ItemResults` | src/youtube.rs:382-404 | one result per video, in playlist order |
| `Youtube.ItemEffectsAppend` | src/youtube.rs:382-404 | the effects of a playlist split in two are the first part's, then the second's, each item's effects kept together in order |
| `Youtube.FirstFailure` | src/youtube.rs:406-410 | `Ok` exactly when every result is; otherwise a failure whose predecessors all succeeded |
| `Youtube.FirstFailureIsEarliest` | src/youtube.rs:406-410 | the failure reported is that of the earliest failing item |
| `Youtube.CheckResults` | src/youtube.rs:406-410 | the loop's result is the fold's result |
| `Youtube.TitlePage` | src/youtube.rs:167-176 | the page body `get_video_title` reads, when it arrives |
| `Youtube.PlaylistDownload` | src/youtube.rs:375-411 | the page is fetched first. Success exactly when the playlist is read and every item succeeds. A playlist failure propagates |
| `Youtube.PlaylistReportsEarliestFailure` | src/youtube.rs:406-410 | a failing playlist download reports the earliest failing item's error |
| `Youtube.YoutubeDownloader.Init` | src/youtube.rs:59-65 | filter `VideoAudio`, no underscore renaming, no name, and the playlist flag |
| `Youtube.YoutubeDownloader.New` | src/youtube.rs:36-66 | parse failure, a non-YouTube domain and a URL that cannot be a base (no path segments) fail with `InvalidUrl`, and success is exactly when none applies. Then a fresh downloader with the defaults, playlist exactly when a segment is `playlist` |
| `Youtube.YoutubeDownloader.RenameWithUnderscores` | src/youtube.rs:253-256 | only the underscore flag changes, to true |
| `Youtube.YoutubeDownloader.SetName` | src/youtube.rs:263-267 | only the name changes, to `Some(name)` |
| `Youtube.YoutubeDownloader.OnlyAudio` | src/youtube.rs:272-276 | only the filter changes, to `Audio` |
| `Youtube.YoutubeDownloader.VideoAndAudio` | src/youtube.rs:281-285 | only the filter changes, to `VideoAudio` |
| `Youtube.YoutubeDownloader.OnlyVideo` | src/youtube.rs:287-291 | only the filter changes, to `Video` |
| `Youtube.YoutubeDownloader.DownloadPlaylistTo` | src/youtube.rs:375-411 | its result and effects are those of `PlaylistDownload` |
| `Youtube.YoutubeDownloader.DownloadTo` | src/youtube.rs:423-439 | a playlist goes into the folder; otherwise an unknown video is `VideoNotFound` with no effect, and a known one is saved under the path |
| `Youtube.YoutubeDownloader.Download` | src/youtube.rs:441-453 | a playlist goes into `./`. Otherwise an unknown video is `VideoNotFound` with no effect. For a known one the page is fetched and its title read; a transport error on the page or its body is `Reqwest`, and a missing title panics with the `Option::unwrap` message after the one page fetch. The video is saved under `./<title>` |

## Left out

- Network, filesystem, runtime and video library: every `reqwest` call, every `tokio::fs` and `File` operation, the `rusty_ytdl` downloads and ffmpeg are parameters. The model records what is asked of them, in order.
- Concurrency: `futures::join_all` in `download_playlist_to` runs the items concurrently. The model runs them one after another and lists their effects in playlist order. The fold over the results is modelled as written.
- The Tokio runtime inside `blocking` is a boolean saying whether it builds. `blocking_download` and `blocking_download_to` are `Blocking` applied to a download.
- Parsers: `Url::parse`, serde_json's text parser, HTML parsing with `scraper`, and the `serde_json::Value` path lookups of `scrape_videos_data` are inputs. The page scrapers yield what `ytInitialData` and the `title` element hold.
- Records decode only from JSON objects. serde's derived decoders also accept a JSON array that lists the fields in order; the model does not.
- Floating point: `VideoInfo.aspect_ratio` is checked to be an array of numbers; its values are not kept.
- Fields whose type is an empty record (`SkippedFields` and the like) are dropped from the YouTube records. They carry no information.
- Details fields that nothing reads are checked for presence and type only, not kept.
- The two "needed variable" regexes of the details loop are compiled and never used, so they are not modelled. Neither are its `println!` calls or any other printing.
- `get_dl_status` is a required trait method; `DownloadStatus` holds the flag it hands out.
- `add_underscores_in_name` and `video_name` are stored by the setters, but no download reads them, so they have no further effect.
- `HeaderValue::from_name`, `HeaderName` and `HeaderValue` are modelled as their text, with the validity rules of the `http` crate for names and values. A static name is lower-cased before it is checked; the 64 KiB limit on a name's length is not modelled.
- `Twitter.Attempts`: states the bounds on the number of requests and that there is no panic. The full outcome is stated by `AttemptsRetried` and `AttemptsLast` instead.
- `YoutubeInitialData.VideosData`: the contract bounds and locates the videos. That they are exactly the video entries in order is `VideosAreTheVideoEntries`, applied to the list.
- `src/youtube/video_data.rs` and its sub-modules are not in the module tree, so they are not part of this model. Neither are the CLI (`cli/src/main.rs`), `src/main.rs`, the examples or the tests.
- Twitter media selection (best variant, images or videos) and writing tweet media to disk do not exist in this version of the code.
- Panic messages are modelled up to the fixed text: the `Debug` form of the error that `Result::unwrap` appends is not.
- The tweet pattern's `\d` is read as the ASCII digits. That is exact for the text it scans, `Url::as_str`, which the `url` crate always writes in ASCII; the model does not constrain the `serialized` text of a parsed URL to ASCII.

=== FILE: downloader.dfy ===
/** The `Downloader` trait's provided methods (src/lib.rs): URL parsing with its error
    mapping, file-name sanitising, the print-status flag, the default download target
    and the blocking wrapper. */
module Downloader {
  import opened Errors
  import opened Http

  /** The format advice `parse_url` falls back to. */
  const DEFAULT_URL_FORMAT := "https://www.<domain>.<extension>/<parameters>"

  /** The directory the default `download()` hands to `download_to`. */
  const DEFAULT_DOWNLOAD_PATH := "./"

  function InvalidUrlFormatMessage(expected: string): string {
    "Invalid URL format! Please provide a URL in the format: " + expected
    + ". Ensure the URL includes a valid domain, extension, and any necessary parameters."
  }

  /** `parse_url`: `parsed` is what `Url::parse` returned for the link (None when it
      rejected it). Every parse failure becomes `InvalidUrl`, whose text names the
      expected format or the default one. */
  function ParseUrl(parsed: Option<Url>, expectedFormat: Option<string>): (r: Result<Url>)
    ensures r.Ok? <==> parsed.Some?
    ensures r.Ok? ==> r.value == parsed.value
    ensures !r.Ok? ==> r == Err(InvalidUrl(InvalidUrlFormatMessage(expectedFormat.GetOr(DEFAULT_URL_FORMAT))))
  {
    match parsed
    case Some(url) => Ok(url)
    case None => Err(InvalidUrl(InvalidUrlFormatMessage(expectedFormat.GetOr(DEFAULT_URL_FORMAT))))
  }

  /** `str::replace` of a one-character pattern by a one-character replacement. */
  function ReplaceChar(s: string, from: char, to: char): (r: string)
    ensures |r| == |s|
    ensures forall i :: 0 <= i < |s| ==> r[i] == (if s[i] == from then to else s[i])
  {
    if s == [] then [] else [if s[0] == from then to else s[0]] + ReplaceChar(s[1..], from, to)
  }

  /** `sanitize_file_name`: backslashes, then slashes, become `|`. */
  function SanitizeFileName(s: string): (r: string)
    ensures |r| == |s|
    ensures forall i :: 0 <= i < |s| ==> r[i] == (if s[i] == '/' || s[i] == '\\' then '|' else s[i])
    ensures '/' !in r && '\\' !in r
  {
    ReplaceChar(ReplaceChar(s, '\\', '|'), '/', '|')
  }

  /** Sanitising twice is sanitising once. */
  lemma SanitizeFileNameIdempotent(s: string)
    ensures SanitizeFileName(SanitizeFileName(s)) == SanitizeFileName(s)
  {
    var once := SanitizeFileName(s);
    var twice := SanitizeFileName(once);
    assert |twice| == |once|;
    forall i | 0 <= i < |once|
      ensures twice[i] == once[i]
    {
      assert once[i] != '/' && once[i] != '\\' by {
        assert once[i] in once;
      }
    }
  }

  /** The flag `get_dl_status` hands out, owned by a downloader. */
  class DownloadStatus {
    var printDownloadStatus: bool

    constructor (initial: bool)
      ensures printDownloadStatus == initial
    {
      printDownloadStatus := initial;
    }

    /** `print_dl_status`: the flag is `true` afterwards, whatever it was. */
    method PrintDlStatus()
      modifies this
      ensures printDownloadStatus
    {
      printDownloadStatus := true;
    }
  }

  /** `blocking`: when the runtime builds, the future runs to completion and its result
      is dropped (a panic inside it still unwinds through `block_on`); when the
      runtime does not build the future is never polled, so it has no effects. */
  function Blocking<E>(runtimeBuilds: bool, download: (Result<()>, seq<E>)): (r: (Result<()>, seq<E>))
    ensures !runtimeBuilds ==> r == (Err(FailedToBuildBlockingRuntime("Failed to build blocking runtime")), [])
    ensures runtimeBuilds ==> r.1 == download.1
    ensures runtimeBuilds && !download.0.Panic? ==> r.0 == Ok(())
    ensures runtimeBuilds && download.0.Panic? ==> r.0 == download.0
  {
    if !runtimeBuilds then
      (Err(FailedToBuildBlockingRuntime("Failed to build blocking runtime")), [])
    else if download.0.Panic? then
      download
    else
      (Ok(()), download.1)
  }

  /** Two downloads with the same effects that return (rather than panic) look the
      same through `blocking`: their results are discarded. */
  lemma BlockingDiscardsResult<E>(runtimeBuilds: bool, a: Result<()>, b: Result<()>, effects: seq<E>)
    requires !a.Panic? && !b.Panic?
    ensures Blocking(runtimeBuilds, (a, effects)) == Blocking(runtimeBuilds, (b, effects))
  {
  }
}

=== FILE: errors.dfy ===
/** The library's error type (src/errors.rs) and the failure-compatible wrappers used
    throughout the model. */
module Errors {

  /** The conventional optional value. */
  datatype Option<+T> = None | Some(value: T) {
    function GetOr(default: T): T {
      match this
      case Some(v) => v
      case None => default
    }

    predicate IsFailure() {
      None?
    }

    function PropagateFailure<U>(): Option<U>
      requires None?
    {
      None
    }

    function Extract(): T
      requires Some?
    {
      value
    }
  }

  /** Every variant of `DownloadError`. Variants that wrap a foreign error value
      (reqwest, io, url, rusty_ytdl) carry that error's message instead. */
  datatype DownloadError =
    | Reqwest(message: string)
    | IoError(message: string)
    | ParseError(message: string)
    | InvalidUrl(message: string)
    | VideoNotFound(message: string)
    | FailedToBuildBlockingRuntime(message: string)
    | Downloader(message: string)
    | TwitterError(message: string)
    | Video(message: string)
    | YoutubeError(message: string)

  /** `Result<T, DownloadError>`, plus `Panic` for an `expect` that fails: a panic
      unwinds out of the operation instead of being returned to the caller. */
  datatype Result<+T> = Ok(value: T) | Err(error: DownloadError) | Panic(reason: string) {
    predicate IsFailure() {
      !Ok?
    }

    function PropagateFailure<U>(): (r: Result<U>)
      requires IsFailure()
      ensures r.Err? <==> Err?
      ensures Err? ==> r.error == error
      ensures Panic? ==> r.Panic? && r.reason == reason
    {
      if Err? then Err(error) else Panic(reason)
    }

    function Extract(): T
      requires Ok?
    {
      value
    }
  }
}

=== FILE: header.dfy ===
/** `HeaderMapBuilder` and `HeaderBuilderValue` (src/header.rs): a builder that
    accumulates header fields in a map (the source's `map` field, named `entries`
    here because `map` is a Dafny keyword), one insert-or-replace at a time. */
module Header {
  import opened Http

  const USER_AGENT := "user-agent"
  const ACCEPT := "accept"
  const ACCEPT_LANGUAGE := "accept-language"
  const TE := "te"
  const AUTHORIZATION := "authorization"
  const CONTENT_TYPE := "content-type"
  const CONTENT_LENGTH := "content-length"
  const REFERER := "referer"
  const ORIGIN := "origin"
  const HOST := "host"
  const ACCEPT_ENCODING := "accept-encoding"
  const CONNECTION := "connection"
  const CACHE_CONTROL := "cache-control"
  const PRAGMA := "pragma"
  const CONTENT_DISPOSITION := "content-disposition"

  /** The browser user agent the library sends by default. */
  const FIREFOX_USER_AGENT := "Mozilla/5.0 (Windows NT 10.0; Win64; x64; rv:84.0) Gecko/20100101 Firefox/84.0"

  lemma UserAgentHead()
    ensures IsVisibleAsciiValue("Mozilla/5.0 (Windows NT 10.0; Win64; x64")
  {
  }

  lemma UserAgentTail()
    ensures IsVisibleAsciiValue("; rv:84.0) Gecko/20100101 Firefox/84.0")
  {
  }

  /** The fixed user agent is a valid static header value (checked in two halves:
      the solver does not unfold an 80-character literal in one step). */
  lemma UserAgentIsVisibleAscii()
    ensures IsVisibleAsciiValue(FIREFOX_USER_AGENT)
  {
    UserAgentHead();
    UserAgentTail();
    VisibleAsciiConcat("Mozilla/5.0 (Windows NT 10.0; Win64; x64", "; rv:84.0) Gecko/20100101 Firefox/84.0");
  }

  /** The three things a setter accepts: a static string, a ready header value, or a
      header name used as a value. */
  datatype HeaderBuilderValue = Static(text: string) | Value(value: string) | Name(name: string)

  /** What converting can succeed on: `HeaderValue::from_static` panics unless the
      string is visible ASCII; values and names are valid by construction. */
  predicate Convertible(v: HeaderBuilderValue) {
    match v
    case Static(s) => IsVisibleAsciiValue(s)
    case Value(s) => IsHeaderValueText(s)
    case Name(n) => IsHeaderName(n)
  }

  /** `Into<HeaderValue> for HeaderBuilderValue`. */
  function IntoHeaderValue(v: HeaderBuilderValue): (r: string)
    requires Convertible(v)
    ensures IsHeaderValueText(r)
    ensures v.Static? ==> r == v.text
    ensures v.Value? ==> r == v.value
    ensures v.Name? ==> r == v.name
  {
    match v
    case Static(s) => VisibleAsciiIsHeaderValueText(s); s
    case Value(s) => s
    case Name(n) => HeaderNameIsVisibleAscii(n); VisibleAsciiIsHeaderValueText(n); n
  }

  /** Every key of the map is a header name and every value a valid header value. */
  ghost predicate WellFormed(m: HeaderMap) {
    forall k :: k in m ==> IsHeaderName(k) && IsHeaderValueText(m[k])
  }

  class HeaderMapBuilder {
    var entries: HeaderMap

    ghost predicate Valid()
      reads this
    {
      WellFormed(entries)
    }

    /** `new`: an empty map. */
    constructor ()
      ensures Valid() && entries == map[]
    {
      entries := map[];
    }

    /** `build`: the accumulated map. */
    method Build() returns (m: HeaderMap)
      requires Valid()
      ensures m == entries && WellFormed(m)
    {
      m := entries;
    }

    /** `field`: the key, a header name or a static string in either case, is
        stored under its lower-case name, which now maps to the converted value,
        replacing any earlier one; every other key keeps its value. */
    method Field(key: string, val: HeaderBuilderValue)
      requires Valid() && IsStaticHeaderName(key) && Convertible(val)
      modifies this
      ensures Valid()
      ensures entries == old(entries)[Lower(key) := IntoHeaderValue(val)]
    {
      entries := entries[Lower(key) := IntoHeaderValue(val)];
    }

    /** `with_user_agent`: the fixed Firefox 84 user agent. */
    method WithUserAgent()
      requires Valid()
      modifies this
      ensures Valid() && entries == old(entries)[USER_AGENT := FIREFOX_USER_AGENT]
    {
      UserAgentIsVisibleAscii();
      LowerOfHeaderName(USER_AGENT);
      Field(USER_AGENT, Static(FIREFOX_USER_AGENT));
    }

    method SetUserAgent(v: HeaderBuilderValue)
      requires Valid() && Convertible(v)
      modifies this
      ensures Valid() && entries == old(entries)[USER_AGENT := IntoHeaderValue(v)]
    {
      LowerOfHeaderName(USER_AGENT);
      Field(USER_AGENT, v);
    }

    method Accept(v: HeaderBuilderValue)
      requires Valid() && Convertible(v)
      modifies this
      ensures Valid() && entries == old(entries)[ACCEPT := IntoHeaderValue(v)]
    {
      LowerOfHeaderName(ACCEPT);
      Field(ACCEPT, v);
    }

    method AcceptLanguage(v: HeaderBuilderValue)
      requires Valid() && Convertible(v)
      modifies this
      ensures Valid() && entries == old(entries)[ACCEPT_LANGUAGE := IntoHeaderValue(v)]
    {
      LowerOfHeaderName(ACCEPT_LANGUAGE);
      Field(ACCEPT_LANGUAGE, v);
    }

    method Te(v: HeaderBuilderValue)
      requires Valid() && Convertible(v)
      modifies this
      ensures Valid() && entries == old(entries)[TE := IntoHeaderValue(v)]
    {
      LowerOfHeaderName(TE);
      Field(TE, v);
    }

    method Authorization(v: HeaderBuilderValue)
      requires Valid() && Convertible(v)
      modifies this
      ensures Valid() && entries == old(entries)[AUTHORIZATION := IntoHeaderValue(v)]
    {
      LowerOfHeaderName(AUTHORIZATION);
      Field(AUTHORIZATION, v);
    }

    method ContentType(v: HeaderBuilderValue)
      requires Valid() && Convertible(v)
      modifies this
      ensures Valid() && entries == old(entries)[CONTENT_TYPE := IntoHeaderValue(v)]
    {
      LowerOfHeaderName(CONTENT_TYPE);
      Field(CONTENT_TYPE, v);
    }

    method ContentLength(v: HeaderBuilderValue)
      requires Valid() && Convertible(v)
      modifies this
      ensures Valid() && entries == old(entries)[CONTENT_LENGTH := IntoHeaderValue(v)]
    {
      LowerOfHeaderName(CONTENT_LENGTH);
      Field(CONTENT_LENGTH, v);
    }

    method Referer(v: HeaderBuilderValue)
      requires Valid() && Convertible(v)
      modifies this
      ensures Valid() && entries == old(entries)[REFERER := IntoHeaderValue(v)]
    {
      LowerOfHeaderName(REFERER);
      Field(REFERER, v);
    }

    method Origin(v: HeaderBuilderValue)
      requires Valid() && Convertible(v)
      modifies this
      ensures Valid() && entries == old(entries)[ORIGIN := IntoHeaderValue(v)]
    {
      LowerOfHeaderName(ORIGIN);
      Field(ORIGIN, v);
    }

    method Host(v: HeaderBuilderValue)
      requires Valid() && Convertible(v)
      modifies this
      ensures Valid() && entries == old(entries)[HOST := IntoHeaderValue(v)]
    {
      LowerOfHeaderName(HOST);
      Field(HOST, v);
    }

    method AcceptEncoding(v: HeaderBuilderValue)
      requires Valid() && Convertible(v)
      modifies this
      ensures Valid() && entries == old(entries)[ACCEPT_ENCODING := IntoHeaderValue(v)]
    {
      LowerOfHeaderName(ACCEPT_ENCODING);
      Field(ACCEPT_ENCODING, v);
    }

    method Connection(v: HeaderBuilderValue)
      requires Valid() && Convertible(v)
      modifies this
      ensures Valid() && entries == old(entries)[CONNECTION := IntoHeaderValue(v)]
    {
      LowerOfHeaderName(CONNECTION);
      Field(CONNECTION, v);
    }

    method CacheControl(v: HeaderBuilderValue)
      requires Valid() && Convertible(v)
      modifies this
      ensures Valid() && entries == old(entries)[CACHE_CONTROL := IntoHeaderValue(v)]
    {
      LowerOfHeaderName(CACHE_CONTROL);
      Field(CACHE_CONTROL, v);
    }

    method Pragma(v: HeaderBuilderValue)
      requires Valid() && Convertible(v)
      modifies this
      ensures Valid() && entries == old(entries)[PRAGMA := IntoHeaderValue(v)]
    {
      LowerOfHeaderName(PRAGMA);
      Field(PRAGMA, v);
    }

    method ContentDisposition(v: HeaderBuilderValue)
      requires Valid() && Convertible(v)
      modifies this
      ensures Valid() && entries == old(entries)[CONTENT_DISPOSITION := IntoHeaderValue(v)]
    {
      LowerOfHeaderName(CONTENT_DISPOSITION);
      Field(CONTENT_DISPOSITION, v);
    }
  }

  /** The builder chain the YouTube page fetches use: `new().with_user_agent().build()`
      yields exactly one header, the user agent. */
  method UserAgentOnly() returns (m: HeaderMap)
    ensures m == map[USER_AGENT := FIREFOX_USER_AGENT]
  {
    var b := new HeaderMapBuilder();
    b.WithUserAgent();
    m := b.Build();
  }
}

=== FILE: http.dfy ===
/** The pieces of the HTTP stack (url, reqwest, http) that the library's decisions
    depend on, as plain values: a parsed URL, requests, responses and header rules. */
module Http {
  import opened Errors

  type byte = x: int | 0 <= x < 256

  /** The host part of a parsed URL: `url::Host::Domain` or an IP address. */
  datatype Host = Domain(name: string) | IpAddress(text: string)

  /** What `Url::parse` produced: its host, its serialization (`as_str`) and its path
      segments (`path_segments`, None for a cannot-be-a-base URL). */
  datatype Url = Url(host: Option<Host>, serialized: string, pathSegments: Option<seq<string>>)

  /** `Url::domain`: the host when it is a domain name. */
  function DomainOf(url: Url): (d: Option<string>)
    ensures d.Some? <==> url.host.Some? && url.host.value.Domain?
    ensures d.Some? ==> d.value == url.host.value.name
  {
    match url.host
    case Some(Domain(name)) => Some(name)
    case _ => None
  }

  /** A reqwest client handle: the default one or one supplied by the caller. */
  datatype Client = DefaultClient | CustomClient(id: nat)

  datatype Verb = Get | Post

  /** Header maps are keyed by lower-case header names; an insert replaces every
      earlier value of its key. */
  type HeaderMap = map<string, string>

  /** A request as it leaves the client. */
  datatype Request = Request(verb: Verb, url: string, headers: HeaderMap)

  /** The outcome of a transfer: the value, or the transport error reqwest reports. */
  datatype Transfer<+T> = Delivered(value: T) | TransportError(message: string)

  /** A response: its status and the outcome of reading its body (`text`/`bytes`). */
  datatype Response = Response(status: nat, body: Transfer<string>)

  /** The answer the network gives to each request. */
  type Net = Request -> Transfer<Response>

  /** A filesystem operation's outcome; failures are `std::io::Error`s. */
  datatype IoOutcome = IoOk | IoFailed(message: string)

  /** The hex digit of a value below 16, upper- or lower-case. */
  function HexDigit(d: nat, upper: bool): (c: char)
    requires d < 16
    ensures ('0' <= c <= '9') <==> d < 10
    ensures upper ==> ('0' <= c <= '9') || ('A' <= c <= 'F')
    ensures !upper ==> ('0' <= c <= '9') || ('a' <= c <= 'f')
  {
    if d < 10 then ('0' as int + d) as char
    else if upper then ('A' as int + d - 10) as char
    else ('a' as int + d - 10) as char
  }

  /** A character that may appear in a header name (RFC 7230 token characters),
      lower-case only: `HeaderName::from_static` panics on anything else. */
  predicate IsNameChar(c: char) {
    ('a' <= c <= 'z') || ('0' <= c <= '9') || c in "!#$%&'*+-.^_`|~"
  }

  predicate IsHeaderName(s: string) {
    |s| > 0 && forall i :: 0 <= i < |s| ==> IsNameChar(s[i])
  }

  /** An ASCII letter in lower case; every other character unchanged. */
  function LowerChar(c: char): (l: char)
    ensures 'A' <= c <= 'Z' ==> 'a' <= l <= 'z' && l as int - 'a' as int == c as int - 'A' as int
    ensures !('A' <= c <= 'Z') ==> l == c
  {
    if 'A' <= c <= 'Z' then (c as int - 'A' as int + 'a' as int) as char else c
  }

  /** The text with its ASCII letters in lower case. */
  function Lower(s: string): (r: string)
    ensures |r| == |s| && forall i :: 0 <= i < |s| ==> r[i] == LowerChar(s[i])
  {
    if s == [] then [] else [LowerChar(s[0])] + Lower(s[1..])
  }

  /** A header name is already in lower case. */
  lemma {:induction false} LowerOfHeaderName(s: string)
    requires IsHeaderName(s)
    ensures Lower(s) == s
  {
    forall i | 0 <= i < |s|
      ensures Lower(s)[i] == s[i]
    {
      assert IsNameChar(s[i]);
    }
  }

  /** Lowering twice is lowering once. */
  lemma LowerIdempotent(s: string)
    ensures Lower(Lower(s)) == Lower(s)
  {
    assert forall i :: 0 <= i < |s| ==> Lower(Lower(s))[i] == Lower(s)[i];
  }

  /** What a `&'static str` key (`IntoHeaderName`) accepts: token characters in
      either case, stored under the lower-case name; anything else panics. */
  predicate IsStaticHeaderName(s: string) {
    IsHeaderName(Lower(s))
  }

  /** What `HeaderValue::from_static` accepts: visible ASCII and horizontal tab. */
  predicate IsVisibleAsciiValue(s: string) {
    forall i :: 0 <= i < |s| ==> s[i] == '\t' || (32 <= s[i] as int < 127)
  }

  /** What `HeaderValue::from_str`/`from_bytes` accept: no control byte other than tab
      and no DEL. Bytes of a non-ASCII character's UTF-8 form are all at least 0x80,
      so they are accepted. */
  predicate IsHeaderValueText(s: string) {
    forall i :: 0 <= i < |s| ==> s[i] == '\t' || (32 <= s[i] as int && s[i] as int != 127)
  }

  lemma VisibleAsciiConcat(a: string, b: string)
    requires IsVisibleAsciiValue(a) && IsVisibleAsciiValue(b)
    ensures IsVisibleAsciiValue(a + b)
  {
    forall k | 0 <= k < |a + b|
      ensures (a + b)[k] == '\t' || (32 <= (a + b)[k] as int < 127)
    {
      if k < |a| {
        assert (a + b)[k] == a[k];
      } else {
        assert (a + b)[k] == b[k - |a|];
      }
    }
  }

  lemma VisibleAsciiIsHeaderValueText(s: string)
    requires IsVisibleAsciiValue(s)
    ensures IsHeaderValueText(s)
  {
  }

  /** A name is a valid header value: names are visible ASCII. */
  lemma HeaderNameIsVisibleAscii(s: string)
    requires IsHeaderName(s)
    ensures IsVisibleAsciiValue(s)
  {
    forall i | 0 <= i < |s|
      ensures s[i] == '\t' || (32 <= s[i] as int < 127)
    {
      assert IsNameChar(s[i]);
    }
  }

  /** `?` on a transfer: a transport error becomes `DownloadError::Reqwest`. */
  function Received<T>(t: Transfer<T>): (r: Result<T>)
    ensures t.Delivered? <==> r.Ok?
    ensures t.Delivered? ==> r.value == t.value
    ensures t.TransportError? ==> r == Err(Reqwest(t.message))
  {
    match t
    case Delivered(v) => Ok(v)
    case TransportError(m) => Err(Reqwest(m))
  }

  /** `?` on an io result: a failure becomes `DownloadError::IoError`. */
  function Performed(o: IoOutcome): (r: Result<()>)
    ensures o.IoOk? <==> r.Ok?
    ensures o.IoFailed? ==> r == Err(IoError(o.message))
  {
    match o
    case IoOk => Ok(())
    case IoFailed(m) => Err(IoError(m))
  }
}

=== FILE: json.dfy ===
/** JSON values as serde_json hands them to serde, serde's derived decoding rules
    for records (required fields, `Option` fields, unknown fields, duplicate
    fields), and serde_json's compact text form for the records the library
    sends. The text parser itself is not modelled: a parse is an input. */
module Json {
  import opened Errors
  import Http

  /** A JSON value. `Int` is a number written without fraction or exponent; `Float`
      is any other number, whose value the model does not need. Object members
      keep their order and may repeat a key, as JSON text can. */
  datatype Json =
    | Null
    | Bool(b: bool)
    | Int(n: int)
    | Float
    | Str(s: string)
    | Array(items: seq<Json>)
    | Object(members: seq<(string, Json)>)

  /** serde_json's parser applied to a text: the value, or None for invalid JSON. */
  type Parser = string -> Option<Json>

  /** `serde_json::from_str::<T>` for one target type T: the decoded value, or None
      when the text is no JSON or does not fit T. */
  type Reader<T> = string -> Option<T>

  /** The reader of a type T made of serde_json's parser and T's derived decoder. */
  function ReaderOf<T>(parse: Parser, decode: Json -> Option<T>): (read: Reader<T>)
    ensures forall text :: read(text).Some? <==> parse(text).Some? && decode(parse(text).value).Some?
    ensures forall text :: read(text).Some? ==> read(text).value == decode(parse(text).value).value
  {
    text => if parse(text).Some? then decode(parse(text).value) else None
  }

  const U32_BOUND: nat := 0x1_0000_0000
  const U64_BOUND: nat := 0x1_0000_0000_0000_0000

  /** How often a key occurs among an object's members. */
  datatype Occurrence = Missing | Once(value: Json) | Repeated

  predicate HasKey(members: seq<(string, Json)>, key: string) {
    exists i :: 0 <= i < |members| && members[i].0 == key
  }

  /** Two different members carry `key`. */
  predicate HasKeyTwice(members: seq<(string, Json)>, key: string) {
    exists i, j :: 0 <= i < j < |members| && members[i].0 == key && members[j].0 == key
  }

  /** How the two predicates split over the first member and the rest. */
  lemma KeysOfTail(members: seq<(string, Json)>, key: string)
    requires |members| > 0
    ensures HasKey(members, key) <==> members[0].0 == key || HasKey(members[1..], key)
    ensures HasKeyTwice(members, key) <==>
              (members[0].0 == key && HasKey(members[1..], key)) || HasKeyTwice(members[1..], key)
  {
    var tail := members[1..];
    if HasKey(tail, key) {
      var i :| 0 <= i < |tail| && tail[i].0 == key;
      assert members[i + 1].0 == key;
    }
    if HasKey(members, key) && members[0].0 != key {
      var i :| 0 <= i < |members| && members[i].0 == key;
      assert tail[i - 1].0 == key;
    }
    if members[0].0 == key && HasKey(tail, key) {
      var i :| 0 <= i < |tail| && tail[i].0 == key;
      assert members[0].0 == key && members[i + 1].0 == key;
    }
    if HasKeyTwice(tail, key) {
      var i, j :| 0 <= i < j < |tail| && tail[i].0 == key && tail[j].0 == key;
      assert members[i + 1].0 == key && members[j + 1].0 == key;
    }
    if HasKeyTwice(members, key) && !HasKeyTwice(tail, key) {
      var i, j :| 0 <= i < j < |members| && members[i].0 == key && members[j].0 == key;
      assert tail[j - 1].0 == key;
    }
  }

  /** The occurrence of `key`: absent, present once with its value, or repeated.
      `Once` holds the value of the only member with the key. */
  function Occurs(members: seq<(string, Json)>, key: string): (o: Occurrence)
    ensures o.Missing? <==> !HasKey(members, key)
    ensures o.Repeated? <==> HasKeyTwice(members, key)
    ensures o.Once? ==> forall i :: 0 <= i < |members| && members[i].0 == key ==> members[i] == (key, o.value)
  {
    if members == [] then Missing
    else
      var rest := Occurs(members[1..], key);
      KeysOfTail(members, key);
      assert forall i :: 1 <= i < |members| ==> members[i] == members[1..][i - 1];
      if members[0].0 == key then
        (if rest.Missing? then Once(members[0].1) else Repeated)
      else
        rest
  }

  /** A key that occurs once is carried by a member. */
  lemma OnceIsAMember(members: seq<(string, Json)>, key: string)
    requires Occurs(members, key).Once?
    ensures (key, Occurs(members, key).value) in members
  {
    var i :| 0 <= i < |members| && members[i].0 == key;
  }

  /** A member whose key is not `key` does not change how `key` occurs. */
  lemma {:induction false} OccursIgnoresOtherKey(members: seq<(string, Json)>, k: string, v: Json, key: string)
    requires k != key
    ensures Occurs(members + [(k, v)], key) == Occurs(members, key)
  {
    if members == [] {
      assert members + [(k, v)] == [(k, v)];
      assert [(k, v)][1..] == [];
    } else {
      assert (members + [(k, v)])[1..] == members[1..] + [(k, v)];
      OccursIgnoresOtherKey(members[1..], k, v, key);
    }
  }

  /** A member appended under a key the object lacks occurs exactly once. */
  lemma {:induction false} OccursAppendedKey(members: seq<(string, Json)>, key: string, v: Json)
    requires !HasKey(members, key)
    ensures Occurs(members + [(key, v)], key) == Once(v)
  {
    if members == [] {
      assert members + [(key, v)] == [(key, v)];
      assert [(key, v)][1..] == [];
    } else {
      assert (members + [(key, v)])[1..] == members[1..] + [(key, v)];
      assert members[0].0 != key;
      assert forall i :: 0 <= i < |members[1..]| ==> members[1..][i] == members[i + 1];
      OccursAppendedKey(members[1..], key, v);
    }
  }

  function AsString(j: Json): (r: Option<string>)
    ensures r.Some? <==> j.Str?
    ensures r.Some? ==> r.value == j.s
  {
    if j.Str? then Some(j.s) else None
  }

  function AsBool(j: Json): (r: Option<bool>)
    ensures r.Some? <==> j.Bool?
    ensures r.Some? ==> r.value == j.b
  {
    if j.Bool? then Some(j.b) else None
  }

  /** An unsigned integer type with `bound` values: only an integral number in range
      decodes (a fraction, a negative number or an overflow is an error). */
  function AsUnsigned(j: Json, bound: nat): (r: Option<nat>)
    ensures r.Some? <==> j.Int? && 0 <= j.n < bound
    ensures r.Some? ==> r.value == j.n && r.value < bound
  {
    if j.Int? && 0 <= j.n < bound then Some(j.n) else None
  }

  function AsU32(j: Json): (r: Option<nat>)
    ensures r.Some? <==> j.Int? && 0 <= j.n < U32_BOUND
  {
    AsUnsigned(j, U32_BOUND)
  }

  /** `u64`, and `usize` on a 64-bit target. */
  function AsU64(j: Json): (r: Option<nat>)
    ensures r.Some? <==> j.Int? && 0 <= j.n < U64_BOUND
  {
    AsUnsigned(j, U64_BOUND)
  }

  /** `[u32; 2]`. */
  function AsU32Pair(j: Json): (r: Option<(nat, nat)>)
    ensures r.Some? ==> r.value.0 < U32_BOUND && r.value.1 < U32_BOUND
  {
    AsPair(j, AsU32)
  }

  /** `[usize; 2]` on a 64-bit target. */
  function AsU64Pair(j: Json): (r: Option<(nat, nat)>)
    ensures r.Some? ==> r.value.0 < U64_BOUND && r.value.1 < U64_BOUND
  {
    AsPair(j, AsU64)
  }

  /** `f32`: any number decodes; its value is not modelled. */
  function AsFloat(j: Json): (r: Option<()>)
    ensures r.Some? <==> j.Int? || j.Float?
  {
    if j.Int? || j.Float? then Some(()) else None
  }

  /** `Vec<T>`: an array whose every item decodes, in order. */
  function Each<T>(items: seq<Json>, decode: Json -> Option<T>): (r: Option<seq<T>>)
    ensures r.Some? <==> forall i :: 0 <= i < |items| ==> decode(items[i]).Some?
    ensures r.Some? ==> |r.value| == |items|
    ensures r.Some? ==> forall i :: 0 <= i < |items| ==> r.value[i] == decode(items[i]).value
  {
    if items == [] then Some([])
    else
      var head :- decode(items[0]);
      var tail :- Each(items[1..], decode);
      Some([head] + tail)
  }

  function AsArray<T>(j: Json, decode: Json -> Option<T>): (r: Option<seq<T>>)
    ensures r.Some? ==> j.Array? && |r.value| == |j.items|
    ensures j.Array? ==> r == Each(j.items, decode)
  {
    if j.Array? then Each(j.items, decode) else None
  }

  /** `[T; 2]`: an array of exactly two decodable items. */
  function AsPair<T>(j: Json, decode: Json -> Option<T>): (r: Option<(T, T)>)
    ensures r.Some? <==> j.Array? && |j.items| == 2 && decode(j.items[0]).Some? && decode(j.items[1]).Some?
    ensures r.Some? ==> r.value == (decode(j.items[0]).value, decode(j.items[1]).value)
  {
    if j.Array? && |j.items| == 2 then
      var a :- decode(j.items[0]);
      var b :- decode(j.items[1]);
      Some((a, b))
    else None
  }

  /** A required field of a derived record: present exactly once and decodable. */
  function Required<T>(j: Json, key: string, decode: Json -> Option<T>): (r: Option<T>)
    requires j.Object?
    ensures r.Some? <==> Occurs(j.members, key).Once? && decode(Occurs(j.members, key).value).Some?
    ensures r.Some? ==> r.value == decode(Occurs(j.members, key).value).value
  {
    match Occurs(j.members, key)
    case Once(v) => decode(v)
    case _ => None
  }

  /** An `Option<T>` field: missing or `null` is `None`; otherwise the value must
      decode. A repeated key is an error like for any field. */
  function Optional<T>(j: Json, key: string, decode: Json -> Option<T>): (r: Option<Option<T>>)
    requires j.Object?
    ensures Occurs(j.members, key).Missing? ==> r == Some(None)
    ensures Occurs(j.members, key) == Once(Null) ==> r == Some(None)
    ensures Occurs(j.members, key).Repeated? ==> r.None?
    ensures Occurs(j.members, key).Once? && !Occurs(j.members, key).value.Null? ==>
              (r.Some? <==> decode(Occurs(j.members, key).value).Some?)
              && (r.Some? ==> r.value == Some(decode(Occurs(j.members, key).value).value))
  {
    match Occurs(j.members, key)
    case Missing => Some(None)
    case Repeated => None
    case Once(v) =>
      if v.Null? then Some(None)
      else
        var x :- decode(v);
        Some(Some(x))
  }

  /** A member under another key does not change a required field. */
  lemma RequiredIgnoresOtherKey<T>(members: seq<(string, Json)>, k: string, v: Json, key: string, decode: Json -> Option<T>)
    requires k != key
    ensures Required(Object(members + [(k, v)]), key, decode) == Required(Object(members), key, decode)
  {
    OccursIgnoresOtherKey(members, k, v, key);
  }

  /** Nor an optional one. */
  lemma OptionalIgnoresOtherKey<T>(members: seq<(string, Json)>, k: string, v: Json, key: string, decode: Json -> Option<T>)
    requires k != key
    ensures Optional(Object(members + [(k, v)]), key, decode) == Optional(Object(members), key, decode)
  {
    OccursIgnoresOtherKey(members, k, v, key);
  }

  // serde_json's compact text form

  /** The value of a lower-case hex digit, None for any other character. */
  function LowerHexValue(c: char): (d: Option<nat>)
    ensures d.Some? <==> ('0' <= c <= '9') || ('a' <= c <= 'f')
    ensures d.Some? ==> d.value < 16 && Http.HexDigit(d.value, false) == c
  {
    if '0' <= c <= '9' then Some(c as int - '0' as int)
    else if 'a' <= c <= 'f' then Some(c as int - 'a' as int + 10)
    else None
  }

  /** serde_json's escape of one string character: quote and backslash, the five
      short escapes, `\u00xx` (lower-case hex) for the other control characters,
      everything else verbatim. */
  function EscapeChar(c: char): (r: string)
    ensures |r| >= 1
    ensures r[0] == '\\' <==> (c == '"' || c == '\\' || c < ' ')
  {
    if c == '"' then "\\\""
    else if c == '\\' then "\\\\"
    else if c == '\U{8}' then "\\b"
    else if c == '\U{C}' then "\\f"
    else if c == '\n' then "\\n"
    else if c == '\r' then "\\r"
    else if c == '\t' then "\\t"
    else if c < ' ' then ['\\', 'u', '0', '0', Http.HexDigit(c as int / 16, false), Http.HexDigit(c as int % 16, false)]
    else [c]
  }

  function Escape(s: string): (r: string)
    ensures |r| >= |s|
  {
    if s == [] then [] else EscapeChar(s[0]) + Escape(s[1..])
  }

  /** Reads back an escaped string body (the inverse of `Escape`). */
  function Unescape(t: string): (r: Option<string>)
    decreases |t|
  {
    if t == [] then Some([])
    else if t[0] != '\\' then
      var rest :- Unescape(t[1..]);
      Some([t[0]] + rest)
    else if |t| < 2 then None
    else
      var e := t[1];
      if e == 'u' then
        if |t| < 6 || t[2] != '0' || t[3] != '0' then None
        else
          var hi :- LowerHexValue(t[4]);
          var lo :- LowerHexValue(t[5]);
          var rest :- Unescape(t[6..]);
          Some([(hi * 16 + lo) as char] + rest)
      else
        var c :- (if e == '"' then Some('"') else if e == '\\' then Some('\\')
                  else if e == 'b' then Some('\U{8}') else if e == 'f' then Some('\U{C}')
                  else if e == 'n' then Some('\n') else if e == 'r' then Some('\r')
                  else if e == 't' then Some('\t') else None);
        var rest :- Unescape(t[2..]);
        Some([c] + rest)
  }

  lemma UnescapeEscapeChar(c: char, rest: string)
    ensures Unescape(EscapeChar(c) + rest) == (var u :- Unescape(rest); Some([c] + u))
  {
    var t := EscapeChar(c) + rest;
    if c == '"' || c == '\\' || c == '\U{8}' || c == '\U{C}' || c == '\n' || c == '\r' || c == '\t' {
      assert t[2..] == rest;
    } else if c < ' ' {
      assert t[6..] == rest;
      assert LowerHexValue(t[4]) == Some(c as int / 16);
      assert LowerHexValue(t[5]) == Some(c as int % 16);
    } else {
      assert t[1..] == rest;
    }
  }

  /** Escaping loses nothing: reading the escaped text back gives the string. */
  lemma {:induction false} UnescapeEscape(s: string)
    ensures Unescape(Escape(s)) == Some(s)
  {
    if s != [] {
      UnescapeEscapeChar(s[0], Escape(s[1..]));
      UnescapeEscape(s[1..]);
      assert [s[0]] + s[1..] == s;
    }
  }

  /** The values the library serialises: `null`, booleans and strings. */
  datatype Scalar = SNull | SBool(b: bool) | SStr(s: string)

  /** The text `serde_json::to_string` writes for a record of scalar fields. */
  function FlatText(members: seq<(string, Scalar)>): (t: string)
    ensures |t| >= 2 && t[0] == '{' && t[|t| - 1] == '}'
  {
    "{" + MembersText(members) + "}"
  }

  /** The members in order, separated by commas. */
  function MembersText(members: seq<(string, Scalar)>): string {
    if members == [] then ""
    else if |members| == 1 then MemberText(members[0])
    else MembersText(members[..|members| - 1]) + "," + MemberText(members[|members| - 1])
  }

  function MemberText(m: (string, Scalar)): string {
    "\"" + Escape(m.0) + "\":" + ScalarText(m.1)
  }

  function ScalarText(v: Scalar): string {
    match v
    case SNull => "null"
    case SBool(b) => if b then "true" else "false"
    case SStr(s) => "\"" + Escape(s) + "\""
  }

  lemma FlatTextLastMember(members: seq<(string, Scalar)>)
    requires |members| >= 2
    ensures FlatText(members) ==
              "{" + (MembersText(members[..|members| - 1]) + "," + MemberText(members[|members| - 1])) + "}"
  {
  }

  lemma StringMemberText(head: string, key: string, s: string)
    ensures "{" + (head + "," + MemberText((key, SStr(s)))) + "}"
            == "{" + head + ",\"" + Escape(key) + "\":\"" + Escape(s) + "\"}"
  {
    assert ",\"" == "," + "\"" && "\":\"" == "\":" + "\"" && "\"}" == "\"" + "}";
    RegroupMember("{", head, ",", "\"", Escape(key), "\":", Escape(s), "}");
  }

  /** The regrouping `StringMemberText` needs, on pieces the solver does not unfold. */
  lemma RegroupMember(lb: string, head: string, comma: string, q: string, k: string, colon: string, v: string, rb: string)
    ensures lb + (head + comma + (q + k + colon + (q + v + q))) + rb
            == lb + head + (comma + q) + k + (colon + q) + v + (q + rb)
  {
  }

  /** A record whose last field holds a string ends with that field's key and the
      escaped string, quoted. */
  lemma FlatTextEndsWithString(members: seq<(string, Scalar)>, key: string, s: string)
    requires |members| >= 2 && members[|members| - 1] == (key, SStr(s))
    ensures FlatText(members) ==
              "{" + MembersText(members[..|members| - 1]) + ",\"" + Escape(key) + "\":\"" + Escape(s) + "\"}"
  {
    FlatTextLastMember(members);
    StringMemberText(MembersText(members[..|members| - 1]), key, s);
  }
}

=== FILE: percent_encoding.dfy ===
/** `utf8_percent_encode` with the `NON_ALPHANUMERIC` set, as the details URL uses
    it: the text is taken as UTF-8 bytes, ASCII letters and digits stay, and every
    other byte becomes `%` and two upper-case hex digits (section 2.1 of RFC 3986). */
module PercentEncoding {
  import opened Errors
  import opened Http

  /** The UTF-8 encoding of one Unicode scalar value (RFC 3629, section 3). */
  function Utf8Char(c: char): (r: seq<byte>)
    ensures 1 <= |r| <= 4
    ensures (c as int < 0x80) <==> |r| == 1
    ensures |r| == 1 ==> r[0] == c as int
    ensures |r| > 1 ==> forall i :: 0 <= i < |r| ==> r[i] >= 0x80
  {
    var n := c as int;
    if n < 0x80 then [n]
    else if n < 0x800 then [0xC0 + n / 64, 0x80 + n % 64]
    else if n < 0x10000 then [0xE0 + n / 4096, 0x80 + (n / 64) % 64, 0x80 + n % 64]
    else [0xF0 + n / 262144, 0x80 + (n / 4096) % 64, 0x80 + (n / 64) % 64, 0x80 + n % 64]
  }

  function Utf8(s: string): (r: seq<byte>)
    ensures |r| >= |s|
  {
    if s == [] then [] else Utf8Char(s[0]) + Utf8(s[1..])
  }

  /** An ASCII text is its own UTF-8 encoding, byte for character. */
  lemma {:induction false} Utf8OfAscii(s: string)
    requires forall i :: 0 <= i < |s| ==> s[i] as int < 0x80
    ensures |Utf8(s)| == |s|
    ensures forall i :: 0 <= i < |s| ==> Utf8(s)[i] == s[i] as int
  {
    if s != [] {
      Utf8OfAscii(s[1..]);
    }
  }

  predicate IsAsciiAlphanumeric(b: byte) {
    ('0' as int <= b <= '9' as int) || ('A' as int <= b <= 'Z' as int) || ('a' as int <= b <= 'z' as int)
  }

  predicate IsUpperHexDigit(c: char) {
    ('0' <= c <= '9') || ('A' <= c <= 'F')
  }

  function UpperHexValue(c: char): (d: nat)
    requires IsUpperHexDigit(c)
    ensures d < 16 && HexDigit(d, true) == c
  {
    if c <= '9' then c as int - '0' as int else c as int - 'A' as int + 10
  }

  /** One byte's encoding: kept as its character, or `%XX`. */
  function EncodeByte(b: byte): (r: string)
    ensures IsAsciiAlphanumeric(b) ==> r == [b as char]
    ensures !IsAsciiAlphanumeric(b) ==> |r| == 3 && r[0] == '%' && IsUpperHexDigit(r[1]) && IsUpperHexDigit(r[2])
    ensures !IsAsciiAlphanumeric(b) ==> UpperHexValue(r[1]) * 16 + UpperHexValue(r[2]) == b
  {
    if IsAsciiAlphanumeric(b) then [b as char] else ['%', HexDigit(b / 16, true), HexDigit(b % 16, true)]
  }

  /** One to three characters per byte; exactly one per byte when every byte is
      an ASCII letter or digit. */
  function PercentEncode(bytes: seq<byte>): (r: string)
    ensures |bytes| <= |r| <= 3 * |bytes|
    ensures |r| == |bytes| <==> forall i :: 0 <= i < |bytes| ==> IsAsciiAlphanumeric(bytes[i])
  {
    if bytes == [] then []
    else
      assert forall i :: 1 <= i < |bytes| ==> bytes[1..][i - 1] == bytes[i];
      EncodeByte(bytes[0]) + PercentEncode(bytes[1..])
  }

  /** `utf8_percent_encode(s, NON_ALPHANUMERIC).to_string()`. */
  function Utf8PercentEncode(s: string): (r: string)
    ensures WellEncoded(r)
    ensures PercentDecode(r) == Some(Utf8(s))
  {
    EncodedIsWellEncoded(Utf8(s));
    DecodeEncode(Utf8(s));
    PercentEncode(Utf8(s))
  }

  predicate IsAsciiAlphanumericChar(c: char) {
    ('0' <= c <= '9') || ('A' <= c <= 'Z') || ('a' <= c <= 'z')
  }

  /** Only ASCII letters and digits, and `%` followed by two upper-case hex digits. */
  predicate WellEncoded(t: string)
    decreases |t|
  {
    if t == [] then true
    else if IsAsciiAlphanumericChar(t[0]) then WellEncoded(t[1..])
    else t[0] == '%' && |t| >= 3 && IsUpperHexDigit(t[1]) && IsUpperHexDigit(t[2]) && WellEncoded(t[3..])
  }

  /** The inverse of `PercentEncode`: None for text it never produces. */
  function PercentDecode(t: string): (r: Option<seq<byte>>)
    decreases |t|
  {
    if t == [] then Some([])
    else if IsAsciiAlphanumericChar(t[0]) then
      var rest :- PercentDecode(t[1..]);
      Some([t[0] as int] + rest)
    else if t[0] == '%' && |t| >= 3 && IsUpperHexDigit(t[1]) && IsUpperHexDigit(t[2]) then
      var rest :- PercentDecode(t[3..]);
      Some([UpperHexValue(t[1]) * 16 + UpperHexValue(t[2])] + rest)
    else None
  }

  lemma {:induction false} EncodedIsWellEncoded(bytes: seq<byte>)
    ensures WellEncoded(PercentEncode(bytes))
  {
    if bytes != [] {
      var head := EncodeByte(bytes[0]);
      var t := head + PercentEncode(bytes[1..]);
      EncodedIsWellEncoded(bytes[1..]);
      if IsAsciiAlphanumeric(bytes[0]) {
        assert t[1..] == PercentEncode(bytes[1..]);
      } else {
        assert t[3..] == PercentEncode(bytes[1..]);
      }
    }
  }

  /** Decoding the encoded text gives the bytes back. */
  lemma {:induction false} DecodeEncode(bytes: seq<byte>)
    ensures PercentDecode(PercentEncode(bytes)) == Some(bytes)
  {
    if bytes != [] {
      var head := EncodeByte(bytes[0]);
      var t := head + PercentEncode(bytes[1..]);
      DecodeEncode(bytes[1..]);
      if IsAsciiAlphanumeric(bytes[0]) {
        assert t[1..] == PercentEncode(bytes[1..]);
      } else {
        assert t[3..] == PercentEncode(bytes[1..]);
      }
      assert [bytes[0]] + bytes[1..] == bytes;
    }
  }

  /** Well-encoded text has no query delimiter: no `&` and no `=`. */
  lemma {:induction false} WellEncodedHasNoDelimiter(t: string)
    requires WellEncoded(t)
    ensures '&' !in t && '=' !in t
    decreases |t|
  {
    if t != [] {
      if IsAsciiAlphanumericChar(t[0]) {
        WellEncodedHasNoDelimiter(t[1..]);
        assert t == [t[0]] + t[1..];
      } else {
        WellEncodedHasNoDelimiter(t[3..]);
        assert t == t[..3] + t[3..];
      }
    }
  }
}

=== FILE: resource.dfy ===
/** `ResourceDownloader` (src/resource.rs): a URL, a client and a header map, and a
    download that writes one response body to one file. The filesystem and the
    network are inputs; what the download does to them is an ordered trace. */
module Resource {
  import opened Errors
  import opened Http
  import opened Header
  import opened Downloader

  /** A filesystem path: its text (what `display` shows) and its `parent`. */
  datatype FsPath = FsPath(text: string, parent: Option<string>)

  /** The answers the filesystem gives: whether a path is a directory, and the
      outcome of each operation `download_to` performs. */
  datatype FileSystem = FileSystem(
    isDir: string -> bool,
    createDirAll: string -> IoOutcome,
    createFile: string -> IoOutcome,
    writeAll: (string, string) -> IoOutcome)

  /** One step `download_to` attempts, in the order it attempts them. */
  datatype Effect =
    | CreateDirAll(dir: string)
    | CreateFile(file: string)
    | Send(request: Request)
    | WriteFile(target: string, content: string)

  function Rank(e: Effect): nat {
    match e
    case CreateDirAll(_) => 0
    case CreateFile(_) => 1
    case Send(_) => 2
    case WriteFile(_, _) => 3
  }

  /** Each kind of step happens at most once and after every step of an earlier kind. */
  predicate InOrder(effects: seq<Effect>) {
    forall i, j :: 0 <= i < j < |effects| ==> Rank(effects[i]) < Rank(effects[j])
  }

  function NotAFileMessage(path: string): string {
    "Path must point to a file. That is not the case for `" + path + "`"
  }

  class ResourceDownloader {
    var url: Url
    var client: Client
    var headers: HeaderMap

    ghost predicate Valid()
      reads this
    {
      WellFormed(headers)
    }

    /** The struct literal `new` assembles once the URL has parsed. */
    constructor Init(url: Url)
      ensures Valid()
      ensures this.url == url && client == DefaultClient
      ensures headers == map[USER_AGENT := FIREFOX_USER_AGENT]
    {
      var h := InitHeaders();
      this.url := url;
      client := DefaultClient;
      headers := h;
    }

    /** `new`: fails exactly when the URL does not parse, with `parse_url`'s
        `InvalidUrl` (no format advice given); otherwise a downloader with the default
        client and exactly one header, the Firefox user agent. */
    static method New(parsed: Option<Url>) returns (r: Result<ResourceDownloader>)
      ensures r.Ok? <==> parsed.Some?
      ensures !r.Ok? ==> r == Err(InvalidUrl(InvalidUrlFormatMessage(DEFAULT_URL_FORMAT)))
      ensures r.Ok? ==> fresh(r.value) && r.value.Valid()
      ensures r.Ok? ==> r.value.url == parsed.value && r.value.client == DefaultClient
      ensures r.Ok? ==> r.value.headers == map[USER_AGENT := FIREFOX_USER_AGENT]
    {
      var url :- ParseUrl(parsed, None);
      var d := new ResourceDownloader.Init(url);
      r := Ok(d);
    }

    /** `init_headers`: an empty map with the user agent inserted. */
    static method InitHeaders() returns (h: HeaderMap)
      ensures h == map[USER_AGENT := FIREFOX_USER_AGENT]
      ensures WellFormed(h)
    {
      UserAgentIsVisibleAscii();
      VisibleAsciiIsHeaderValueText(FIREFOX_USER_AGENT);
      h := map[];
      h := h[USER_AGENT := FIREFOX_USER_AGENT];
    }

    /** `with_header`: a static name and a static value (both panic unless valid);
        the name, lowered, now maps to the value, every other header is kept. */
    method WithHeader(key: string, value: string)
      requires Valid() && IsStaticHeaderName(key) && IsVisibleAsciiValue(value)
      modifies this
      ensures Valid()
      ensures headers == old(headers)[Lower(key) := value]
      ensures url == old(url) && client == old(client)
    {
      VisibleAsciiIsHeaderValueText(value);
      headers := headers[Lower(key) := value];
    }

    /** `with_header_value`: as `with_header`, with a ready header value. */
    method WithHeaderValue(key: string, value: string)
      requires Valid() && IsStaticHeaderName(key) && IsHeaderValueText(value)
      modifies this
      ensures Valid()
      ensures headers == old(headers)[Lower(key) := value]
      ensures url == old(url) && client == old(client)
    {
      headers := headers[Lower(key) := value];
    }

    /** `with_custom_client`: only the client changes. */
    method WithCustomClient(c: Client)
      modifies this
      ensures client == c
      ensures url == old(url) && headers == old(headers)
    {
      client := c;
    }

    /** The request `send_request` sends: a GET of the URL with the headers. */
    function RequestOf(): (req: Request)
      reads this
      ensures req.verb == Get && req.url == url.serialized && req.headers == headers
    {
      Request(Get, url.serialized, headers)
    }

    /** `download_to`: refuse a directory, create the parent directories, create (and
        truncate) the file, send the request, read the body, write it. Each step runs
        only if every earlier one succeeded; the response status is not checked, so
        an error page is written like any other body. */
    method DownloadTo(path: FsPath, fs: FileSystem, net: Net) returns (r: Result<()>, effects: seq<Effect>)
      ensures InOrder(effects)
      ensures !r.Panic?
      ensures fs.isDir(path.text) ==> r == Err(Downloader(NotAFileMessage(path.text))) && effects == []
      ensures !fs.isDir(path.text) && path.parent.Some? ==> |effects| > 0 && effects[0] == CreateDirAll(path.parent.value)
      ensures Send(RequestOf()) in effects <==>
                !fs.isDir(path.text) && fs.createFile(path.text) == IoOk
                && (path.parent.Some? ==> fs.createDirAll(path.parent.value) == IoOk)
      ensures Send(RequestOf()) in effects ==> CreateFile(path.text) in effects
      ensures !fs.isDir(path.text) && path.parent.Some? && fs.createDirAll(path.parent.value).IoFailed? ==>
                r == Err(IoError(fs.createDirAll(path.parent.value).message)) && effects == [CreateDirAll(path.parent.value)]
      ensures !fs.isDir(path.text) && (path.parent.Some? ==> fs.createDirAll(path.parent.value) == IoOk)
              && fs.createFile(path.text).IoFailed? ==>
                r == Err(IoError(fs.createFile(path.text).message))
                && effects == (if path.parent.Some? then [CreateDirAll(path.parent.value)] else []) + [CreateFile(path.text)]
      ensures Send(RequestOf()) in effects && net(RequestOf()).Delivered? && net(RequestOf()).value.body.TransportError? ==>
                r == Err(Reqwest(net(RequestOf()).value.body.message))
      ensures Send(RequestOf()) in effects && net(RequestOf()).Delivered? && net(RequestOf()).value.body.Delivered?
              && fs.writeAll(path.text, net(RequestOf()).value.body.value).IoFailed? ==>
                r == Err(IoError(fs.writeAll(path.text, net(RequestOf()).value.body.value).message))
      ensures net(RequestOf()).TransportError? && Send(RequestOf()) in effects ==>
                r == Err(Reqwest(net(RequestOf()).message)) && effects[|effects| - 1] == Send(RequestOf())
      ensures r.Ok? <==>
                Send(RequestOf()) in effects && net(RequestOf()).Delivered? && net(RequestOf()).value.body.Delivered?
                && fs.writeAll(path.text, net(RequestOf()).value.body.value) == IoOk
      ensures r.Ok? ==> effects[|effects| - 1] == WriteFile(path.text, net(RequestOf()).value.body.value)
    {
      effects := [];
      if fs.isDir(path.text) {
        return Err(Downloader(NotAFileMessage(path.text))), effects;
      }
      if path.parent.Some? {
        effects := effects + [CreateDirAll(path.parent.value)];
        var made := fs.createDirAll(path.parent.value);
        if made.IoFailed? {
          return Err(IoError(made.message)), effects;
        }
      }
      effects := effects + [CreateFile(path.text)];
      var created := fs.createFile(path.text);
      if created.IoFailed? {
        return Err(IoError(created.message)), effects;
      }
      var req := RequestOf();
      effects := effects + [Send(req)];
      var response := net(req);
      if response.TransportError? {
        return Err(Reqwest(response.message)), effects;
      }
      var content := response.value.body;
      if content.TransportError? {
        return Err(Reqwest(content.message)), effects;
      }
      effects := effects + [WriteFile(path.text, content.value)];
      var written := fs.writeAll(path.text, content.value);
      if written.IoFailed? {
        return Err(IoError(written.message)), effects;
      }
      r := Ok(());
    }

    /** The default `download()`: `download_to("./")`. The current directory is a
        directory, so on any filesystem where it exists this download is refused
        before it touches anything. */
    method Download(fs: FileSystem, net: Net) returns (r: Result<()>, effects: seq<Effect>)
      ensures fs.isDir(DEFAULT_DOWNLOAD_PATH) ==>
                r == Err(Downloader(NotAFileMessage(DEFAULT_DOWNLOAD_PATH))) && effects == []
      ensures !fs.isDir(DEFAULT_DOWNLOAD_PATH) ==> |effects| > 0 && effects[0] == CreateDirAll("")
    {
      r, effects := DownloadTo(FsPath(DEFAULT_DOWNLOAD_PATH, Some("")), fs, net);
    }
  }
}

=== FILE: twitter.dfy ===
/** `TwitterDownloader` (src/twitter.rs): the tweet reference taken from the URL,
    the three-step token chain (tweet page, then `main.js`, then a guest token),
    the details URL, the bounded retry of the details request, and `download`.
    Every response is an input: the token chain asks `net`, and the details
    request, which is sent several times, gets its answers in order from
    `responses` (the same request may be answered differently each time). */
module Twitter {
  import opened Errors
  import opened Http
  import opened Header
  import opened Downloader
  import opened Json
  import opened PercentEncoding
  import opened TwitterScan
  import opened TwitterUtils
  import opened TwitterDetails

  const TWEET_URL_FORMAT := "https://www.twitter.com/<USERNAME>/status/<TWEET_ID>"
  const INVALID_DOMAIN_MESSAGE := "Invalid URL! The domain must be either 'www.twitter.com' or 'www.x.com'."
  const NO_IDS_MESSAGE := "Could not parse status_id and tweet_id from this tweet url."
  const PAGE_FAILED_MESSAGE := "Failed to get tweet page! Check if the url is valid!"
  const NO_MAINJS_MESSAGE := "Failed to retrieve `main.js` file from the page."
  const NO_BEARER_MESSAGE := "Failed to find bearer token."
  const NO_GUEST_TOKEN_MESSAGE := "Failed to find guest token."
  const DETAILS_FAILED_MESSAGE := "Failed to get tweet details."
  const DETAILS_UNPARSED_MESSAGE := "Failed to parse tweet details."
  /** The message of every `expect` on a header value built from a token. */
  const HEADER_VALUE_PANIC := "Failed to create HeaderValue"
  /** The message of a 400 whose body is no error response starts with this, and
      the body follows between backticks. */
  const DETAILS_ERROR_PREFIX := "Failed to parse json from details error, details text: `"

  const GUEST_ACTIVATE_URL := "https://api.twitter.com/1.1/guest/activate.json"
  const DETAILS_ENDPOINT := "https://twitter.com/i/api/graphql/ncDeACNGIApPMaqGVuF_rw/TweetResultByRestId"
  const X_GUEST_TOKEN := "x-guest-token"
  /** The details request is sent at most this many times. */
  const MAX_TRIES: nat := 11

  function DetailsErrorMessage(text: string): (m: string)
    ensures |m| == |DETAILS_ERROR_PREFIX| + |text| + 1
    ensures m[..|DETAILS_ERROR_PREFIX|] == DETAILS_ERROR_PREFIX && m[|DETAILS_ERROR_PREFIX|..|m| - 1] == text
    ensures m[|m| - 1] == '`'
  {
    DETAILS_ERROR_PREFIX + text + "`"
  }

  /** The message quotes the body whole, so two different bodies give two
      different messages. */
  lemma DetailsErrorMessageQuotesBody(a: string, b: string)
    requires DetailsErrorMessage(a) == DetailsErrorMessage(b)
    ensures a == b
  {
  }

  /** A downloader for one tweet: its URL, and the ids read from it. The accessors
      `status_id` and `tweet_id` are the fields `statusId` and `tweetId`. */
  datatype TwitterDownloader = TwitterDownloader(url: Url, tweetId: string, statusId: string)

  /** Only the bare domains pass the host check. */
  predicate IsTweetHost(host: Option<Host>) {
    host == Some(Domain("twitter.com")) || host == Some(Domain("x.com"))
  }

  /** Only the bare domains are accepted: the `www.` forms that the error text
      names are refused, and so are IP addresses and URLs without a host. */
  lemma OnlyBareHostsAreTweetHosts(address: string)
    ensures IsTweetHost(Some(Domain("twitter.com"))) && IsTweetHost(Some(Domain("x.com")))
    ensures !IsTweetHost(Some(Domain("www.twitter.com"))) && !IsTweetHost(Some(Domain("www.x.com")))
    ensures !IsTweetHost(Some(IpAddress(address))) && !IsTweetHost(None)
  {
  }

  /** `new`: the URL must parse; what follows depends on the parsed URL only. */
  function New(parsed: Option<Url>): (r: Result<TwitterDownloader>)
    ensures parsed.None? ==> r == Err(InvalidUrl(InvalidUrlFormatMessage(TWEET_URL_FORMAT)))
    ensures parsed.Some? ==> r == FromTweetUrl(parsed.value)
  {
    var url :- ParseUrl(parsed, Some(TWEET_URL_FORMAT));
    FromTweetUrl(url)
  }

  /** The rest of `new`: the host must be exactly `twitter.com` or `x.com`, and the
      tweet pattern must match the URL's serialization; the owner group becomes
      `status_id` and the digit group `tweet_id`. */
  function FromTweetUrl(url: Url): (r: Result<TwitterDownloader>)
    ensures !IsTweetHost(url.host) ==> r == Err(InvalidUrl(INVALID_DOMAIN_MESSAGE))
    ensures IsTweetHost(url.host) && (forall q: nat, c :: !TweetRegexMatch(url.serialized, q, c))
            ==> r == Err(TwitterError(NO_IDS_MESSAGE))
    ensures r.Ok? <==> IsTweetHost(url.host) && FindTweet(url.serialized).Some?
    ensures r.Ok? ==> r.value.url == url
    ensures r.Ok? ==> |r.value.tweetId| > 0 && forall k :: 0 <= k < |r.value.tweetId| ==> IsAsciiDigit(r.value.tweetId[k])
    ensures r.Ok? ==> |r.value.statusId| > 0 && forall k :: 0 <= k < |r.value.statusId| ==> r.value.statusId[k] != '/'
    ensures r.Ok? ==> var m := FindTweet(url.serialized).value;
              TweetRegexMatch(url.serialized, m.0, TweetCaptures(m.1.site, r.value.statusId, r.value.tweetId))
              && TweetGreedy(url.serialized, m.0, TweetCaptures(m.1.site, r.value.statusId, r.value.tweetId))
  {
    if !IsTweetHost(url.host) then Err(InvalidUrl(INVALID_DOMAIN_MESSAGE))
    else
      match FindTweet(url.serialized)
      case Some((_, captures)) => Ok(TwitterDownloader(url, captures.id, captures.owner))
      case None => Err(TwitterError(NO_IDS_MESSAGE))
  }

  /** A tweet URL of the documented shape yields its owner as `status_id` and the
      whole digit run as `tweet_id`, whatever follows the digits. */
  lemma NewReadsOwnerAndId(url: Url, site: Site, owner: string, id: string, rest: string)
    requires IsTweetHost(url.host)
    requires url.serialized == site.Prefix() + (owner + "/status/" + id + rest)
    requires |owner| > 0 && forall k :: 0 <= k < |owner| ==> IsNotSlash(owner[k])
    requires |id| > 0 && forall k :: 0 <= k < |id| ==> IsAsciiDigit(id[k])
    requires rest == [] || !IsAsciiDigit(rest[0])
    ensures New(Some(url)) == Ok(TwitterDownloader(url, id, owner))
  {
    TweetShapeIsFound(site, owner, id, rest);
  }

  // The token chain

  /** `reqwest::get` of the tweet URL: a GET without headers. */
  function PageRequest(d: TwitterDownloader): (r: Request)
    ensures r.verb == Get && r.url == d.url.serialized && r.headers == map[]
  {
    Request(Get, d.url.serialized, map[])
  }

  /** `reqwest::get` of the `main.js` URL: a GET without headers. */
  function ScriptRequest(url: string): (r: Request)
    ensures r.verb == Get && r.url == url && r.headers == map[]
  {
    Request(Get, url, map[])
  }

  /** `get_mainjs_url` once the page has been requested: a transport error, a status
      other than 200, or no match of the main.js pattern fails; otherwise the
      leftmost match. */
  function MainJsUrlFrom(page: Transfer<Response>): (r: Result<string>)
    ensures page.TransportError? ==> r == Err(Reqwest(page.message))
    ensures page.Delivered? && page.value.status != 200 ==> r == Err(TwitterError(PAGE_FAILED_MESSAGE))
    ensures (page.Delivered? && page.value.status == 200 && page.value.body.Delivered?
             && FindMainJs(page.value.body.value).None?) ==> r == Err(TwitterError(NO_MAINJS_MESSAGE))
    ensures page.Delivered? && page.value.status == 200 && page.value.body.TransportError? ==>
              r == Err(Reqwest(page.value.body.message))
    ensures (page.Delivered? && page.value.status == 200 && page.value.body.Delivered?
             && FindMainJs(page.value.body.value).Some?) ==>
              var text := page.value.body.value;
              var s := FindMainJs(text).value;
              r == Ok(text[s.start..s.end])
    ensures r.Ok? ==> page.Delivered? && page.value.status == 200 && page.value.body.Delivered?
    ensures r.Ok? ==> var text := page.value.body.value;
              exists s: Span :: MainJsRegexMatch(text, s) && r.value == text[s.start..s.end]
                && forall t: Span :: t.start < s.start ==> !MainJsRegexMatch(text, t)
    ensures !r.Panic?
  {
    var response :- Received(page);
    if response.status != 200 then Err(TwitterError(PAGE_FAILED_MESSAGE))
    else
      var content :- Received(response.body);
      match FindMainJs(content)
      case None => Err(TwitterError(NO_MAINJS_MESSAGE))
      case Some(s) => Ok(content[s.start..s.end])
  }

  /** `get_bearer_token` once the script has been requested: the leftmost match of
      the bearer pattern, which starts with nine `A`s, has no quote, is at least ten
      characters long and is followed by a quote or the end of the script. */
  function BearerTokenFrom(script: Transfer<Response>): (r: Result<string>)
    ensures script.TransportError? ==> r == Err(Reqwest(script.message))
    ensures script.Delivered? && script.value.status != 200 ==> r == Err(TwitterError(NO_MAINJS_MESSAGE))
    ensures (script.Delivered? && script.value.status == 200 && script.value.body.Delivered?
             && FindBearer(script.value.body.value).None?) ==> r == Err(TwitterError(NO_BEARER_MESSAGE))
    ensures script.Delivered? && script.value.status == 200 && script.value.body.TransportError? ==>
              r == Err(Reqwest(script.value.body.message))
    ensures (script.Delivered? && script.value.status == 200 && script.value.body.Delivered?
             && FindBearer(script.value.body.value).Some?) ==>
              var text := script.value.body.value;
              var s := FindBearer(text).value;
              r == Ok(text[s.start..s.end])
    ensures r.Ok? ==> |r.value| >= 10 && r.value[..9] == NINE_A
    ensures r.Ok? ==> forall k :: 9 <= k < |r.value| ==> r.value[k] != '"' && r.value[k] != '\''
    ensures r.Ok? ==> script.Delivered? && script.value.status == 200 && script.value.body.Delivered?
    ensures r.Ok? ==> var text := script.value.body.value;
              exists s: Span :: BearerRegexMatch(text, s) && BearerGreedy(text, s) && r.value == text[s.start..s.end]
                && forall t: Span :: t.start < s.start ==> !BearerRegexMatch(text, t)
    ensures !r.Panic?
  {
    var response :- Received(script);
    if response.status != 200 then Err(TwitterError(NO_MAINJS_MESSAGE))
    else
      var content :- Received(response.body);
      match FindBearer(content)
      case None => Err(TwitterError(NO_BEARER_MESSAGE))
      case Some(s) =>
        assert content[s.start..s.end][..9] == content[s.start..s.start + 9];
        Ok(content[s.start..s.end])
  }

  /** The headers of the guest-token request, once built. */
  function GuestTokenHeaderMap(bearer: string): (h: HeaderMap)
    ensures AUTHORIZATION in h && h[AUTHORIZATION] == "Bearer " + bearer
    ensures USER_AGENT in h && h[USER_AGENT] == FIREFOX_USER_AGENT
  {
    map[USER_AGENT := FIREFOX_USER_AGENT, ACCEPT := "*/*", ACCEPT_LANGUAGE := "fr,en-US;q=0.7,en;q=0.3",
        TE := "trailers", AUTHORIZATION := "Bearer " + bearer]
  }

  /** The guest-token headers, inserted one at a time; the authorization value is
      `Bearer ` and the token, and building it panics when that is no valid header
      value (a scraped token may hold a control character). */
  method GuestTokenHeaders(bearer: string) returns (r: Result<HeaderMap>)
    ensures r.Ok? <==> IsHeaderValueText("Bearer " + bearer)
    ensures !r.Ok? ==> r == Panic(HEADER_VALUE_PANIC)
    ensures r.Ok? ==> r.value == GuestTokenHeaderMap(bearer) && |r.value.Keys| == 5
  {
    var headers: HeaderMap := map[];
    headers := headers[USER_AGENT := FIREFOX_USER_AGENT];
    headers := headers[ACCEPT := "*/*"];
    headers := headers[ACCEPT_LANGUAGE := "fr,en-US;q=0.7,en;q=0.3"];
    headers := headers[TE := "trailers"];
    var authorization := "Bearer " + bearer;
    if !IsHeaderValueText(authorization) {
      return Panic(HEADER_VALUE_PANIC);
    }
    headers := headers[AUTHORIZATION := authorization];
    assert headers.Keys == {USER_AGENT, ACCEPT, ACCEPT_LANGUAGE, TE, AUTHORIZATION};
    r := Ok(headers);
  }

  /** The activation request: a POST to the fixed activation URL, authorised by
      the bearer token, with the Firefox user agent. */
  function GuestRequest(bearer: string): (r: Request)
    ensures r.verb == Post && r.url == GUEST_ACTIVATE_URL
    ensures AUTHORIZATION in r.headers && r.headers[AUTHORIZATION] == "Bearer " + bearer
    ensures USER_AGENT in r.headers && r.headers[USER_AGENT] == FIREFOX_USER_AGENT
  {
    Request(Post, GUEST_ACTIVATE_URL, GuestTokenHeaderMap(bearer))
  }

  /** `GuestTokenResponse`: an object with a string `guest_token`. */
  function DecodeGuestTokenResponse(j: Json): (r: Option<string>)
    ensures r.Some? <==> j.Object? && Occurs(j.members, "guest_token").Once?
                         && Occurs(j.members, "guest_token").value.Str?
    ensures r.Some? ==> Occurs(j.members, "guest_token") == Once(Str(r.value))
  {
    if !j.Object? then None else Required(j, "guest_token", AsString)
  }

  /** `get_guest_token` once the activation request has been sent: a status other
      than 200 and a body that is not a guest-token object fail alike. */
  function GuestTokenFrom(activation: Transfer<Response>, parse: Parser): (r: Result<string>)
    ensures activation.TransportError? ==> r == Err(Reqwest(activation.message))
    ensures activation.Delivered? && activation.value.status != 200 ==> r == Err(TwitterError(NO_GUEST_TOKEN_MESSAGE))
    ensures activation.Delivered? && activation.value.status == 200 && activation.value.body.TransportError? ==>
              r == Err(Reqwest(activation.value.body.message))
    ensures activation.Delivered? && activation.value.status == 200 && activation.value.body.Delivered? && !r.Ok? ==>
              r == Err(TwitterError(NO_GUEST_TOKEN_MESSAGE))
    ensures r.Ok? <==> activation.Delivered? && activation.value.status == 200 && activation.value.body.Delivered?
                       && parse(activation.value.body.value).Some?
                       && DecodeGuestTokenResponse(parse(activation.value.body.value).value).Some?
    ensures r.Ok? ==> r.value == DecodeGuestTokenResponse(parse(activation.value.body.value).value).value
    ensures !r.Panic?
  {
    var response :- Received(activation);
    if response.status != 200 then Err(TwitterError(NO_GUEST_TOKEN_MESSAGE))
    else
      var body :- Received(response.body);
      match parse(body)
      case None => Err(TwitterError(NO_GUEST_TOKEN_MESSAGE))
      case Some(j) =>
        match DecodeGuestTokenResponse(j)
        case None => Err(TwitterError(NO_GUEST_TOKEN_MESSAGE))
        case Some(token) => Ok(token)
  }

  /** What `get_tokens` yields: the bearer and guest tokens, or the first failure. */
  function Tokens(d: TwitterDownloader, net: Net, parse: Parser): (r: Result<(string, string)>)
    ensures MainJsUrlFrom(net(PageRequest(d))).Err? ==> r == Err(MainJsUrlFrom(net(PageRequest(d))).error)
    ensures var mainJs := MainJsUrlFrom(net(PageRequest(d)));
            mainJs.Ok? ==>
              var bearer := BearerTokenFrom(net(ScriptRequest(mainJs.value)));
              && (bearer.Err? ==> r == Err(bearer.error))
              && (bearer.Ok? && !IsHeaderValueText("Bearer " + bearer.value) ==> r == Panic(HEADER_VALUE_PANIC))
              && (bearer.Ok? && IsHeaderValueText("Bearer " + bearer.value) ==>
                    var guest := GuestTokenFrom(net(GuestRequest(bearer.value)), parse);
                    && (guest.Err? ==> r == Err(guest.error))
                    && (guest.Ok? ==> r == Ok((bearer.value, guest.value))))
    ensures r.Ok? ==> IsHeaderValueText("Bearer " + r.value.0)
    ensures r.Ok? ==> BearerTokenFrom(net(ScriptRequest(MainJsUrlFrom(net(PageRequest(d))).value))) == Ok(r.value.0)
    ensures r.Ok? ==> GuestTokenFrom(net(GuestRequest(r.value.0)), parse) == Ok(r.value.1)
  {
    var mainJs :- MainJsUrlFrom(net(PageRequest(d)));
    var bearer :- BearerTokenFrom(net(ScriptRequest(mainJs)));
    if !IsHeaderValueText("Bearer " + bearer) then Panic(HEADER_VALUE_PANIC)
    else
      var guest :- GuestTokenFrom(net(GuestRequest(bearer)), parse);
      Ok((bearer, guest))
  }

  /** `get_tokens`: the page, the script and the activation are requested in that
      order, each only if every earlier step succeeded; `sent` lists the requests
      made. */
  method GetTokens(d: TwitterDownloader, net: Net, parse: Parser) returns (r: Result<(string, string)>, sent: seq<Request>)
    ensures r == Tokens(d, net, parse)
    ensures 1 <= |sent| <= 3 && sent[0] == PageRequest(d)
    ensures |sent| >= 2 <==> MainJsUrlFrom(net(sent[0])).Ok?
    ensures |sent| >= 2 ==> sent[1] == ScriptRequest(MainJsUrlFrom(net(sent[0])).value)
    ensures |sent| == 3 <==> |sent| >= 2 && BearerTokenFrom(net(sent[1])).Ok?
                             && IsHeaderValueText("Bearer " + BearerTokenFrom(net(sent[1])).value)
    ensures |sent| == 3 ==> sent[2] == GuestRequest(BearerTokenFrom(net(sent[1])).value)
    ensures r.Ok? ==> |sent| == 3 && sent[2].verb == Post && sent[2].headers[AUTHORIZATION] == "Bearer " + r.value.0
  {
    var page := PageRequest(d);
    sent := [page];
    var mainJs := MainJsUrlFrom(net(page));
    if mainJs.IsFailure() {
      return mainJs.PropagateFailure(), sent;
    }
    var script := ScriptRequest(mainJs.value);
    sent := sent + [script];
    var bearer := BearerTokenFrom(net(script));
    if bearer.IsFailure() {
      return bearer.PropagateFailure(), sent;
    }
    var headers := GuestTokenHeaders(bearer.value);
    if headers.IsFailure() {
      return headers.PropagateFailure(), sent;
    }
    var activation := Request(Post, GUEST_ACTIVATE_URL, headers.value);
    sent := sent + [activation];
    var guest := GuestTokenFrom(net(activation), parse);
    if guest.IsFailure() {
      return guest.PropagateFailure(), sent;
    }
    r := Ok((bearer.value, guest.value));
  }

  // The details request

  /** The details URL for two JSON texts: the fixed endpoint, then each text
      percent-encoded as the `variables` and `features` query values. */
  function DetailsUrl(variablesJson: string, featuresJson: string): string {
    DETAILS_ENDPOINT + "?variables=" + Utf8PercentEncode(variablesJson)
    + "&features=" + Utf8PercentEncode(featuresJson)
  }

  /** The details URL for a tweet id: the default blobs, with the id set on the
      variables, written by `writer`. */
  function DetailsUrlFor(writer: JsonWriter, tweetId: string): string {
    DetailsUrl(writer.variables(DEFAULT_FLAGS, Some(tweetId)), writer.features(DEFAULT_FEATURES))
  }

  /** `get_details_url`: fetch the default blobs, set the tweet id on the
      variables, serialise both and percent-encode them into the query. */
  method GetDetailsUrl(d: TwitterDownloader, writer: JsonWriter) returns (r: Result<string>)
    ensures r == Ok(DetailsUrlFor(writer, d.tweetId))
  {
    // `retrieve_request_details` never fails, so its `?` never returns early.
    var retrieved := RetrieveRequestDetails();
    var details := retrieved.value;
    var variables := details.variables;
    variables.SetTweetId(d.tweetId);
    var featuresString := writer.features(details.features);
    var variablesString := writer.variables(variables.Flags(), variables.tweetId);
    var featuresEncoded := Utf8PercentEncode(featuresString);
    var variablesEncoded := Utf8PercentEncode(variablesString);
    r := Ok(DETAILS_ENDPOINT + "?variables=" + variablesEncoded + "&features=" + featuresEncoded);
  }

  /** The query holds two encoded values, each made only of letters, digits and
      `%XX` escapes, so neither contains `&` or `=`, and each decodes to the UTF-8
      bytes of its JSON text. */
  lemma DetailsUrlParts(variablesJson: string, featuresJson: string)
    ensures var v := Utf8PercentEncode(variablesJson);
            var f := Utf8PercentEncode(featuresJson);
            DetailsUrl(variablesJson, featuresJson) == DETAILS_ENDPOINT + "?variables=" + v + "&features=" + f
            && '&' !in v && '=' !in v && '&' !in f && '=' !in f
            && PercentDecode(v) == Some(Utf8(variablesJson))
            && PercentDecode(f) == Some(Utf8(featuresJson))
  {
    WellEncodedHasNoDelimiter(Utf8PercentEncode(variablesJson));
    WellEncodedHasNoDelimiter(Utf8PercentEncode(featuresJson));
  }

  /** With serde_json's output, the variables of a numeric id end with that id as
      `tweetId`, after the ten default flags. */
  lemma VariablesTextHoldsTweetId(tweetId: string)
    requires forall i :: 0 <= i < |tweetId| ==> '0' <= tweetId[i] <= '9'
    ensures SERDE_JSON.variables(DEFAULT_FLAGS, Some(tweetId)) ==
              "{" + MembersText(VariablesMembers(DEFAULT_FLAGS, Some(tweetId))[..10]) + ",\"tweetId\":\"" + tweetId + "\"}"
  {
    var members := VariablesMembers(DEFAULT_FLAGS, Some(tweetId));
    FlatTextEndsWithString(members, "tweetId", tweetId);
    EscapePlain(tweetId);
    TweetIdKeyIsPlain();
    TweetIdMemberJoin(MembersText(members[..10]), tweetId);
  }

  function DetailsHeaderMap(bearer: string, guest: string): (h: HeaderMap)
    ensures h.Keys == {AUTHORIZATION, X_GUEST_TOKEN}
    ensures h[AUTHORIZATION] == "Bearer " + bearer && h[X_GUEST_TOKEN] == guest
  {
    map[AUTHORIZATION := "Bearer " + bearer, X_GUEST_TOKEN := guest]
  }

  /** The details request: a GET of the tweet's details URL carrying exactly the
      two token headers. */
  function DetailsRequestFor(d: TwitterDownloader, writer: JsonWriter, bearer: string, guest: string): (r: Request)
    ensures r.verb == Get && r.url == DetailsUrlFor(writer, d.tweetId)
    ensures r.headers.Keys == {AUTHORIZATION, X_GUEST_TOKEN}
    ensures r.headers[AUTHORIZATION] == "Bearer " + bearer && r.headers[X_GUEST_TOKEN] == guest
  {
    Request(Get, DetailsUrlFor(writer, d.tweetId), DetailsHeaderMap(bearer, guest))
  }

  /** The request `details_req` sends: the details URL with the two token headers,
      inserted one at a time; either value panics when it is no valid header value. */
  method DetailsRequest(d: TwitterDownloader, writer: JsonWriter, bearer: string, guest: string) returns (r: Result<Request>)
    ensures r.Ok? <==> IsHeaderValueText("Bearer " + bearer) && IsHeaderValueText(guest)
    ensures !r.Ok? ==> r == Panic(HEADER_VALUE_PANIC)
    ensures r.Ok? ==> r.value == DetailsRequestFor(d, writer, bearer, guest)
    ensures r.Ok? ==> r.value.headers[AUTHORIZATION] == "Bearer " + bearer && r.value.headers[X_GUEST_TOKEN] == guest
  {
    // `get_details_url` never fails, so its `?` never returns early.
    var url := GetDetailsUrl(d, writer);
    var authorization := "Bearer " + bearer;
    if !IsHeaderValueText(authorization) || !IsHeaderValueText(guest) {
      return Panic(HEADER_VALUE_PANIC);
    }
    var headers := DetailsHeaderMap(bearer, guest);
    r := Ok(Request(Get, url.value, headers));
  }

  /** How `get_tweet_details` reads an error body: serde_json's parse, then the
      derived `Deserialize` of `ErrorResponse`. */
  function ErrorReader(parse: Parser): Reader<ErrorResponse> {
    ReaderOf(parse, DecodeErrorResponse)
  }

  /** How `get_tweet_details` reads a 200 body: serde_json's parse, then the
      derived `Deserialize` of `TweetDetails`. */
  function DetailsReader(parse: Parser): Reader<TweetDetails> {
    ReaderOf(parse, DecodeTweetDetails)
  }

  /** A rejected attempt the loop retries: status 400 and a body that reads as an
      error response. */
  predicate Retried(t: Transfer<Response>, readError: Reader<ErrorResponse>) {
    t.Delivered? && t.value.status == 400 && t.value.body.Delivered?
    && readError(t.value.body.value).Some?
  }

  /** What happens after the loop: only status 200 goes on, and the body must read
      as tweet details. */
  function DetailsFrom(response: Response, readDetails: Reader<TweetDetails>): (r: Result<TweetDetails>)
    ensures response.status != 200 ==> r == Err(TwitterError(DETAILS_FAILED_MESSAGE))
    ensures r.Ok? <==> response.status == 200 && response.body.Delivered?
                       && readDetails(response.body.value).Some?
    ensures r.Ok? ==> r.value == readDetails(response.body.value).value
    ensures response.status == 200 && response.body.Delivered? && r.Err? ==> r == Err(TwitterError(DETAILS_UNPARSED_MESSAGE))
    ensures response.status == 200 && response.body.TransportError? ==> r == Err(Reqwest(response.body.message))
    ensures !r.Panic?
  {
    if response.status != 200 then Err(TwitterError(DETAILS_FAILED_MESSAGE))
    else
      var text :- Received(response.body);
      match readDetails(text)
      case None => Err(TwitterError(DETAILS_UNPARSED_MESSAGE))
      case Some(details) => Ok(details)
  }

  /** `n` copies of `x`. */
  function Repeat<T>(x: T, n: nat): (r: seq<T>)
    ensures |r| == n && forall i :: 0 <= i < n ==> r[i] == x
  {
    if n == 0 then [] else Repeat(x, n - 1) + [x]
  }

  /** The attempts from the `k`-th answer on (counting from 0): the outcome, and
      how many requests were sent in all. A transport error ends the attempts; an
      answer other than 400, or the eleventh answer, is read as tweet details; a 400
      is retried only when its body reads as an error response. */
  function Attempts(responses: nat -> Transfer<Response>, readError: Reader<ErrorResponse>,
                    readDetails: Reader<TweetDetails>, k: nat): (outcome: (Result<TweetDetails>, nat))
    requires k < MAX_TRIES
    ensures k < outcome.1 <= MAX_TRIES
    ensures !outcome.0.Panic?
    decreases MAX_TRIES - k
  {
    match responses(k)
    case TransportError(message) => (Err(Reqwest(message)), k + 1)
    case Delivered(response) =>
      if response.status != 400 || k + 1 >= MAX_TRIES then (DetailsFrom(response, readDetails), k + 1)
      else
        match response.body
        case TransportError(message) => (Err(Reqwest(message)), k + 1)
        case Delivered(text) =>
          if readError(text).None? then (Err(TwitterError(DetailsErrorMessage(text))), k + 1)
          else Attempts(responses, readError, readDetails, k + 1)
  }

  /** Every answer before the last one was a retried 400. */
  lemma {:induction false} AttemptsRetried(responses: nat -> Transfer<Response>, readError: Reader<ErrorResponse>,
                                           readDetails: Reader<TweetDetails>, k: nat)
    requires k < MAX_TRIES
    ensures forall i :: k <= i < Attempts(responses, readError, readDetails, k).1 - 1 ==> Retried(responses(i), readError)
    decreases MAX_TRIES - k
  {
    var n := Attempts(responses, readError, readDetails, k).1;
    if n > k + 1 {
      AttemptsRetried(responses, readError, readDetails, k + 1);
      assert Attempts(responses, readError, readDetails, k) == Attempts(responses, readError, readDetails, k + 1);
    }
  }

  /** The outcome is decided by the last answer alone: its transport error, its
      body's failure on a 400 that may still be retried, or else its reading as
      tweet details; it succeeds exactly when that reading does. */
  lemma {:induction false} AttemptsLast(responses: nat -> Transfer<Response>, readError: Reader<ErrorResponse>,
                                        readDetails: Reader<TweetDetails>, k: nat)
    requires k < MAX_TRIES
    ensures var (r, n) := Attempts(responses, readError, readDetails, k);
            var last := responses(n - 1);
            && (last.TransportError? ==> r == Err(Reqwest(last.message)))
            && (last.Delivered? && last.value.status == 400 && n < MAX_TRIES ==>
                  r == if last.value.body.TransportError? then Err(Reqwest(last.value.body.message))
                       else Err(TwitterError(DetailsErrorMessage(last.value.body.value))))
            && (last.Delivered? && (last.value.status != 400 || n == MAX_TRIES) ==> r == DetailsFrom(last.value, readDetails))
            && (r.Ok? <==> last.Delivered? && DetailsFrom(last.value, readDetails).Ok?)
    decreases MAX_TRIES - k
  {
    var n := Attempts(responses, readError, readDetails, k).1;
    if n > k + 1 {
      AttemptsLast(responses, readError, readDetails, k + 1);
      assert Attempts(responses, readError, readDetails, k) == Attempts(responses, readError, readDetails, k + 1);
    }
  }

  /** `get_tweet_details`: send the details request; while the answer is a 400 and
      fewer than eleven requests were made, read the body, give up unless it is an
      error response, and send the same request again. Then only a 200 whose body
      reads as tweet details succeeds. `responses(i)` is the answer to the `i`-th
      request sent. */
  method GetTweetDetails(d: TwitterDownloader, writer: JsonWriter, bearer: string, guest: string,
                         responses: nat -> Transfer<Response>, parse: Parser)
    returns (r: Result<TweetDetails>, sent: seq<Request>)
    ensures r.Panic? <==> !IsHeaderValueText("Bearer " + bearer) || !IsHeaderValueText(guest)
    ensures r.Panic? ==> r == Panic(HEADER_VALUE_PANIC) && sent == []
    ensures !r.Panic? ==> (r, |sent|) == Attempts(responses, ErrorReader(parse), DetailsReader(parse), 0)
    ensures sent == Repeat(DetailsRequestFor(d, writer, bearer, guest), |sent|)
  {
    sent := [];
    var request := DetailsRequest(d, writer, bearer, guest);
    if request.IsFailure() {
      return request.PropagateFailure(), sent;
    }
    sent := [request.value];
    var first := responses(0);
    if first.TransportError? {
      return Err(Reqwest(first.message)), sent;
    }
    var details := first.value;
    var tryCount: nat := 1;
    while true
      invariant 1 <= tryCount <= MAX_TRIES && |sent| == tryCount
      invariant sent == Repeat(request.value, tryCount)
      invariant responses(tryCount - 1) == Delivered(details)
      invariant Attempts(responses, ErrorReader(parse), DetailsReader(parse), 0)
                == Attempts(responses, ErrorReader(parse), DetailsReader(parse), tryCount - 1)
      decreases MAX_TRIES - tryCount
    {
      if details.status != 400 || tryCount >= MAX_TRIES {
        break;
      }
      if details.body.TransportError? {
        return Err(Reqwest(details.body.message)), sent;
      }
      var detailsText := details.body.value;
      var errContent := ErrorReader(parse)(detailsText);
      if errContent.None? {
        return Err(TwitterError(DetailsErrorMessage(detailsText))), sent;
      }
      // The same headers passed on the first call, so this one cannot panic.
      var again := DetailsRequest(d, writer, bearer, guest);
      sent := sent + [again.value];
      var next := responses(tryCount);
      if next.TransportError? {
        return Err(Reqwest(next.message)), sent;
      }
      details := next.value;
      tryCount := tryCount + 1;
    }
    r := DetailsFrom(details, DetailsReader(parse));
  }

  /** `download`: the tokens, then the tweet details; the media list is read and
      dropped, so the download succeeds exactly when both steps do, whatever the
      tweet holds. `sent` lists the token requests, then the details requests. */
  method Download(d: TwitterDownloader, net: Net, responses: nat -> Transfer<Response>, parse: Parser,
                  writer: JsonWriter)
    returns (r: Result<()>, sent: seq<Request>)
    ensures Tokens(d, net, parse).IsFailure() ==> r == Tokens(d, net, parse).PropagateFailure()
    ensures r.Ok? <==> Tokens(d, net, parse).Ok? && !r.Panic?
                       && Attempts(responses, ErrorReader(parse), DetailsReader(parse), 0).0.Ok?
    ensures Tokens(d, net, parse).Ok? ==>
              var (bearer, guest) := Tokens(d, net, parse).value;
              (r.Panic? <==> !IsHeaderValueText("Bearer " + bearer) || !IsHeaderValueText(guest))
              && (!r.Panic? ==> |sent| == 3 + Attempts(responses, ErrorReader(parse), DetailsReader(parse), 0).1
                                && sent[|sent| - 1] == DetailsRequestFor(d, writer, bearer, guest))
    ensures Tokens(d, net, parse).Ok? && !r.Panic?
            && Attempts(responses, ErrorReader(parse), DetailsReader(parse), 0).0.Err? ==>
              r == Err(Attempts(responses, ErrorReader(parse), DetailsReader(parse), 0).0.error)
  {
    var tokens, tokenRequests := GetTokens(d, net, parse);
    sent := tokenRequests;
    if tokens.IsFailure() {
      return tokens.PropagateFailure(), sent;
    }
    var (bearer, guest) := tokens.value;
    var details, detailRequests := GetTweetDetails(d, writer, bearer, guest, responses, parse);
    sent := sent + detailRequests;
    if details.IsFailure() {
      return details.PropagateFailure(), sent;
    }
    var medias := Medias(details.value);
    r := Ok(());
  }
}

=== FILE: twitter_details.dfy ===
/** The tweet-details response (src/twitter/details.rs) as serde's derived
    decoders read it from a JSON value. The records on the path the download reads,
    `data.tweetResult.result.legacy.entities.media`, keep their values; the records
    off that path are checked for the shape serde demands, and their contents are
    dropped. Every record is read from a JSON object: a missing required field, a
    repeated field or a field of the wrong kind is an error, an unknown field is
    ignored, and a missing or `null` `Option` field is `None`. */
module TwitterDetails {
  import opened Errors
  import opened Json

  // The media type tag

  datatype MediaType = Image | Video | Gif

  /** The name serde gives each variant (its `rename`). */
  function MediaTypeTag(t: MediaType): string {
    match t
    case Image => "photo"
    case Video => "video"
    case Gif => "animated_gif"
  }

  /** The variant name a JSON value spells for a unit variant: a string, or an
      object with the name as its one key and `null` as its content. */
  function VariantName(j: Json): (r: Option<string>)
    ensures r.Some? <==> j.Str? || (j.Object? && |j.members| == 1 && j.members[0].1 == Null)
  {
    if j.Str? then Some(j.s)
    else if j.Object? && |j.members| == 1 && j.members[0].1 == Null then Some(j.members[0].0)
    else None
  }

  /** A `MediaType`: one of the three names, and nothing else. */
  function DecodeMediaType(j: Json): (r: Option<MediaType>)
    ensures r == Some(Image) <==> VariantName(j) == Some("photo")
    ensures r == Some(MediaType.Video) <==> VariantName(j) == Some("video")
    ensures r == Some(Gif) <==> VariantName(j) == Some("animated_gif")
  {
    var name :- VariantName(j);
    if name == "photo" then Some(Image)
    else if name == "video" then Some(MediaType.Video)
    else if name == "animated_gif" then Some(Gif)
    else None
  }

  /** Each variant is read back from its own name. */
  lemma MediaTypeTagRoundTrip(t: MediaType)
    ensures DecodeMediaType(Str(MediaTypeTag(t))) == Some(t)
    ensures DecodeMediaType(Object([(MediaTypeTag(t), Null)])) == Some(t)
  {
  }

  // Records with no fields

  /** `AffiliatesHighlightedLabel`, `BusinessAccount`, `UnmentionData`: a record
      without fields reads every member as unknown. */
  function DecodeEmptyRecord(j: Json): (r: Option<()>)
    ensures r.Some? <==> j.Object?
  {
    if j.Object? then Some(()) else None
  }

  // The media path

  datatype VideoVariant = VideoVariant(contentType: string, url: string, bitrate: Option<nat>)

  function DecodeVideoVariant(j: Json): (r: Option<VideoVariant>)
    ensures r.Some? <==>
              j.Object? && Required(j, "content_type", AsString).Some?
              && Required(j, "url", AsString).Some? && Optional(j, "bitrate", AsU64).Some?
    ensures r.Some? ==>
              r.value == VideoVariant(Required(j, "content_type", AsString).value, Required(j, "url", AsString).value,
                                      Optional(j, "bitrate", AsU64).value)
  {
    if !j.Object? then None
    else
      var contentType :- Required(j, "content_type", AsString);
      var url :- Required(j, "url", AsString);
      var bitrate :- Optional(j, "bitrate", AsU64);
      Some(VideoVariant(contentType, url, bitrate))
  }

  /** `aspect_ratio` is checked to be an array of numbers; its float values are
      not kept. */
  datatype VideoInfo = VideoInfo(aspectRatioLength: nat, durationMillis: Option<nat>, variants: seq<VideoVariant>)

  function DecodeVideoInfo(j: Json): (r: Option<VideoInfo>)
    ensures r.Some? <==>
              j.Object? && Required(j, "aspect_ratio", x => AsArray(x, AsFloat)).Some?
              && Optional(j, "duration_millis", AsU32).Some?
              && Required(j, "variants", x => AsArray(x, DecodeVideoVariant)).Some?
    ensures r.Some? ==>
              r.value == VideoInfo(|Required(j, "aspect_ratio", x => AsArray(x, AsFloat)).value|,
                                   Optional(j, "duration_millis", AsU32).value,
                                   Required(j, "variants", x => AsArray(x, DecodeVideoVariant)).value)
  {
    if !j.Object? then None
    else
      var aspectRatio :- Required(j, "aspect_ratio", x => AsArray(x, AsFloat));
      var durationMillis :- Optional(j, "duration_millis", AsU32);
      var variants :- Required(j, "variants", x => AsArray(x, DecodeVideoVariant));
      Some(VideoInfo(|aspectRatio|, durationMillis, variants))
  }

  /** `FocusRect`: four `usize` fields. */
  function CheckFocusRect(j: Json): (r: Option<()>)
    ensures r.Some? <==>
              j.Object? && Required(j, "x", AsU64).Some? && Required(j, "y", AsU64).Some?
              && Required(j, "w", AsU64).Some? && Required(j, "h", AsU64).Some?
  {
    if !j.Object? then None
    else
      var x :- Required(j, "x", AsU64);
      var y :- Required(j, "y", AsU64);
      var w :- Required(j, "w", AsU64);
      var h :- Required(j, "h", AsU64);
      Some(())
  }

  /** `MediaSize`. */
  function CheckMediaSize(j: Json): (r: Option<()>)
    ensures r.Some? <==>
              j.Object? && Required(j, "h", AsU64).Some? && Required(j, "w", AsU64).Some?
              && Required(j, "resize", AsString).Some?
  {
    if !j.Object? then None
    else
      var h :- Required(j, "h", AsU64);
      var w :- Required(j, "w", AsU64);
      var resize :- Required(j, "resize", AsString);
      Some(())
  }

  /** `MediaSizes`: four sizes. */
  function CheckMediaSizes(j: Json): (r: Option<()>)
    ensures r.Some? <==>
              j.Object? && Required(j, "large", CheckMediaSize).Some?
              && Required(j, "medium", CheckMediaSize).Some?
              && Required(j, "small", CheckMediaSize).Some?
              && Required(j, "thumb", CheckMediaSize).Some?
  {
    if !j.Object? then None
    else
      var large :- Required(j, "large", CheckMediaSize);
      var medium :- Required(j, "medium", CheckMediaSize);
      var small :- Required(j, "small", CheckMediaSize);
      var thumb :- Required(j, "thumb", CheckMediaSize);
      Some(())
  }

  /** `FeatureFace`: a list of rectangles. */
  function CheckFeatureFace(j: Json): (r: Option<()>)
    ensures r.Some? <==> j.Object? && Required(j, "faces", x => AsArray(x, CheckFocusRect)).Some?
  {
    if !j.Object? then None
    else
      var faces :- Required(j, "faces", x => AsArray(x, CheckFocusRect));
      Some(())
  }

  /** `MediaFeatures`: four faces. */
  function CheckMediaFeatures(j: Json): (r: Option<()>)
    ensures r.Some? <==>
              j.Object? && Required(j, "large", CheckFeatureFace).Some?
              && Required(j, "medium", CheckFeatureFace).Some?
              && Required(j, "small", CheckFeatureFace).Some?
              && Required(j, "orig", CheckFeatureFace).Some?
  {
    if !j.Object? then None
    else
      var large :- Required(j, "large", CheckFeatureFace);
      var medium :- Required(j, "medium", CheckFeatureFace);
      var small :- Required(j, "small", CheckFeatureFace);
      var orig :- Required(j, "orig", CheckFeatureFace);
      Some(())
  }

  /** `OriginalInfo`. */
  function CheckOriginalInfo(j: Json): (r: Option<()>)
    ensures r.Some? <==>
              j.Object? && Required(j, "height", AsU64).Some? && Required(j, "width", AsU64).Some?
              && Required(j, "focus_rects", x => AsArray(x, CheckFocusRect)).Some?
  {
    if !j.Object? then None
    else
      var height :- Required(j, "height", AsU64);
      var width :- Required(j, "width", AsU64);
      var focusRects :- Required(j, "focus_rects", x => AsArray(x, CheckFocusRect));
      Some(())
  }

  /** `AdditionalMediaInfo`: its one flag. */
  function DecodeAdditionalMediaInfo(j: Json): (r: Option<bool>)
    ensures r.Some? <==> j.Object? && Required(j, "monetizable", AsBool).Some?
    ensures r.Some? ==> Occurs(j.members, "monetizable") == Once(Bool(r.value))
  {
    if !j.Object? then None
    else Required(j, "monetizable", AsBool)
  }

  /** `ExtMediaAvailability`: its one status text. */
  function DecodeExtMediaAvailability(j: Json): (r: Option<string>)
    ensures r.Some? <==> j.Object? && Required(j, "status", AsString).Some?
    ensures r.Some? ==> Occurs(j.members, "status") == Once(Str(r.value))
  {
    if !j.Object? then None
    else Required(j, "status", AsString)
  }

  datatype MediaEntity = MediaEntity(
    displayUrl: string,
    expandedUrl: string,
    idStr: string,
    indices: (nat, nat),
    mediaKey: string,
    mediaUrlHttps: string,
    mediaType: MediaType,
    url: string,
    monetizable: Option<bool>,
    availability: string,
    videoInfo: Option<VideoInfo>)

  /** `MediaEntity`: the media type comes from the `type` key, and `video_info`
      may be absent whatever the type. */
  function DecodeMediaEntity(j: Json): (r: Option<MediaEntity>)
    ensures r.Some? <==> j.Object? && DecodeMediaFields(j).Some? && Optional(j, "video_info", DecodeVideoInfo).Some?
    ensures r.Some? ==>
              r.value == DecodeMediaFields(j).value.(videoInfo := Optional(j, "video_info", DecodeVideoInfo).value)
    ensures r.Some? ==> Required(j, "type", DecodeMediaType) == Some(r.value.mediaType)
  {
    if !j.Object? then None
    else
      var fields :- DecodeMediaFields(j);
      var videoInfo :- Optional(j, "video_info", DecodeVideoInfo);
      Some(fields.(videoInfo := videoInfo))
  }

  /** The keys of `MediaEntity` other than `video_info`. */
  const MEDIA_FIELD_KEYS: set<string> := {
    "display_url", "expanded_url", "id_str", "indices", "media_key", "media_url_https", "type",
    "url", "additional_media_info", "ext_media_availability", "sizes", "features", "original_info"}

  /** Every field of a `MediaEntity` but `video_info`, which is left `None`. */
  function DecodeMediaFields(j: Json): (r: Option<MediaEntity>)
    requires j.Object?
    ensures r.Some? <==>
              Required(j, "display_url", AsString).Some?
              && Required(j, "expanded_url", AsString).Some? && Required(j, "id_str", AsString).Some?
              && Required(j, "indices", AsU32Pair).Some? && Required(j, "media_key", AsString).Some?
              && Required(j, "media_url_https", AsString).Some?
              && Required(j, "type", DecodeMediaType).Some? && Required(j, "url", AsString).Some?
              && Optional(j, "additional_media_info", DecodeAdditionalMediaInfo).Some?
              && Required(j, "ext_media_availability", DecodeExtMediaAvailability).Some?
              && Required(j, "sizes", CheckMediaSizes).Some?
              && Optional(j, "features", CheckMediaFeatures).Some?
              && Required(j, "original_info", CheckOriginalInfo).Some?
    ensures r.Some? ==>
              r.value == MediaEntity(Required(j, "display_url", AsString).value,
                                     Required(j, "expanded_url", AsString).value,
                                     Required(j, "id_str", AsString).value,
                                     Required(j, "indices", AsU32Pair).value,
                                     Required(j, "media_key", AsString).value,
                                     Required(j, "media_url_https", AsString).value,
                                     Required(j, "type", DecodeMediaType).value,
                                     Required(j, "url", AsString).value,
                                     Optional(j, "additional_media_info", DecodeAdditionalMediaInfo).value,
                                     Required(j, "ext_media_availability", DecodeExtMediaAvailability).value,
                                     None)
  {
    var displayUrl :- Required(j, "display_url", AsString);
    var expandedUrl :- Required(j, "expanded_url", AsString);
    var idStr :- Required(j, "id_str", AsString);
    var indices :- Required(j, "indices", AsU32Pair);
    var mediaKey :- Required(j, "media_key", AsString);
    var mediaUrlHttps :- Required(j, "media_url_https", AsString);
    var mediaType :- Required(j, "type", DecodeMediaType);
    var url :- Required(j, "url", AsString);
    var monetizable :- Optional(j, "additional_media_info", DecodeAdditionalMediaInfo);
    var availability :- Required(j, "ext_media_availability", DecodeExtMediaAvailability);
    var sizes :- Required(j, "sizes", CheckMediaSizes);
    var features :- Optional(j, "features", CheckMediaFeatures);
    var originalInfo :- Required(j, "original_info", CheckOriginalInfo);
    Some(MediaEntity(displayUrl, expandedUrl, idStr, indices, mediaKey, mediaUrlHttps,
                     mediaType, url, monetizable, availability, None))
  }

  /** A member under any other key leaves those fields as they were. */
  lemma MediaFieldsIgnoreOtherKey(members: seq<(string, Json)>, k: string, v: Json)
    requires k !in MEDIA_FIELD_KEYS
    ensures DecodeMediaFields(Object(members + [(k, v)])) == DecodeMediaFields(Object(members))
  {
    RequiredIgnoresOtherKey(members, k, v, "display_url", AsString);
    RequiredIgnoresOtherKey(members, k, v, "expanded_url", AsString);
    RequiredIgnoresOtherKey(members, k, v, "id_str", AsString);
    RequiredIgnoresOtherKey(members, k, v, "indices", AsU32Pair);
    RequiredIgnoresOtherKey(members, k, v, "media_key", AsString);
    RequiredIgnoresOtherKey(members, k, v, "media_url_https", AsString);
    RequiredIgnoresOtherKey(members, k, v, "type", DecodeMediaType);
    RequiredIgnoresOtherKey(members, k, v, "url", AsString);
    OptionalIgnoresOtherKey(members, k, v, "additional_media_info", DecodeAdditionalMediaInfo);
    RequiredIgnoresOtherKey(members, k, v, "ext_media_availability", DecodeExtMediaAvailability);
    RequiredIgnoresOtherKey(members, k, v, "sizes", CheckMediaSizes);
    OptionalIgnoresOtherKey(members, k, v, "features", CheckMediaFeatures);
    RequiredIgnoresOtherKey(members, k, v, "original_info", CheckOriginalInfo);
  }

  /** `Vec<MediaEntity>`. */
  function DecodeMediaList(j: Json): (r: Option<seq<MediaEntity>>)
    ensures r.Some? <==> j.Array? && forall i :: 0 <= i < |j.items| ==> DecodeMediaEntity(j.items[i]).Some?
    ensures r.Some? ==> |r.value| == |j.items|
                        && forall i :: 0 <= i < |j.items| ==> r.value[i] == DecodeMediaEntity(j.items[i]).value
  {
    AsArray(j, DecodeMediaEntity)
  }

  /** `LegacyEntityUrl`. */
  function CheckLegacyEntityUrl(j: Json): (r: Option<()>)
    ensures r.Some? <==>
              j.Object? && Required(j, "display_url", AsString).Some?
              && Required(j, "expanded_url", AsString).Some?
              && Required(j, "indices", AsU64Pair).Some?
  {
    if !j.Object? then None
    else
      var displayUrl :- Required(j, "display_url", AsString);
      var expandedUrl :- Required(j, "expanded_url", AsString);
      var indices :- Required(j, "indices", AsU64Pair);
      Some(())
  }

  /** `Symbol` and `Hashtag`: a text and its indices. */
  function CheckTextIndices(j: Json): (r: Option<()>)
    ensures r.Some? <==> j.Object? && Required(j, "text", AsString).Some? && Required(j, "indices", AsU64Pair).Some?
  {
    if !j.Object? then None
    else
      var text :- Required(j, "text", AsString);
      var indices :- Required(j, "indices", AsU64Pair);
      Some(())
  }

  /** `UserMention`. */
  function CheckUserMention(j: Json): (r: Option<()>)
    ensures r.Some? <==>
              j.Object? && Required(j, "id_str", AsString).Some?
              && Required(j, "name", AsString).Some? && Required(j, "screen_name", AsString).Some?
              && Required(j, "indices", AsU64Pair).Some?
  {
    if !j.Object? then None
    else
      var idStr :- Required(j, "id_str", AsString);
      var name :- Required(j, "name", AsString);
      var screenName :- Required(j, "screen_name", AsString);
      var indices :- Required(j, "indices", AsU64Pair);
      Some(())
  }

  /** The other four lists of `LegacyEntity`, which nothing reads. */
  function CheckUserMentions(j: Json): Option<seq<()>> {
    AsArray(j, CheckUserMention)
  }

  function CheckUrlEntities(j: Json): Option<seq<()>> {
    AsArray(j, CheckLegacyEntityUrl)
  }

  function CheckIndexedTexts(j: Json): Option<seq<()>> {
    AsArray(j, CheckTextIndices)
  }

  function CheckEntityLists(j: Json): (r: Option<()>)
    requires j.Object?
    ensures r.Some? <==>
              Required(j, "user_mentions", CheckUserMentions).Some?
              && Required(j, "urls", CheckUrlEntities).Some?
              && Required(j, "hashtags", CheckIndexedTexts).Some?
              && Required(j, "symbols", CheckIndexedTexts).Some?
  {
    var userMentions :- Required(j, "user_mentions", CheckUserMentions);
    var urls :- Required(j, "urls", CheckUrlEntities);
    var hashtags :- Required(j, "hashtags", CheckIndexedTexts);
    var symbols :- Required(j, "symbols", CheckIndexedTexts);
    Some(())
  }

  /** The four required lists do not depend on a member under another key. */
  lemma EntityListsIgnoreOtherKey(members: seq<(string, Json)>, k: string, v: Json)
    requires k !in {"user_mentions", "urls", "hashtags", "symbols"}
    ensures CheckEntityLists(Object(members + [(k, v)])) == CheckEntityLists(Object(members))
  {
    RequiredIgnoresOtherKey(members, k, v, "user_mentions", CheckUserMentions);
    RequiredIgnoresOtherKey(members, k, v, "urls", CheckUrlEntities);
    RequiredIgnoresOtherKey(members, k, v, "hashtags", CheckIndexedTexts);
    RequiredIgnoresOtherKey(members, k, v, "symbols", CheckIndexedTexts);
  }

  datatype LegacyEntity = LegacyEntity(media: Option<seq<MediaEntity>>)

  /** `LegacyEntity`: `media` is optional, the four other lists are required. */
  function DecodeLegacyEntity(j: Json): (r: Option<LegacyEntity>)
    ensures r.Some? <==> j.Object? && CheckEntityLists(j).Some?
                         && Optional(j, "media", DecodeMediaList).Some?
    ensures r.Some? ==> j.Object? && r.value.media == Optional(j, "media", DecodeMediaList).value
  {
    if !j.Object? then None
    else
      var media :- Optional(j, "media", DecodeMediaList);
      var lists :- CheckEntityLists(j);
      Some(LegacyEntity(media))
  }

  /** `ExtendedLegacyEntity`: a required media list. */
  function DecodeExtendedLegacyEntity(j: Json): (r: Option<seq<MediaEntity>>)
    ensures r.Some? <==> j.Object? && Required(j, "media", DecodeMediaList).Some?
    ensures r.Some? ==> r.value == Required(j, "media", DecodeMediaList).value
  {
    if !j.Object? then None
    else Required(j, "media", DecodeMediaList)
  }

  datatype Legacy = Legacy(
    bookmarked: bool,
    createdAt: string,
    conversationIdStr: string,
    displayTextRange: (nat, nat),
    entities: LegacyEntity,
    extendedEntities: Option<seq<MediaEntity>>,
    favoriteCount: nat,
    favorited: bool,
    fullText: string,
    isQuoteStatus: bool,
    lang: string,
    possiblySensitive: Option<bool>,
    possiblySensitiveEditable: Option<bool>,
    quoteCount: nat,
    replyCount: nat,
    retweetCount: nat,
    retweeted: bool,
    userIdStr: string,
    idStr: string)

  function DecodeLegacy(j: Json): (r: Option<Legacy>)
    ensures r.Some? <==>
              j.Object? && Required(j, "bookmarked", AsBool).Some?
              && Required(j, "created_at", AsString).Some?
              && Required(j, "conversation_id_str", AsString).Some?
              && Required(j, "display_text_range", AsU32Pair).Some?
              && Required(j, "entities", DecodeLegacyEntity).Some?
              && Optional(j, "extended_entities", DecodeExtendedLegacyEntity).Some?
              && Required(j, "favorite_count", AsU64).Some? && Required(j, "favorited", AsBool).Some?
              && Required(j, "full_text", AsString).Some?
              && Required(j, "is_quote_status", AsBool).Some? && Required(j, "lang", AsString).Some?
              && Optional(j, "possibly_sensitive", AsBool).Some?
              && Optional(j, "possibly_sensitive_editable", AsBool).Some?
              && Required(j, "quote_count", AsU64).Some? && Required(j, "reply_count", AsU64).Some?
              && Required(j, "retweet_count", AsU64).Some? && Required(j, "retweeted", AsBool).Some?
              && Required(j, "user_id_str", AsString).Some? && Required(j, "id_str", AsString).Some?
    ensures r.Some? ==>
              r.value == Legacy(
                Required(j, "bookmarked", AsBool).value,
                Required(j, "created_at", AsString).value,
                Required(j, "conversation_id_str", AsString).value,
                Required(j, "display_text_range", AsU32Pair).value,
                Required(j, "entities", DecodeLegacyEntity).value,
                Optional(j, "extended_entities", DecodeExtendedLegacyEntity).value,
                Required(j, "favorite_count", AsU64).value,
                Required(j, "favorited", AsBool).value,
                Required(j, "full_text", AsString).value,
                Required(j, "is_quote_status", AsBool).value,
                Required(j, "lang", AsString).value,
                Optional(j, "possibly_sensitive", AsBool).value,
                Optional(j, "possibly_sensitive_editable", AsBool).value,
                Required(j, "quote_count", AsU64).value,
                Required(j, "reply_count", AsU64).value,
                Required(j, "retweet_count", AsU64).value,
                Required(j, "retweeted", AsBool).value,
                Required(j, "user_id_str", AsString).value,
                Required(j, "id_str", AsString).value)
  {
    if !j.Object? then None
    else
      var bookmarked :- Required(j, "bookmarked", AsBool);
      var createdAt :- Required(j, "created_at", AsString);
      var conversationIdStr :- Required(j, "conversation_id_str", AsString);
      var displayTextRange :- Required(j, "display_text_range", AsU32Pair);
      var entities :- Required(j, "entities", DecodeLegacyEntity);
      var extendedEntities :- Optional(j, "extended_entities", DecodeExtendedLegacyEntity);
      var favoriteCount :- Required(j, "favorite_count", AsU64);
      var favorited :- Required(j, "favorited", AsBool);
      var fullText :- Required(j, "full_text", AsString);
      var isQuoteStatus :- Required(j, "is_quote_status", AsBool);
      var lang :- Required(j, "lang", AsString);
      var possiblySensitive :- Optional(j, "possibly_sensitive", AsBool);
      var possiblySensitiveEditable :- Optional(j, "possibly_sensitive_editable", AsBool);
      var quoteCount :- Required(j, "quote_count", AsU64);
      var replyCount :- Required(j, "reply_count", AsU64);
      var retweetCount :- Required(j, "retweet_count", AsU64);
      var retweeted :- Required(j, "retweeted", AsBool);
      var userIdStr :- Required(j, "user_id_str", AsString);
      var idStr :- Required(j, "id_str", AsString);
      Some(Legacy(bookmarked, createdAt, conversationIdStr, displayTextRange, entities,
                  extendedEntities, favoriteCount, favorited, fullText, isQuoteStatus, lang,
                  possiblySensitive, possiblySensitiveEditable, quoteCount, replyCount,
                  retweetCount, retweeted, userIdStr, idStr))
  }

  // The author, which nothing reads

  /** `DescriptionUrl`. */
  function CheckDescriptionUrl(j: Json): (r: Option<()>)
    ensures r.Some? <==>
              j.Object? && Required(j, "display_url", AsString).Some?
              && Required(j, "expanded_url", AsString).Some? && Required(j, "url", AsString).Some?
              && Required(j, "indices", AsU32Pair).Some?
  {
    if !j.Object? then None
    else
      var displayUrl :- Required(j, "display_url", AsString);
      var expandedUrl :- Required(j, "expanded_url", AsString);
      var url :- Required(j, "url", AsString);
      var indices :- Required(j, "indices", AsU32Pair);
      Some(())
  }

  /** `EntityDescription` and `EntityUrl`: a list of URLs. */
  function CheckUrlList(j: Json): (r: Option<()>)
    ensures r.Some? <==>
              j.Object? && Required(j, "urls", x => AsArray(x, CheckDescriptionUrl)).Some?
  {
    if !j.Object? then None
    else
      var urls :- Required(j, "urls", x => AsArray(x, CheckDescriptionUrl));
      Some(())
  }

  /** `LegacyUserEntities`. */
  function CheckLegacyUserEntities(j: Json): (r: Option<()>)
    ensures r.Some? <==>
              j.Object? && Required(j, "description", CheckUrlList).Some?
              && Optional(j, "url", CheckUrlList).Some?
  {
    if !j.Object? then None
    else
      var description :- Required(j, "description", CheckUrlList);
      var url :- Optional(j, "url", CheckUrlList);
      Some(())
  }

  /** The string fields of `LegacyUser`. */
  function CheckLegacyUserTexts(j: Json): (r: Option<()>)
    requires j.Object?
    ensures r.Some? <==>
              Required(j, "created_at", AsString).Some? && Required(j, "description", AsString).Some?
              && Required(j, "location", AsString).Some? && Required(j, "name", AsString).Some?
              && Optional(j, "profile_banner_url", AsString).Some?
              && Required(j, "profile_image_url_https", AsString).Some?
              && Required(j, "profile_interstitial_type", AsString).Some?
              && Required(j, "screen_name", AsString).Some?
              && Required(j, "translator_type", AsString).Some? && Optional(j, "url", AsString).Some?
              && Required(j, "pinned_tweet_ids_str", x => AsArray(x, AsString)).Some?
              && Required(j, "withheld_in_countries", x => AsArray(x, AsString)).Some?
  {
    var createdAt :- Required(j, "created_at", AsString);
    var description :- Required(j, "description", AsString);
    var location :- Required(j, "location", AsString);
    var name :- Required(j, "name", AsString);
    var profileBannerUrl :- Optional(j, "profile_banner_url", AsString);
    var profileImageUrlHttps :- Required(j, "profile_image_url_https", AsString);
    var profileInterstitialType :- Required(j, "profile_interstitial_type", AsString);
    var screenName :- Required(j, "screen_name", AsString);
    var translatorType :- Required(j, "translator_type", AsString);
    var url :- Optional(j, "url", AsString);
    var pinnedTweetIdsStr :- Required(j, "pinned_tweet_ids_str", x => AsArray(x, AsString));
    var withheldInCountries :- Required(j, "withheld_in_countries", x => AsArray(x, AsString));
    Some(())
  }

  /** The counters and flags of `LegacyUser`. */
  function CheckLegacyUserCounts(j: Json): (r: Option<()>)
    requires j.Object?
    ensures r.Some? <==>
              Required(j, "default_profile", AsBool).Some?
              && Required(j, "default_profile_image", AsBool).Some?
              && Required(j, "fast_followers_count", AsU64).Some?
              && Required(j, "favourites_count", AsU64).Some?
              && Required(j, "followers_count", AsU64).Some?
              && Required(j, "friends_count", AsU64).Some?
              && Required(j, "has_custom_timelines", AsBool).Some?
              && Required(j, "is_translator", AsBool).Some? && Required(j, "listed_count", AsU64).Some?
              && Required(j, "media_count", AsU64).Some?
              && Required(j, "normal_followers_count", AsU64).Some?
              && Required(j, "possibly_sensitive", AsBool).Some?
              && Required(j, "statuses_count", AsU64).Some? && Required(j, "verified", AsBool).Some?
  {
    var defaultProfile :- Required(j, "default_profile", AsBool);
    var defaultProfileImage :- Required(j, "default_profile_image", AsBool);
    var fastFollowersCount :- Required(j, "fast_followers_count", AsU64);
    var favouritesCount :- Required(j, "favourites_count", AsU64);
    var followersCount :- Required(j, "followers_count", AsU64);
    var friendsCount :- Required(j, "friends_count", AsU64);
    var hasCustomTimelines :- Required(j, "has_custom_timelines", AsBool);
    var isTranslator :- Required(j, "is_translator", AsBool);
    var listedCount :- Required(j, "listed_count", AsU64);
    var mediaCount :- Required(j, "media_count", AsU64);
    var normalFollowersCount :- Required(j, "normal_followers_count", AsU64);
    var possiblySensitive :- Required(j, "possibly_sensitive", AsBool);
    var statusesCount :- Required(j, "statuses_count", AsU64);
    var verified :- Required(j, "verified", AsBool);
    Some(())
  }

  /** `LegacyUser`. */
  function CheckLegacyUser(j: Json): (r: Option<()>)
    ensures r.Some? <==>
              j.Object? && CheckLegacyUserTexts(j).Some? && CheckLegacyUserCounts(j).Some?
              && Required(j, "entities", CheckLegacyUserEntities).Some?
  {
    if !j.Object? then None
    else
      var texts :- CheckLegacyUserTexts(j);
      var counts :- CheckLegacyUserCounts(j);
      var entities :- Required(j, "entities", CheckLegacyUserEntities);
      Some(())
  }

  /** `Category`. */
  function CheckCategory(j: Json): (r: Option<()>)
    ensures r.Some? <==>
              j.Object? && Required(j, "id", AsU32).Some? && Required(j, "name", AsString).Some?
              && Required(j, "icon_name", AsString).Some?
  {
    if !j.Object? then None
    else
      var id :- Required(j, "id", AsU32);
      var name :- Required(j, "name", AsString);
      var iconName :- Required(j, "icon_name", AsString);
      Some(())
  }

  /** `Professional`. */
  function CheckProfessional(j: Json): (r: Option<()>)
    ensures r.Some? <==>
              j.Object? && Required(j, "rest_id", AsString).Some?
              && Required(j, "professional_type", AsString).Some?
              && Required(j, "category", x => AsArray(x, CheckCategory)).Some?
  {
    if !j.Object? then None
    else
      var restId :- Required(j, "rest_id", AsString);
      var professionalType :- Required(j, "professional_type", AsString);
      var category :- Required(j, "category", x => AsArray(x, CheckCategory));
      Some(())
  }

  /** `UserResultValue`. */
  function CheckUserResultValue(j: Json): (r: Option<()>)
    ensures r.Some? <==>
              j.Object? && Required(j, "__typename", AsString).Some?
              && Required(j, "id", AsString).Some? && Required(j, "rest_id", AsString).Some?
              && Required(j, "affiliates_highlighted_label", DecodeEmptyRecord).Some?
              && Required(j, "is_blue_verified", AsBool).Some?
              && Required(j, "legacy", CheckLegacyUser).Some?
              && Optional(j, "professional", CheckProfessional).Some?
              && Required(j, "business_account", DecodeEmptyRecord).Some?
  {
    if !j.Object? then None
    else
      var typename :- Required(j, "__typename", AsString);
      var id :- Required(j, "id", AsString);
      var restId :- Required(j, "rest_id", AsString);
      var highlightedLabel :- Required(j, "affiliates_highlighted_label", DecodeEmptyRecord);
      var isBlueVerified :- Required(j, "is_blue_verified", AsBool);
      var legacy :- Required(j, "legacy", CheckLegacyUser);
      var professional :- Optional(j, "professional", CheckProfessional);
      var businessAccount :- Required(j, "business_account", DecodeEmptyRecord);
      Some(())
  }

  /** `Core` and `UserResult`: one nested record each. */
  function CheckCore(j: Json): (r: Option<()>)
    ensures r.Some? <==>
              j.Object? && Required(j, "user_results", CheckUserResult).Some?
  {
    if !j.Object? then None
    else
      var userResults :- Required(j, "user_results", CheckUserResult);
      Some(())
  }

  function CheckUserResult(j: Json): (r: Option<()>)
    ensures r.Some? <==>
              j.Object? && Required(j, "result", CheckUserResultValue).Some?
  {
    if !j.Object? then None
    else
      var result :- Required(j, "result", CheckUserResultValue);
      Some(())
  }

  // The tweet

  /** `Views`. */
  function DecodeViews(j: Json): (r: Option<(Option<string>, string)>)
    ensures r.Some? <==>
              j.Object? && Optional(j, "count", AsString).Some? && Required(j, "state", AsString).Some?
    ensures r.Some? ==>
              r.value == (Optional(j, "count", AsString).value, Required(j, "state", AsString).value)
  {
    if !j.Object? then None
    else
      var count :- Optional(j, "count", AsString);
      var state :- Required(j, "state", AsString);
      Some((count, state))
  }

  /** `QuickPromoteEligibility`. */
  function DecodeQuickPromoteEligibility(j: Json): (r: Option<string>)
    ensures r.Some? <==> j.Object? && Required(j, "eligibility", AsString).Some?
    ensures r.Some? ==> Occurs(j.members, "eligibility") == Once(Str(r.value))
  {
    if !j.Object? then None
    else Required(j, "eligibility", AsString)
  }

  datatype TweetResultValue = TweetResultValue(
    typename: string,
    restId: string,
    hasBirdwatchNotes: bool,
    views: (Option<string>, string),
    source: string,
    legacy: Legacy,
    eligibility: string)

  function DecodeTweetResultValue(j: Json): (r: Option<TweetResultValue>)
    ensures r.Some? <==>
              j.Object? && Required(j, "__typename", AsString).Some?
              && Required(j, "rest_id", AsString).Some?
              && Required(j, "has_birdwatch_notes", AsBool).Some?
              && Required(j, "core", CheckCore).Some?
              && Required(j, "unmention_data", DecodeEmptyRecord).Some?
              && Required(j, "views", DecodeViews).Some? && Required(j, "source", AsString).Some?
              && Required(j, "legacy", DecodeLegacy).Some?
              && Required(j, "quick_promote_eligibility", DecodeQuickPromoteEligibility).Some?
    ensures r.Some? ==>
              r.value == TweetResultValue(
                Required(j, "__typename", AsString).value,
                Required(j, "rest_id", AsString).value,
                Required(j, "has_birdwatch_notes", AsBool).value,
                Required(j, "views", DecodeViews).value,
                Required(j, "source", AsString).value,
                Required(j, "legacy", DecodeLegacy).value,
                Required(j, "quick_promote_eligibility", DecodeQuickPromoteEligibility).value)
  {
    if !j.Object? then None
    else
      var typename :- Required(j, "__typename", AsString);
      var restId :- Required(j, "rest_id", AsString);
      var hasBirdwatchNotes :- Required(j, "has_birdwatch_notes", AsBool);
      var core :- Required(j, "core", CheckCore);
      var unmentionData :- Required(j, "unmention_data", DecodeEmptyRecord);
      var views :- Required(j, "views", DecodeViews);
      var source :- Required(j, "source", AsString);
      var legacy :- Required(j, "legacy", DecodeLegacy);
      var eligibility :- Required(j, "quick_promote_eligibility", DecodeQuickPromoteEligibility);
      Some(TweetResultValue(typename, restId, hasBirdwatchNotes, views, source, legacy, eligibility))
  }

  datatype TweetResult = TweetResult(result: TweetResultValue)

  function DecodeTweetResult(j: Json): (r: Option<TweetResult>)
    ensures r.Some? <==> j.Object? && Required(j, "result", DecodeTweetResultValue).Some?
    ensures r.Some? ==> r.value == TweetResult(Required(j, "result", DecodeTweetResultValue).value)
  {
    if !j.Object? then None
    else
      var result :- Required(j, "result", DecodeTweetResultValue);
      Some(TweetResult(result))
  }

  /** `Data`: the field `tweet_result` is read from the key `tweetResult`. */
  datatype Data = Data(tweetResult: TweetResult)

  function DecodeData(j: Json): (r: Option<Data>)
    ensures r.Some? <==> j.Object? && Required(j, "tweetResult", DecodeTweetResult).Some?
    ensures r.Some? ==> r.value.tweetResult == Required(j, "tweetResult", DecodeTweetResult).value
  {
    if !j.Object? then None
    else
      var tweetResult :- Required(j, "tweetResult", DecodeTweetResult);
      Some(Data(tweetResult))
  }

  datatype TweetDetails = TweetDetails(data: Data)

  function DecodeTweetDetails(j: Json): (r: Option<TweetDetails>)
    ensures r.Some? <==> j.Object? && Required(j, "data", DecodeData).Some?
    ensures r.Some? ==> r.value.data == Required(j, "data", DecodeData).value
  {
    if !j.Object? then None
    else
      var data :- Required(j, "data", DecodeData);
      Some(TweetDetails(data))
  }

  /** What `download` reads: `data.tweet_result.result.legacy.entities.media`. */
  function Medias(d: TweetDetails): Option<seq<MediaEntity>> {
    d.data.tweetResult.result.legacy.entities.media
  }

  /** The value under `key` when it occurs once in an object, else `null`. */
  function Member(j: Json, key: string): Json {
    if j.Object? && Occurs(j.members, key).Once? then Occurs(j.members, key).value else Null
  }

  /** The media list `download` reads is the optional `media` list of the object
      reached from the response through `data`, `tweetResult`, `result`, `legacy`
      and `entities`, each of which must be an object. */
  lemma MediasFollowPath(j: Json)
    requires DecodeTweetDetails(j).Some?
    ensures var entities := Member(Member(Member(Member(Member(j, "data"), "tweetResult"), "result"), "legacy"), "entities");
            entities.Object? && Medias(DecodeTweetDetails(j).value) == Optional(entities, "media", DecodeMediaList).value
  {
  }

  // Properties of the decoders

  /** A media entity whose `type` is none of the three names does not decode. */
  lemma UnknownTypeRejectsMedia(members: seq<(string, Json)>, tag: string)
    requires Occurs(members, "type") == Once(Str(tag))
    requires tag != "photo" && tag != "video" && tag != "animated_gif"
    ensures DecodeMediaEntity(Object(members)).None?
  {
  }

  /** A tweet's entities without a `media` key decode to `None` media, and exactly
      when they would with an empty media list. */
  lemma MediaIsOptional(members: seq<(string, Json)>)
    requires !HasKey(members, "media")
    ensures DecodeLegacyEntity(Object(members)).Some? ==> DecodeLegacyEntity(Object(members)).value.media.None?
    ensures DecodeLegacyEntity(Object(members)).Some? <==>
              DecodeLegacyEntity(Object(members + [("media", Array([]))])).Some?
  {
    OccursAppendedKey(members, "media", Array([]));
    EntityListsIgnoreOtherKey(members, "media", Array([]));
  }

  /** Adding `video_info` to a media entity that has none changes only its video
      information: whether it decodes, and every other field, do not depend on it,
      whatever the media type. */
  lemma VideoInfoIsOptional(members: seq<(string, Json)>, info: Json)
    requires !HasKey(members, "video_info") && DecodeVideoInfo(info).Some? && info != Null
    ensures DecodeMediaEntity(Object(members)).Some? ==> DecodeMediaEntity(Object(members)).value.videoInfo.None?
    ensures DecodeMediaEntity(Object(members)).Some? <==>
              DecodeMediaEntity(Object(members + [("video_info", info)])).Some?
    ensures DecodeMediaEntity(Object(members)).Some? ==>
              DecodeMediaEntity(Object(members + [("video_info", info)])).value
              == DecodeMediaEntity(Object(members)).value.(videoInfo := Some(DecodeVideoInfo(info).value))
  {
    OccursAppendedKey(members, "video_info", info);
    VideoInfoIsNoMediaField();
    MediaFieldsIgnoreOtherKey(members, "video_info", info);
  }

  lemma VideoInfoIsNoMediaField()
    ensures "video_info" !in MEDIA_FIELD_KEYS
  {
  }

  /** Likewise a video variant without `bitrate` decodes with `None`, and adding a
      bitrate changes nothing else. */
  lemma BitrateIsOptional(members: seq<(string, Json)>, bitrate: nat)
    requires !HasKey(members, "bitrate") && bitrate < U64_BOUND
    ensures DecodeVideoVariant(Object(members)).Some? ==> DecodeVideoVariant(Object(members)).value.bitrate.None?
    ensures DecodeVideoVariant(Object(members)).Some? <==>
              DecodeVideoVariant(Object(members + [("bitrate", Int(bitrate))])).Some?
    ensures DecodeVideoVariant(Object(members)).Some? ==>
              DecodeVideoVariant(Object(members + [("bitrate", Int(bitrate))])).value
              == DecodeVideoVariant(Object(members)).value.(bitrate := Some(bitrate))
  {
    OccursAppendedKey(members, "bitrate", Int(bitrate));
    RequiredIgnoresOtherKey(members, "bitrate", Int(bitrate), "content_type", AsString);
    RequiredIgnoresOtherKey(members, "bitrate", Int(bitrate), "url", AsString);
  }

  /** The tweet result is read from the key `tweetResult` only: the snake-case
      field name does not stand in for it. */
  lemma TweetResultKeyIsCamelCase(members: seq<(string, Json)>)
    requires !HasKey(members, "tweetResult")
    ensures DecodeData(Object(members)).None?
    ensures DecodeData(Object(members + [("tweet_result", Object([]))])).None?
  {
    OccursIgnoresOtherKey(members, "tweet_result", Object([]), "tweetResult");
  }

  /** Members under keys the record does not declare are ignored. */
  lemma UnknownFieldIgnored(members: seq<(string, Json)>, key: string, value: Json)
    requires key != "data"
    ensures DecodeTweetDetails(Object(members + [(key, value)])) == DecodeTweetDetails(Object(members))
  {
    OccursIgnoresOtherKey(members, key, value, "data");
  }
}

=== FILE: twitter_scan.dfy ===
/** The three regular expressions of src/twitter.rs as hand-written scanners. Each
    pattern is stated declaratively ("the pattern matches the text between these
    positions"), and each scanner is proved to return the match the regex crate
    reports: the leftmost one, and at that start the greedy one. */
module TwitterScan {
  import opened Errors

  /** The text between `start` (included) and `end` (excluded). */
  datatype Span = Span(start: nat, end: nat)

  predicate StartsAt(text: string, p: nat, lit: string) {
    p + |lit| <= |text| && text[p..p + |lit|] == lit
  }

  lemma StartsAtConcat(text: string, p: nat, a: string, b: string)
    ensures StartsAt(text, p, a + b) <==> StartsAt(text, p, a) && StartsAt(text, p + |a|, b)
  {
    if StartsAt(text, p, a) && StartsAt(text, p + |a|, b) {
      assert text[p..p + |a + b|] == text[p..p + |a|] + text[p + |a|..p + |a| + |b|];
    }
    if StartsAt(text, p, a + b) {
      assert text[p..p + |a|] == (a + b)[..|a|];
      assert text[p + |a|..p + |a| + |b|] == (a + b)[|a|..];
    }
  }

  /** The end of the longest run of characters of a class that starts at `i`. */
  function RunEnd(text: string, i: nat, inClass: char -> bool): (e: nat)
    requires i <= |text|
    ensures i <= e <= |text|
    ensures forall k :: i <= k < e ==> inClass(text[k])
    ensures e == |text| || !inClass(text[e])
    decreases |text| - i
  {
    if i == |text| || !inClass(text[i]) then i else RunEnd(text, i + 1, inClass)
  }

  predicate IsAsciiDigit(c: char) {
    '0' <= c <= '9'
  }

  predicate IsNotSlash(c: char) {
    c != '/'
  }

  predicate IsNotDot(c: char) {
    c != '.'
  }

  predicate IsNotQuote(c: char) {
    c != '"' && c != '\''
  }

  // https://(twitter|x)\.com/([^/]+)/status/(\d+)

  /** The two branches of the group `(twitter|x)`. */
  datatype Site = Twitter | X {
    /** The text of the first capture group. */
    function Name(): string {
      match this
      case Twitter => "twitter"
      case X => "x"
    }

    /** What the pattern requires before the owner on this branch. */
    function Prefix(): string {
      match this
      case Twitter => "https://twitter.com/"
      case X => "https://x.com/"
    }
  }

  /** The capture groups of the tweet-URL pattern. */
  datatype TweetCaptures = TweetCaptures(site: Site, owner: string, id: string)

  /** Where the owner starts and where the whole match ends, for a match at `p`. */
  function OwnerStart(p: nat, c: TweetCaptures): nat {
    p + |c.site.Prefix()|
  }

  function TweetEnd(p: nat, c: TweetCaptures): nat {
    OwnerStart(p, c) + |c.owner| + 8 + |c.id|
  }

  /** The part of the pattern after the branch, from `q` on: an owner with no `/`,
      `/status/`, and a non-empty run of digits (not necessarily all the digits
      that follow). */
  predicate GroupsMatch(text: string, q: nat, owner: string, id: string) {
    |owner| > 0 && (forall k :: 0 <= k < |owner| ==> IsNotSlash(owner[k]))
    && |id| > 0 && (forall k :: 0 <= k < |id| ==> IsAsciiDigit(id[k]))
    && StartsAt(text, q, owner)
    && StartsAt(text, q + |owner|, "/status/")
    && StartsAt(text, q + |owner| + 8, id)
  }

  /** Greedy `\d+`: the digits are not followed by another digit. */
  predicate GroupsGreedy(text: string, q: nat, owner: string, id: string) {
    var e := q + |owner| + 8 + |id|;
    e == |text| || (e < |text| && !IsAsciiDigit(text[e]))
  }

  /** The pattern matches at `p` with these groups: a branch of the alternation,
      then the groups. */
  predicate TweetRegexMatch(text: string, p: nat, c: TweetCaptures) {
    StartsAt(text, p, c.site.Prefix()) && GroupsMatch(text, OwnerStart(p, c), c.owner, c.id)
  }

  /** Greedy `\d+`: the match is not followed by another digit. */
  predicate TweetGreedy(text: string, p: nat, c: TweetCaptures) {
    GroupsGreedy(text, OwnerStart(p, c), c.owner, c.id)
  }

  /** The branch of the alternation that matches at `p`, if any. */
  function SiteAt(text: string, p: nat): (r: Option<Site>)
    ensures r.Some? ==> StartsAt(text, p, r.value.Prefix())
    ensures r.None? ==> !StartsAt(text, p, Twitter.Prefix()) && !StartsAt(text, p, X.Prefix())
  {
    if StartsAt(text, p, Twitter.Prefix()) then Some(Twitter)
    else if StartsAt(text, p, X.Prefix()) then Some(X)
    else None
  }

  /** The groups from `q` on, if the rest of the pattern matches there: the owner is
      the whole run up to the next `/`, the id the whole run of digits after
      `/status/`. */
  function GroupsAt(text: string, q: nat): (r: Option<(string, string)>)
    requires q <= |text|
    ensures r.Some? ==> GroupsMatch(text, q, r.value.0, r.value.1) && GroupsGreedy(text, q, r.value.0, r.value.1)
  {
    var ownerEnd := RunEnd(text, q, IsNotSlash);
    if ownerEnd == q || !StartsAt(text, ownerEnd, "/status/") then None
    else
      var idEnd := RunEnd(text, ownerEnd + 8, IsAsciiDigit);
      if idEnd == ownerEnd + 8 then None
      else
        RunsAreGroups(text, q, ownerEnd, idEnd);
        Some((text[q..ownerEnd], text[ownerEnd + 8..idEnd]))
  }

  /** A run of non-slashes, `/status/` and a maximal run of digits are a greedy
      match of the groups. */
  lemma RunsAreGroups(text: string, q: nat, ownerEnd: nat, idEnd: nat)
    requires q < ownerEnd && StartsAt(text, ownerEnd, "/status/")
    requires forall k :: q <= k < ownerEnd ==> IsNotSlash(text[k])
    requires ownerEnd + 8 < idEnd <= |text| && forall k :: ownerEnd + 8 <= k < idEnd ==> IsAsciiDigit(text[k])
    requires idEnd == |text| || !IsAsciiDigit(text[idEnd])
    ensures GroupsMatch(text, q, text[q..ownerEnd], text[ownerEnd + 8..idEnd])
    ensures GroupsGreedy(text, q, text[q..ownerEnd], text[ownerEnd + 8..idEnd])
  {
    var owner := text[q..ownerEnd];
    var id := text[ownerEnd + 8..idEnd];
    assert forall k :: 0 <= k < |owner| ==> owner[k] == text[q + k];
    assert forall k :: 0 <= k < |id| ==> id[k] == text[ownerEnd + 8 + k];
  }

  /** The match at `p`, if there is one: the branch is decided by the first
      characters, then the groups follow the branch's prefix. */
  function TweetMatchAt(text: string, p: nat): (r: Option<TweetCaptures>)
    ensures r.Some? ==> TweetRegexMatch(text, p, r.value) && TweetGreedy(text, p, r.value)
  {
    var site := SiteAt(text, p);
    if site.None? then None
    else
      var groups := GroupsAt(text, p + |site.value.Prefix()|);
      if groups.None? then None
      else Some(TweetCaptures(site.value, groups.value.0, groups.value.1))
  }

  /** The two branches of the alternation differ in their ninth character, so at
      most one of them matches at a position. */
  lemma SiteAtIsTheMatchingBranch(text: string, p: nat, site: Site)
    requires StartsAt(text, p, site.Prefix())
    ensures SiteAt(text, p) == Some(site)
  {
    if site == X {
      assert text[p + 8] == text[p..p + 14][8] == 'x';
    }
  }

  /** Where the groups match at all, the scanner finds them (the same owner, and a
      digit run at least as long). */
  lemma GroupsAtComplete(text: string, q: nat, owner: string, id: string)
    requires GroupsMatch(text, q, owner, id)
    ensures GroupsAt(text, q).Some? && GroupsAt(text, q).value.0 == owner
  {
    OwnerIsTheRunToSlash(text, q, owner);
    var ownerEnd := q + |owner|;
    assert text[ownerEnd + 8] == text[ownerEnd + 8..ownerEnd + 8 + |id|][0] == id[0];
  }

  /** Where the pattern matches at all, the scanner finds a match (the same one,
      up to the length of the digit run). */
  lemma TweetMatchAtComplete(text: string, p: nat, c: TweetCaptures)
    requires TweetRegexMatch(text, p, c)
    ensures TweetMatchAt(text, p).Some?
    ensures TweetMatchAt(text, p).value.site == c.site && TweetMatchAt(text, p).value.owner == c.owner
  {
    SiteAtIsTheMatchingBranch(text, p, c.site);
    GroupsAtComplete(text, OwnerStart(p, c), c.owner, c.id);
  }

  /** At a position, a greedy match of the tweet pattern has only one set of groups:
      the owner runs to the next `/` and the id takes every digit after `/status/`. */
  lemma TweetCapturesAreUnique(text: string, p: nat, a: TweetCaptures, b: TweetCaptures)
    requires TweetRegexMatch(text, p, a) && TweetGreedy(text, p, a)
    requires TweetRegexMatch(text, p, b) && TweetGreedy(text, p, b)
    ensures a == b
  {
    GreedyMatchIsFound(text, p, a);
    GreedyMatchIsFound(text, p, b);
  }

  /** The scanner returns every greedy match at its position, groups included. */
  lemma GreedyMatchIsFound(text: string, p: nat, c: TweetCaptures)
    requires TweetRegexMatch(text, p, c) && TweetGreedy(text, p, c)
    ensures TweetMatchAt(text, p) == Some(c)
  {
    SiteAtIsTheMatchingBranch(text, p, c.site);
    GreedyGroupsAreFound(text, OwnerStart(p, c), c.owner, c.id);
  }

  /** The scanner returns every greedy match of the groups. */
  lemma GreedyGroupsAreFound(text: string, q: nat, owner: string, id: string)
    requires GroupsMatch(text, q, owner, id) && GroupsGreedy(text, q, owner, id)
    ensures GroupsAt(text, q) == Some((owner, id))
  {
    OwnerIsTheRunToSlash(text, q, owner);
    DigitsAreTheWholeRun(text, q + |owner| + 8, id);
  }

  /** An owner with no `/` that is followed by `/` is the run of non-slashes. */
  lemma OwnerIsTheRunToSlash(text: string, q: nat, owner: string)
    requires |owner| > 0 && forall k :: 0 <= k < |owner| ==> IsNotSlash(owner[k])
    requires StartsAt(text, q, owner) && StartsAt(text, q + |owner|, "/status/")
    ensures RunEnd(text, q, IsNotSlash) == q + |owner| && owner == text[q..q + |owner|]
  {
    forall k | q <= k < q + |owner|
      ensures IsNotSlash(text[k])
    {
      assert text[k] == text[q..q + |owner|][k - q] == owner[k - q];
    }
    assert text[q + |owner|] == text[q + |owner|..q + |owner| + 8][0] == '/';
  }

  /** A greedy run of digits is the whole run. */
  lemma DigitsAreTheWholeRun(text: string, s: nat, id: string)
    requires |id| > 0 && forall k :: 0 <= k < |id| ==> IsAsciiDigit(id[k])
    requires StartsAt(text, s, id)
    requires s + |id| == |text| || (s + |id| < |text| && !IsAsciiDigit(text[s + |id|]))
    ensures RunEnd(text, s, IsAsciiDigit) == s + |id| && id == text[s..s + |id|]
  {
    forall k | s <= k < s + |id|
      ensures IsAsciiDigit(text[k])
    {
      assert text[k] == text[s..s + |id|][k - s] == id[k - s];
    }
  }

  /** A URL of the documented shape: the branch prefix, an owner without `/`,
      `/status/`, the digits, then anything that does not start with a digit. The
      pattern's leftmost match is at its start, with exactly these groups. */
  lemma TweetShapeIsFound(site: Site, owner: string, id: string, rest: string)
    requires |owner| > 0 && forall k :: 0 <= k < |owner| ==> IsNotSlash(owner[k])
    requires |id| > 0 && forall k :: 0 <= k < |id| ==> IsAsciiDigit(id[k])
    requires rest == [] || !IsAsciiDigit(rest[0])
    ensures FindTweet(site.Prefix() + (owner + "/status/" + id + rest)) == Some((0, TweetCaptures(site, owner, id)))
  {
    var prefix := site.Prefix();
    var text := prefix + (owner + "/status/" + id + rest);
    var c := TweetCaptures(site, owner, id);
    ConcatParts(prefix, owner + "/status/" + id + rest);
    GroupsShape(text, |prefix|, owner, id, rest);
    assert TweetRegexMatch(text, 0, c) && TweetGreedy(text, 0, c);
    var m := FindTweet(text).value;
    assert m.0 == 0;
    TweetCapturesAreUnique(text, 0, m.1, c);
  }

  lemma ConcatParts(a: string, b: string)
    ensures StartsAt(a + b, 0, a) && (a + b)[|a|..] == b
  {
  }

  lemma GroupsShape(text: string, n: nat, owner: string, id: string, rest: string)
    requires n <= |text| && text[n..] == owner + "/status/" + id + rest
    requires |owner| > 0 && forall k :: 0 <= k < |owner| ==> IsNotSlash(owner[k])
    requires |id| > 0 && forall k :: 0 <= k < |id| ==> IsAsciiDigit(id[k])
    requires rest == [] || !IsAsciiDigit(rest[0])
    ensures GroupsMatch(text, n, owner, id) && GroupsGreedy(text, n, owner, id)
  {
    var t := text[n..];
    var o := |owner|;
    assert text[n..n + o] == t[..o] == owner;
    assert text[n + o..n + o + 8] == t[o..o + 8] == "/status/";
    assert text[n + o + 8..n + o + 8 + |id|] == t[o + 8..o + 8 + |id|] == id;
    if rest != [] {
      assert text[n + o + 8 + |id|] == t[o + 8 + |id|] == rest[0];
    }
  }

  /** `Regex::captures` of the tweet-URL pattern: the leftmost match, with its
      groups; None when the pattern matches nowhere. */
  function FindTweet(text: string): (r: Option<(nat, TweetCaptures)>)
    ensures r.Some? ==> TweetRegexMatch(text, r.value.0, r.value.1) && TweetGreedy(text, r.value.0, r.value.1)
    ensures r.Some? ==> forall q: nat, c :: q < r.value.0 ==> !TweetRegexMatch(text, q, c)
    ensures r.None? ==> forall q: nat, c :: !TweetRegexMatch(text, q, c)
  {
    TweetMatchesAreFound(text);
    LeftmostTweet(text, 0)
  }

  /** The first position at or after `from` where the scanner finds a match. */
  function LeftmostTweet(text: string, from: nat): (r: Option<(nat, TweetCaptures)>)
    ensures r.Some? ==> from <= r.value.0 <= |text| && TweetMatchAt(text, r.value.0) == Some(r.value.1)
    ensures r.Some? ==> forall q :: from <= q < r.value.0 ==> TweetMatchAt(text, q).None?
    ensures r.None? ==> forall q :: from <= q <= |text| ==> TweetMatchAt(text, q).None?
    decreases |text| + 1 - from
  {
    if from > |text| then None
    else
      match TweetMatchAt(text, from)
      case Some(m) => Some((from, m))
      case None => LeftmostTweet(text, from + 1)
  }

  lemma TweetMatchesAreFound(text: string)
    ensures forall q: nat, c :: TweetRegexMatch(text, q, c) ==> q <= |text| && TweetMatchAt(text, q).Some?
  {
    forall q: nat, c | TweetRegexMatch(text, q, c)
      ensures q <= |text| && TweetMatchAt(text, q).Some?
    {
      TweetMatchAtComplete(text, q, c);
    }
  }

  // https://abs.twimg.com/responsive-web/client-web-legacy/main\.[^.]+\.js

  const MAINJS_HEAD := "https://abs"
  const MAINJS_MIDDLE := "twimg"
  const MAINJS_TAIL := "com/responsive-web/client-web-legacy/main."

  /** Where the hash starts for a match at `p` (11 + 1 + 5 + 1 + 42 characters on). */
  function HashStart(p: nat): nat {
    p + 60
  }

  /** The unescaped dots of the host match any character except a line feed. */
  predicate MainJsHeadAt(text: string, p: nat) {
    StartsAt(text, p, MAINJS_HEAD) && p + 11 < |text| && text[p + 11] != '\n'
    && StartsAt(text, p + 12, MAINJS_MIDDLE) && p + 17 < |text| && text[p + 17] != '\n'
    && StartsAt(text, p + 18, MAINJS_TAIL)
  }

  /** After the head: a non-empty hash without `.` from `h`, then `.js` ending at `e`. */
  predicate MainJsHashAt(text: string, h: nat, e: nat) {
    h + 3 < e <= |text|
    && (forall k :: h <= k < e - 3 ==> IsNotDot(text[k]))
    && StartsAt(text, e - 3, ".js")
  }

  /** The main.js pattern matches exactly `text[s.start..s.end]`: the fixed head, a
      non-empty hash without `.`, then `.js`. */
  predicate MainJsRegexMatch(text: string, s: Span) {
    MainJsHeadAt(text, s.start) && MainJsHashAt(text, HashStart(s.start), s.end)
  }

  /** A match's end is fixed by where its hash starts: the hash runs up to the first `.`. */
  lemma MainJsEndIsForced(text: string, h: nat)
    requires h <= |text|
    ensures forall e: nat :: MainJsHashAt(text, h, e) ==> e - 3 == RunEnd(text, h, IsNotDot)
  {
    forall e: nat | MainJsHashAt(text, h, e)
      ensures e - 3 == RunEnd(text, h, IsNotDot)
    {
      assert text[e - 3] == text[e - 3..e][0] == '.';
    }
  }

  function MainJsMatchAt(text: string, p: nat): (r: Option<nat>)
    ensures r.Some? ==> MainJsRegexMatch(text, Span(p, r.value))
    ensures r.None? ==> forall e: nat :: !MainJsRegexMatch(text, Span(p, e))
  {
    if !MainJsHeadAt(text, p) || HashStart(p) > |text| then None
    else
      var hashEnd := RunEnd(text, HashStart(p), IsNotDot);
      MainJsEndIsForced(text, HashStart(p));
      if hashEnd == HashStart(p) || !StartsAt(text, hashEnd, ".js") then None
      else Some(hashEnd + 3)
  }

  function LeftmostMainJs(text: string, from: nat): (r: Option<Span>)
    ensures r.Some? ==> from <= r.value.start && MainJsMatchAt(text, r.value.start) == Some(r.value.end)
    ensures r.Some? ==> forall q :: from <= q < r.value.start ==> MainJsMatchAt(text, q).None?
    ensures r.None? ==> forall q :: from <= q <= |text| ==> MainJsMatchAt(text, q).None?
    decreases |text| + 1 - from
  {
    if from > |text| then None
    else
      match MainJsMatchAt(text, from)
      case Some(e) => Some(Span(from, e))
      case None => LeftmostMainJs(text, from + 1)
  }

  /** The first `find_iter` match of the main.js pattern: the leftmost one. */
  function FindMainJs(text: string): (r: Option<Span>)
    ensures r.Some? ==> MainJsRegexMatch(text, r.value)
    ensures r.Some? ==> forall s: Span :: s.start < r.value.start ==> !MainJsRegexMatch(text, s)
    ensures r.None? ==> forall s: Span :: !MainJsRegexMatch(text, s)
  {
    MainJsMatchesAreFound(text);
    LeftmostMainJs(text, 0)
  }

  lemma MainJsMatchesAreFound(text: string)
    ensures forall s: Span :: MainJsRegexMatch(text, s) ==> s.start <= |text| && MainJsMatchAt(text, s.start).Some?
  {
    forall s: Span | MainJsRegexMatch(text, s)
      ensures s.start <= |text| && MainJsMatchAt(text, s.start).Some?
    {
      assert s == Span(s.start, s.end);
    }
  }

  // AAAAAAAAA[^"']+

  const NINE_A := "AAAAAAAAA"

  /** The bearer pattern matches exactly `text[s.start..s.end]`. */
  predicate BearerRegexMatch(text: string, s: Span) {
    StartsAt(text, s.start, NINE_A)
    && s.start + 9 < s.end <= |text|
    && forall k :: s.start + 9 <= k < s.end ==> IsNotQuote(text[k])
  }

  /** Greedy `[^"']+`: the match stops at a quote or at the end of the text. */
  predicate BearerGreedy(text: string, s: Span) {
    s.end == |text| || (s.end < |text| && !IsNotQuote(text[s.end]))
  }

  /** Every match at `p` has a first character after the nine `A`s, and it is no quote. */
  lemma BearerMatchNeedsOneMore(text: string, p: nat)
    ensures forall e: nat :: BearerRegexMatch(text, Span(p, e)) ==> p + 9 < |text| && IsNotQuote(text[p + 9])
  {
  }

  function BearerMatchAt(text: string, p: nat): (r: Option<nat>)
    ensures r.Some? ==> BearerRegexMatch(text, Span(p, r.value)) && BearerGreedy(text, Span(p, r.value))
    ensures r.None? ==> forall e: nat :: !BearerRegexMatch(text, Span(p, e))
  {
    if !StartsAt(text, p, NINE_A) then None
    else
      var e := RunEnd(text, p + 9, IsNotQuote);
      BearerMatchNeedsOneMore(text, p);
      if e == p + 9 then None else Some(e)
  }

  function LeftmostBearer(text: string, from: nat): (r: Option<Span>)
    ensures r.Some? ==> from <= r.value.start && BearerMatchAt(text, r.value.start) == Some(r.value.end)
    ensures r.Some? ==> forall q :: from <= q < r.value.start ==> BearerMatchAt(text, q).None?
    ensures r.None? ==> forall q :: from <= q <= |text| ==> BearerMatchAt(text, q).None?
    decreases |text| + 1 - from
  {
    if from > |text| then None
    else
      match BearerMatchAt(text, from)
      case Some(e) => Some(Span(from, e))
      case None => LeftmostBearer(text, from + 1)
  }

  /** The first `find_iter` match of the bearer pattern. */
  function FindBearer(text: string): (r: Option<Span>)
    ensures r.Some? ==> BearerRegexMatch(text, r.value) && BearerGreedy(text, r.value)
    ensures r.Some? ==> forall s: Span :: s.start < r.value.start ==> !BearerRegexMatch(text, s)
    ensures r.None? ==> forall s: Span :: !BearerRegexMatch(text, s)
  {
    BearerMatchesAreFound(text);
    LeftmostBearer(text, 0)
  }

  lemma BearerMatchesAreFound(text: string)
    ensures forall s: Span :: BearerRegexMatch(text, s) ==> s.start <= |text| && BearerMatchAt(text, s.start).Some?
  {
    forall s: Span | BearerRegexMatch(text, s)
      ensures s.start <= |text| && BearerMatchAt(text, s.start).Some?
    {
      assert s == Span(s.start, s.end);
    }
  }
}

=== FILE: twitter_utils.dfy ===
/** The request blobs of the details query (src/twitter/utils.rs): the `Features`
    flags, the `Variables` record whose tweet id is filled in before sending, their
    JSON text, and the error body the details endpoint answers with. */
module TwitterUtils {
  import opened Errors
  import opened Json

  /** The nineteen feature flags, in declaration order. */
  datatype Features = Features(
    responsiveWebGraphqlExcludeDirectiveEnabled: bool,
    verifiedPhoneLabelEnabled: bool,
    responsiveWebGraphqlTimelineNavigationEnabled: bool,
    responsiveWebGraphqlSkipUserProfileImageExtensionsEnabled: bool,
    tweetypieUnmentionOptimizationEnabled: bool,
    vibeApiEnabled: bool,
    responsiveWebEditTweetApiEnabled: bool,
    graphqlIsTranslatableRwebTweetIsTranslatableEnabled: bool,
    viewCountsEverywhereApiEnabled: bool,
    longformNotetweetsConsumptionEnabled: bool,
    tweetAwardsWebTippingEnabled: bool,
    freedomOfSpeechNotReachFetchEnabled: bool,
    standardizedNudgesMisinfo: bool,
    tweetWithVisibilityResultsPreferGqlLimitedActionsPolicyEnabled: bool,
    interactiveTextEnabled: bool,
    responsiveWebTwitterBlueVerifiedBadgeIsEnabled: bool,
    responsiveWebTextConversationsEnabled: bool,
    longformNotetweetsRichtextConsumptionEnabled: bool,
    responsiveWebEnhanceCardsEnabled: bool)

  /** `Features::default()`. */
  const DEFAULT_FEATURES := Features(
    true, false, true, false, true, false, false, false, true, true,
    false, false, false, false, false, true, false, false, false)

  /** The serialised members of `Features`: the field names unchanged, in order. */
  function FeaturesMembers(f: Features): seq<(string, Scalar)> {
    [("responsive_web_graphql_exclude_directive_enabled", SBool(f.responsiveWebGraphqlExcludeDirectiveEnabled)),
     ("verified_phone_label_enabled", SBool(f.verifiedPhoneLabelEnabled)),
     ("responsive_web_graphql_timeline_navigation_enabled", SBool(f.responsiveWebGraphqlTimelineNavigationEnabled)),
     ("responsive_web_graphql_skip_user_profile_image_extensions_enabled", SBool(f.responsiveWebGraphqlSkipUserProfileImageExtensionsEnabled)),
     ("tweetypie_unmention_optimization_enabled", SBool(f.tweetypieUnmentionOptimizationEnabled)),
     ("vibe_api_enabled", SBool(f.vibeApiEnabled)),
     ("responsive_web_edit_tweet_api_enabled", SBool(f.responsiveWebEditTweetApiEnabled)),
     ("graphql_is_translatable_rweb_tweet_is_translatable_enabled", SBool(f.graphqlIsTranslatableRwebTweetIsTranslatableEnabled)),
     ("view_counts_everywhere_api_enabled", SBool(f.viewCountsEverywhereApiEnabled)),
     ("longform_notetweets_consumption_enabled", SBool(f.longformNotetweetsConsumptionEnabled)),
     ("tweet_awards_web_tipping_enabled", SBool(f.tweetAwardsWebTippingEnabled)),
     ("freedom_of_speech_not_reach_fetch_enabled", SBool(f.freedomOfSpeechNotReachFetchEnabled)),
     ("standardized_nudges_misinfo", SBool(f.standardizedNudgesMisinfo)),
     ("tweet_with_visibility_results_prefer_gql_limited_actions_policy_enabled", SBool(f.tweetWithVisibilityResultsPreferGqlLimitedActionsPolicyEnabled)),
     ("interactive_text_enabled", SBool(f.interactiveTextEnabled)),
     ("responsive_web_twitter_blue_verified_badge_is_enabled", SBool(f.responsiveWebTwitterBlueVerifiedBadgeIsEnabled)),
     ("responsive_web_text_conversations_enabled", SBool(f.responsiveWebTextConversationsEnabled)),
     ("longform_notetweets_richtext_consumption_enabled", SBool(f.longformNotetweetsRichtextConsumptionEnabled)),
     ("responsive_web_enhance_cards_enabled", SBool(f.responsiveWebEnhanceCardsEnabled))]
  }

  /** `serde_json::to_string(&features)`. */
  function FeaturesText(f: Features): string {
    FlatText(FeaturesMembers(f))
  }

  /** The ten boolean flags of `Variables`, in declaration order. */
  type VariableFlags = flags: seq<bool> | |flags| == 10
    witness [false, false, false, false, false, false, false, false, false, false]

  /** The query variables. Only the tweet id is ever changed after construction. */
  class Variables {
    var withRuxInjections: bool
    var includePromotedContent: bool
    var withCommunity: bool
    var withQuickPromoteEligibilityTweetFields: bool
    var withBirdwatchNotes: bool
    var withDownvotePerspective: bool
    var withReactionsMetadata: bool
    var withReactionsPerspective: bool
    var withVoice: bool
    var withV2Timeline: bool
    var tweetId: Option<string>

    /** The ten flags, in declaration order. */
    function Flags(): (flags: VariableFlags)
      reads this
      ensures flags[0] == withRuxInjections && flags[1] == includePromotedContent
      ensures flags[9] == withV2Timeline
    {
      var flags := [withRuxInjections, includePromotedContent, withCommunity, withQuickPromoteEligibilityTweetFields,
                    withBirdwatchNotes, withDownvotePerspective, withReactionsMetadata, withReactionsPerspective,
                    withVoice, withV2Timeline];
      assert |flags| == 10;
      flags
    }

    /** `Variables::default()`. */
    constructor Default()
      ensures Flags() == DEFAULT_FLAGS
      ensures tweetId == None
    {
      withRuxInjections := false;
      includePromotedContent := true;
      withCommunity := true;
      withQuickPromoteEligibilityTweetFields := true;
      withBirdwatchNotes := true;
      withDownvotePerspective := false;
      withReactionsMetadata := false;
      withReactionsPerspective := false;
      withVoice := true;
      withV2Timeline := true;
      tweetId := None;
    }

    /** `set_tweet_id`: the id is now `Some(id)`, whatever it was; no flag changes. */
    method SetTweetId(id: string)
      modifies this
      ensures tweetId == Some(id)
      ensures Flags() == old(Flags())
    {
      tweetId := Some(id);
    }

    /** Two calls: the last id wins, and repeating an id changes nothing more. */
    method SetTweetIdTwice(first: string, second: string)
      modifies this
      ensures tweetId == Some(second)
      ensures Flags() == old(Flags())
      ensures first == second ==> tweetId == Some(first)
    {
      SetTweetId(first);
      SetTweetId(second);
    }

    /** The serialised members. */
    function Members(): (m: seq<(string, Scalar)>)
      reads this
      ensures |m| == 11
      ensures m[10] == ("tweetId", if tweetId.Some? then SStr(tweetId.value) else SNull)
    {
      VariablesMembers(Flags(), tweetId)
    }

    /** `serde_json::to_string(&variables)`. */
    function Text(): string
      reads this
    {
      VariablesText(Flags(), tweetId)
    }
  }

  /** The members `Variables` serialises to, for its ten flags and its id:
      `with_rux_injections` keeps its name, the others are renamed to camel case;
      a missing id is written as `null`. */
  function VariablesMembers(flags: VariableFlags, tweetId: Option<string>): (m: seq<(string, Scalar)>)
    ensures |m| == 11
    ensures m[10] == ("tweetId", if tweetId.Some? then SStr(tweetId.value) else SNull)
  {
    [("with_rux_injections", SBool(flags[0])),
     ("includePromotedContent", SBool(flags[1])),
     ("withCommunity", SBool(flags[2])),
     ("withQuickPromoteEligibilityTweetFields", SBool(flags[3])),
     ("withBirdwatchNotes", SBool(flags[4])),
     ("withDownvotePerspective", SBool(flags[5])),
     ("withReactionsMetadata", SBool(flags[6])),
     ("withReactionsPerspective", SBool(flags[7])),
     ("withVoice", SBool(flags[8])),
     ("withV2Timeline", SBool(flags[9])),
     ("tweetId", if tweetId.Some? then SStr(tweetId.value) else SNull)]
  }

  /** `serde_json::to_string` of a `Variables` value with these flags and this id. */
  function VariablesText(flags: VariableFlags, tweetId: Option<string>): string {
    FlatText(VariablesMembers(flags, tweetId))
  }

  /** The flags of `Variables::default()`, in declaration order. */
  const DEFAULT_FLAGS: VariableFlags := [false, true, true, true, true, false, false, false, true, true]

  /** `serde_json::to_string` on the two blobs of a details request. The request
      code takes it as a parameter, so that its proofs do not unfold the long key
      lists; `SERDE_JSON` is the writer whose output format this module defines. */
  datatype JsonWriter = JsonWriter(features: Features -> string, variables: (VariableFlags, Option<string>) -> string)

  const SERDE_JSON := JsonWriter(FeaturesText, VariablesText)

  /** The two blobs of a details request. */
  datatype RequestDetails = RequestDetails(features: Features, variables: Variables)

  /** `retrieve_request_details`: always the defaults, never an error. */
  method RetrieveRequestDetails() returns (r: Result<RequestDetails>)
    ensures r.Ok? && fresh(r.value.variables)
    ensures r.value.features == DEFAULT_FEATURES
    ensures r.value.variables.Flags() == DEFAULT_FLAGS && r.value.variables.tweetId == None
  {
    var variables := new Variables.Default();
    r := Ok(RequestDetails(DEFAULT_FEATURES, variables));
  }

  /** Text without quotes, backslashes or control characters is written verbatim. */
  lemma {:induction false} EscapePlain(s: string)
    requires forall i :: 0 <= i < |s| ==> s[i] != '"' && s[i] != '\\' && s[i] >= ' '
    ensures Escape(s) == s
  {
    if s != [] {
      EscapePlain(s[1..]);
      assert [s[0]] + s[1..] == s;
    }
  }

  /** The key `tweetId` needs no escaping. */
  lemma TweetIdKeyIsPlain()
    ensures Escape("tweetId") == "tweetId"
  {
    var k := "tweetId";
    assert forall i :: 0 <= i < |k| ==> 'a' <= k[i] <= 'z' || k[i] == 'I';
    EscapePlain(k);
  }

  lemma TweetIdMemberJoin(head: string, id: string)
    ensures "{" + head + ",\"" + "tweetId" + "\":\"" + id + "\"}" == "{" + head + ",\"tweetId\":\"" + id + "\"}"
  {
  }

  /** Once a numeric tweet id is set, the variables text ends with it, quoted, as
      the value of `tweetId`. */
  lemma VariablesTextEndsWithTweetId(v: Variables, id: string)
    requires v.tweetId == Some(id)
    requires forall i :: 0 <= i < |id| ==> '0' <= id[i] <= '9'
    ensures v.Text() == "{" + MembersText(v.Members()[..10]) + ",\"tweetId\":\"" + id + "\"}"
  {
    var head := MembersText(v.Members()[..10]);
    FlatTextEndsWithString(v.Members(), "tweetId", id);
    assert v.Text() == "{" + head + ",\"" + Escape("tweetId") + "\":\"" + Escape(id) + "\"}";
    EscapePlain(id);
    TweetIdKeyIsPlain();
    TweetIdMemberJoin(head, id);
  }

  /** `Features::default()` fixes each flag: six are on, the other thirteen off. */
  lemma DefaultFeatureFlags()
    ensures var f := DEFAULT_FEATURES;
            f.responsiveWebGraphqlExcludeDirectiveEnabled && f.responsiveWebGraphqlTimelineNavigationEnabled
            && f.tweetypieUnmentionOptimizationEnabled && f.viewCountsEverywhereApiEnabled
            && f.longformNotetweetsConsumptionEnabled && f.responsiveWebTwitterBlueVerifiedBadgeIsEnabled
    ensures var f := DEFAULT_FEATURES;
            !f.verifiedPhoneLabelEnabled && !f.responsiveWebGraphqlSkipUserProfileImageExtensionsEnabled
            && !f.vibeApiEnabled && !f.responsiveWebEditTweetApiEnabled
            && !f.graphqlIsTranslatableRwebTweetIsTranslatableEnabled && !f.tweetAwardsWebTippingEnabled
            && !f.freedomOfSpeechNotReachFetchEnabled && !f.standardizedNudgesMisinfo
            && !f.tweetWithVisibilityResultsPreferGqlLimitedActionsPolicyEnabled && !f.interactiveTextEnabled
            && !f.responsiveWebTextConversationsEnabled && !f.longformNotetweetsRichtextConsumptionEnabled
            && !f.responsiveWebEnhanceCardsEnabled
  {
  }

  // The error body of a rejected details request.

  datatype Trace = Trace(traceId: string)

  datatype Extension = Extension(name: string, source: string, code: nat, kind: string, tracing: Trace)

  datatype ApiError = ApiError(
    message: string, extensions: Extension, code: nat, kind: string,
    name: string, source: string, tracing: Trace)

  datatype ErrorResponse = ErrorResponse(errors: seq<ApiError>)

  /** `Trace`: a required string `trace_id`. */
  function DecodeTrace(j: Json): (r: Option<Trace>)
    ensures r.Some? <==> j.Object? && Required(j, "trace_id", AsString).Some?
    ensures r.Some? ==> r.value.traceId == Required(j, "trace_id", AsString).value
  {
    if !j.Object? then None
    else
      var traceId :- Required(j, "trace_id", AsString);
      Some(Trace(traceId))
  }

  /** `Extension`: five required fields, `code` a `u32`. */
  function DecodeExtension(j: Json): (r: Option<Extension>)
    ensures r.Some? <==>
              j.Object? && Required(j, "name", AsString).Some? && Required(j, "source", AsString).Some?
              && Required(j, "code", AsU32).Some? && Required(j, "kind", AsString).Some?
              && Required(j, "tracing", DecodeTrace).Some?
    ensures r.Some? ==>
              r.value == Extension(Required(j, "name", AsString).value, Required(j, "source", AsString).value,
                                   Required(j, "code", AsU32).value, Required(j, "kind", AsString).value,
                                   Required(j, "tracing", DecodeTrace).value)
    ensures r.Some? ==> r.value.code < U32_BOUND
  {
    if !j.Object? then None
    else
      var name :- Required(j, "name", AsString);
      var source :- Required(j, "source", AsString);
      var code :- Required(j, "code", AsU32);
      var kind :- Required(j, "kind", AsString);
      var tracing :- Required(j, "tracing", DecodeTrace);
      Some(Extension(name, source, code, kind, tracing))
  }

  /** `Error`: seven required fields, `code` a `u32`. */
  function DecodeApiError(j: Json): (r: Option<ApiError>)
    ensures r.Some? <==>
              j.Object? && Required(j, "message", AsString).Some? && Required(j, "extensions", DecodeExtension).Some?
              && Required(j, "code", AsU32).Some? && Required(j, "kind", AsString).Some?
              && Required(j, "name", AsString).Some? && Required(j, "source", AsString).Some?
              && Required(j, "tracing", DecodeTrace).Some?
    ensures r.Some? ==>
              r.value == ApiError(Required(j, "message", AsString).value, Required(j, "extensions", DecodeExtension).value,
                                  Required(j, "code", AsU32).value, Required(j, "kind", AsString).value,
                                  Required(j, "name", AsString).value, Required(j, "source", AsString).value,
                                  Required(j, "tracing", DecodeTrace).value)
    ensures r.Some? ==> r.value.code < U32_BOUND
  {
    if !j.Object? then None
    else
      var message :- Required(j, "message", AsString);
      var extensions :- Required(j, "extensions", DecodeExtension);
      var code :- Required(j, "code", AsU32);
      var kind :- Required(j, "kind", AsString);
      var name :- Required(j, "name", AsString);
      var source :- Required(j, "source", AsString);
      var tracing :- Required(j, "tracing", DecodeTrace);
      Some(ApiError(message, extensions, code, kind, name, source, tracing))
  }

  /** `ErrorResponse`: an object whose `errors` member is an array of errors. */
  function DecodeErrorResponse(j: Json): (r: Option<ErrorResponse>)
    ensures r.Some? <==>
              j.Object? && Occurs(j.members, "errors").Once? && Occurs(j.members, "errors").value.Array?
              && forall i :: 0 <= i < |Occurs(j.members, "errors").value.items| ==>
                   DecodeApiError(Occurs(j.members, "errors").value.items[i]).Some?
    ensures r.Some? ==>
              && |r.value.errors| == |Occurs(j.members, "errors").value.items|
              && forall i :: 0 <= i < |r.value.errors| ==>
                   r.value.errors[i] == DecodeApiError(Occurs(j.members, "errors").value.items[i]).value
  {
    if !j.Object? then None
    else
      var errors :- Required(j, "errors", j => AsArray(j, DecodeApiError));
      Some(ErrorResponse(errors))
  }

  /** An object with an empty `errors` array is an error response, whatever else it
      holds; one without `errors` is not. */
  lemma ErrorResponseNeedsErrors(members: seq<(string, Json)>)
    ensures Occurs(members, "errors") == Once(Array([])) ==> DecodeErrorResponse(Object(members)) == Some(ErrorResponse([]))
    ensures Occurs(members, "errors").Missing? ==> DecodeErrorResponse(Object(members)).None?
  {
  }
}

=== FILE: youtube.dfy ===
/** `YoutubeDownloader` (src/youtube.rs): a URL with a domain check and a playlist
    flag, a search filter and naming options set by builder methods, and the
    downloads of one video or of a whole playlist. The video library (rusty_ytdl),
    the network, the filesystem and path manipulation are inputs; what a download
    asks of them is an ordered trace. */
module Youtube {
  import opened Errors
  import opened Http
  import opened Header
  import opened Downloader
  import opened YoutubeInitialData

  const YOUTUBE_URL_FORMAT := "https://www.youtube.com/v=<VIDEO_ID> or https://www.youtu.be/<VIDEO_ID>/"
  const INVALID_DOMAIN_MESSAGE := "Invalid URL! The domain must be 'youtube.com'."
  const VIDEO_NOT_FOUND_MESSAGE := "Video Not Found"
  const SCRAPE_FAILED_MESSAGE := "Failed to scrape playlist data."
  /** The message of the panic of `Option::unwrap` on `None`. */
  const UNWRAP_NONE_PANIC := "called `Option::unwrap()` on a `None` value"
  /** The head of the message of the panic of `Result::unwrap` on an `Err`; the
      error's debug text follows it. */
  const UNWRAP_ERR_PANIC := "called `Result::unwrap()` on an `Err` value"

  /** The domains `is_valid_url` accepts. */
  const YOUTUBE_DOMAINS: set<string> := {"youtube.com", "youtu.be", "www.youtube.com", "www.youtu.be"}

  /** rusty_ytdl's `VideoSearchOptions`. `Custom` holds a filter closure, which the
      model names by a number. */
  datatype VideoSearchOptions = VideoAudio | Video | Audio | Custom(filterId: nat)

  /** A rusty_ytdl `Video`: the URL or id it was made from, and its filter (its
      quality is always `Highest`). */
  datatype VideoHandle = VideoHandle(source: string, filter: VideoSearchOptions)

  /** What rusty_ytdl answers: whether `Video::new_with_options` accepts a URL or id,
      and the outcome of each call that downloads or fetches information. */
  datatype VideoLibrary = VideoLibrary(
    accepts: string -> bool,
    download: (VideoHandle, string) -> Transfer<()>,
    downloadWithFfmpeg: (VideoHandle, string, string) -> Transfer<()>,
    basicInfoTitle: VideoHandle -> Transfer<string>)

  /** `Path` operations: `join`, `parent` and `with_extension`. */
  datatype PathOps = PathOps(
    join: (string, string) -> string,
    parent: string -> Option<string>,
    withExtension: (string, string) -> string)

  /** What the playlist page's `ytInitialData` yields: the renderer list (None when
      it does not decode as one) and the playlist title (None when it is no string). */
  datatype ScrapedPage = ScrapedPage(renderers: Option<seq<PlaylistVideoRenderer>>, title: Option<string>)

  /** The answers a download gets: from the library, the filesystem, the network,
      and the two page scrapers (None for a page whose `ytInitialData` is no JSON,
      resp. a page without a `title` element). */
  datatype Env = Env(
    lib: VideoLibrary,
    paths: PathOps,
    createDirAll: string -> IoOutcome,
    net: Net,
    scrapePlaylist: string -> Option<ScrapedPage>,
    pageTitle: string -> Option<string>)

  /** One step a download attempts. */
  datatype Effect =
    | CreateDirAll(dir: string)
    | Fetch(request: Request)
    | Save(video: VideoHandle, file: string)
    | SaveWithFfmpeg(video: VideoHandle, file: string, format: string)
    | FetchBasicInfo(video: VideoHandle)

  /** `is_valid_url`: the domain is one of the four YouTube domains. */
  function IsValidUrl(url: Url): (valid: bool)
    ensures valid <==> DomainOf(url).Some? && DomainOf(url).value in YOUTUBE_DOMAINS
  {
    DomainOf(url) == Some("youtube.com")
    || DomainOf(url) == Some("youtu.be")
    || DomainOf(url) == Some("www.youtube.com")
    || DomainOf(url) == Some("www.youtu.be")
  }

  /** A URL whose host is an IP address, or that has no host, is never valid. */
  lemma NoDomainIsInvalid(url: Url)
    requires url.host.None? || url.host.value.IpAddress?
    ensures !IsValidUrl(url)
  {
  }

  /** The loop of `new` over the path segments: the URL is a playlist when some
      segment is exactly `playlist`. */
  method IsPlaylist(segments: seq<string>) returns (isPlaylist: bool)
    ensures isPlaylist <==> "playlist" in segments
  {
    isPlaylist := false;
    for i := 0 to |segments|
      invariant isPlaylist <==> "playlist" in segments[..i]
    {
      assert segments[..i + 1] == segments[..i] + [segments[i]];
      if segments[i] == "playlist" {
        isPlaylist := true;
      }
    }
    assert segments[..|segments|] == segments;
  }

  /** The path of the saved file for a filter: `.mp4` for video with or without
      audio, `.mp3` for audio, the path as given for a custom filter. */
  function Extension(filter: VideoSearchOptions): (ext: Option<string>)
    ensures filter.VideoAudio? || filter.Video? ==> ext == Some("mp4")
    ensures filter.Audio? ==> ext == Some("mp3")
    ensures filter.Custom? <==> ext.None?
  {
    match filter
    case VideoAudio => Some("mp4")
    case Video => Some("mp4")
    case Audio => Some("mp3")
    case Custom(_) => None
  }

  function TargetFile(filter: VideoSearchOptions, path: string, paths: PathOps): (file: string)
    ensures filter.VideoAudio? || filter.Video? ==> file == paths.withExtension(path, "mp4")
    ensures filter.Audio? ==> file == paths.withExtension(path, "mp3")
    ensures filter.Custom? ==> file == path
  {
    match Extension(filter)
    case Some(ext) => paths.withExtension(path, ext)
    case None => path
  }

  /** The steps of `download_video_to_path` after the directory step: one save, or
      for audio a save through ffmpeg and, when that fails, a plain save to the same
      `.mp3` file (the `.webm` path the fallback computes is dropped). */
  function SaveSteps(video: VideoHandle, filter: VideoSearchOptions, file: string, lib: VideoLibrary): (out: (Result<()>, seq<Effect>))
    ensures !out.0.Panic?
    ensures (|out.1| > 0 && out.1[|out.1| - 1] == Save(video, file)) || out.1 == [SaveWithFfmpeg(video, file, "mp3")]
    ensures forall e :: e in out.1 ==> (e.Save? || e.SaveWithFfmpeg?) && e.video == video && e.file == file
    ensures out.0.Err? ==>
              lib.download(video, file).TransportError? && out.0 == Err(DownloadError.Video(lib.download(video, file).message))
  {
    if filter.Audio? then
      match lib.downloadWithFfmpeg(video, file, "mp3")
      case Delivered(_) => (Ok(()), [SaveWithFfmpeg(video, file, "mp3")])
      case TransportError(_) =>
        var saved := lib.download(video, file);
        (if saved.Delivered? then Ok(()) else Err(DownloadError.Video(saved.message)),
         [SaveWithFfmpeg(video, file, "mp3"), Save(video, file)])
    else
      var saved := lib.download(video, file);
      (if saved.Delivered? then Ok(()) else Err(DownloadError.Video(saved.message)), [Save(video, file)])
  }

  /** `download_video_to_path`: create the parent directories if the path has a
      parent, then save the video under the path with the filter's extension. */
  function DownloadVideoToPath(video: VideoHandle, filter: VideoSearchOptions, path: string, env: Env): (out: (Result<()>, seq<Effect>))
    ensures !out.0.Panic?
    ensures env.paths.parent(path).Some? ==> |out.1| > 0 && out.1[0] == CreateDirAll(env.paths.parent(path).value)
    ensures env.paths.parent(path).Some? && env.createDirAll(env.paths.parent(path).value).IoFailed? ==>
              out == (Err(IoError(env.createDirAll(env.paths.parent(path).value).message)), [CreateDirAll(env.paths.parent(path).value)])
    ensures forall e :: e in out.1 && (e.Save? || e.SaveWithFfmpeg?) ==> e.video == video && e.file == TargetFile(filter, path, env.paths)
    ensures out.0.Ok? <==>
              (env.paths.parent(path).Some? ==> env.createDirAll(env.paths.parent(path).value).IoOk?)
              && (env.lib.download(video, TargetFile(filter, path, env.paths)).Delivered?
                  || (filter.Audio? && env.lib.downloadWithFfmpeg(video, TargetFile(filter, path, env.paths), "mp3").Delivered?))
    ensures (env.paths.parent(path).Some? ==> env.createDirAll(env.paths.parent(path).value).IoOk?) ==>
              out.1 == (if env.paths.parent(path).Some? then [CreateDirAll(env.paths.parent(path).value)] else [])
                       + SaveSteps(video, filter, TargetFile(filter, path, env.paths), env.lib).1
    ensures out.0.Err? && (env.paths.parent(path).Some? ==> env.createDirAll(env.paths.parent(path).value).IoOk?) ==>
              env.lib.download(video, TargetFile(filter, path, env.paths)).TransportError? && out.0 == Err(DownloadError.Video(env.lib.download(video, TargetFile(filter, path, env.paths)).message))
  {
    var file := TargetFile(filter, path, env.paths);
    match env.paths.parent(path)
    case None => SaveSteps(video, filter, file, env.lib)
    case Some(dir) =>
      match env.createDirAll(dir)
      case IoFailed(message) => (Err(IoError(message)), [CreateDirAll(dir)])
      case IoOk =>
        var saved := SaveSteps(video, filter, file, env.lib);
        (saved.0, [CreateDirAll(dir)] + saved.1)
  }

  /** The audio download never writes a `.webm` file: every file it saves to is
      the path with the `.mp3` extension, the ffmpeg fallback included. */
  lemma AudioSavesMp3Only(video: VideoHandle, path: string, env: Env)
    ensures var out := DownloadVideoToPath(video, Audio, path, env);
            forall e :: e in out.1 && (e.Save? || e.SaveWithFfmpeg?) ==> e.file == env.paths.withExtension(path, "mp3")
  {
  }

  /** `get_video` and `get_video_with_url_or_id`: a video for the URL or id, or
      `VideoNotFound` when rusty_ytdl refuses it. */
  function GetVideo(source: string, filter: VideoSearchOptions, lib: VideoLibrary): (r: Result<VideoHandle>)
    ensures r.Ok? <==> lib.accepts(source)
    ensures r.Ok? ==> r.value == VideoHandle(source, filter)
    ensures r.Err? ==> r.error == VideoNotFound(VIDEO_NOT_FOUND_MESSAGE)
    ensures !r.Panic?
  {
    if lib.accepts(source) then Ok(VideoHandle(source, filter)) else Err(VideoNotFound(VIDEO_NOT_FOUND_MESSAGE))
  }

  /** The headers of the page requests: the user agent alone. */
  const PAGE_HEADERS: HeaderMap := map[USER_AGENT := FIREFOX_USER_AGENT]

  /** The GET of a YouTube page with the default user agent. */
  function PageRequest(url: Url): (r: Request)
    ensures r.verb == Get && r.url == url.serialized
    ensures r.headers.Keys == {USER_AGENT} && r.headers[USER_AGENT] == FIREFOX_USER_AGENT
  {
    Request(Get, url.serialized, PAGE_HEADERS)
  }

  /** A playlist: its name and its videos. */
  datatype Playlist = Playlist(name: string, videos: seq<VideoData>)

  /** `scrape_videos_data` once the page's `ytInitialData` is decoded: a renderer list
      that does not decode counts as empty, and a title that is no string panics
      (`Result::unwrap` on serde's error). */
  function ScrapeVideosData(page: ScrapedPage): (r: Result<Playlist>)
    ensures page.title.None? <==> r.Panic?
    ensures r.Panic? ==> r.reason == UNWRAP_ERR_PANIC
    ensures r.Ok? ==> r.value.name == page.title.value
    ensures r.Ok? && page.renderers.None? ==> r.value.videos == []
    ensures r.Ok? && page.renderers.Some? ==> r.value.videos == Videos(page.renderers.value)
    ensures !r.Err?
  {
    var videos := if page.renderers.Some? then Videos(page.renderers.value) else [];
    match page.title
    case None => Panic(UNWRAP_ERR_PANIC)
    case Some(name) => Ok(Playlist(name, videos))
  }

  /** `get_playlist`: fetch the page (any status), read its body, and scrape it; a
      page without decodable `ytInitialData` is a `YoutubeError`. */
  function GetPlaylist(url: Url, env: Env): (out: (Result<Playlist>, seq<Effect>))
    ensures out.1 == [Fetch(PageRequest(url))]
    ensures env.net(PageRequest(url)).TransportError? ==> out.0 == Err(Reqwest(env.net(PageRequest(url)).message))
    ensures env.net(PageRequest(url)).Delivered? && env.net(PageRequest(url)).value.body.TransportError? ==>
              out.0 == Err(Reqwest(env.net(PageRequest(url)).value.body.message))
    ensures env.net(PageRequest(url)).Delivered? && env.net(PageRequest(url)).value.body.Delivered?
            && env.scrapePlaylist(env.net(PageRequest(url)).value.body.value).None? ==>
              out.0 == Err(YoutubeError(SCRAPE_FAILED_MESSAGE))
    ensures out.0.Ok? || out.0.Panic? ==>
              env.net(PageRequest(url)).Delivered? && env.net(PageRequest(url)).value.body.Delivered?
              && env.scrapePlaylist(env.net(PageRequest(url)).value.body.value).Some?
              && out.0 == ScrapeVideosData(env.scrapePlaylist(env.net(PageRequest(url)).value.body.value).value)
  {
    var request := PageRequest(url);
    var result :=
      match env.net(request)
      case TransportError(message) => Err(Reqwest(message))
      case Delivered(response) =>
        match response.body
        case TransportError(message) => Err(Reqwest(message))
        case Delivered(text) =>
          match env.scrapePlaylist(text)
          case None => Err(YoutubeError(SCRAPE_FAILED_MESSAGE))
          case Some(page) => ScrapeVideosData(page);
    (result, [Fetch(request)])
  }

  /** The title a playlist item is saved under: `get_title`, or, when the item has
      no title runs, the title in the video's basic information. */
  function ItemTitle(item: VideoData, video: VideoHandle, lib: VideoLibrary): (out: (Result<string>, seq<Effect>))
    ensures GetTitle(item).Ok? ==> out == (GetTitle(item), [])
    ensures GetTitle(item).Err? ==> out.1 == [FetchBasicInfo(video)]
    ensures GetTitle(item).Err? && lib.basicInfoTitle(video).Delivered? ==> out.0 == Ok(lib.basicInfoTitle(video).value)
    ensures GetTitle(item).Err? && lib.basicInfoTitle(video).TransportError? ==>
              out.0 == Err(DownloadError.Video(lib.basicInfoTitle(video).message))
  {
    match GetTitle(item)
    case Ok(title) => (Ok(title), [])
    case _ =>
      match lib.basicInfoTitle(video)
      case Delivered(title) => (Ok(title), [FetchBasicInfo(video)])
      case TransportError(message) => (Err(DownloadError.Video(message)), [FetchBasicInfo(video)])
  }

  /** The work for one playlist item: a video for its id, its title, and the download
      to `folder/<title>`. */
  function PlaylistItem(item: VideoData, filter: VideoSearchOptions, folder: string, env: Env): (out: (Result<()>, seq<Effect>))
    ensures !out.0.Panic?
    ensures !env.lib.accepts(item.videoId) ==> out == (Err(VideoNotFound(VIDEO_NOT_FOUND_MESSAGE)), [])
    ensures out.0.Ok? ==>
              (env.lib.accepts(item.videoId)
               && var video := VideoHandle(item.videoId, filter);
                  var title := ItemTitle(item, video, env.lib);
                  title.0.Ok?
                  && var saved := DownloadVideoToPath(video, filter, env.paths.join(folder, title.0.value), env);
                     out == (saved.0, title.1 + saved.1))
    ensures env.lib.accepts(item.videoId) ==>
              var video := VideoHandle(item.videoId, filter);
              var title := ItemTitle(item, video, env.lib);
              && (!title.0.Ok? ==> out == (title.0.PropagateFailure(), title.1))
              && (title.0.Ok? ==>
                    var saved := DownloadVideoToPath(video, filter, env.paths.join(folder, title.0.value), env);
                    out == (saved.0, title.1 + saved.1))
  {
    match GetVideo(item.videoId, filter, env.lib)
    case Ok(video) =>
      var title := ItemTitle(item, video, env.lib);
      if !title.0.Ok? then (title.0.PropagateFailure(), title.1)
      else
        var saved := DownloadVideoToPath(video, filter, env.paths.join(folder, title.0.value), env);
        (saved.0, title.1 + saved.1)
    case _ => (Err(VideoNotFound(VIDEO_NOT_FOUND_MESSAGE)), [])
  }

  /** The results of all items, in playlist order. */
  function ItemResults(videos: seq<VideoData>, filter: VideoSearchOptions, folder: string, env: Env): (rs: seq<Result<()>>)
    ensures |rs| == |videos|
    ensures forall i :: 0 <= i < |videos| ==> rs[i] == PlaylistItem(videos[i], filter, folder, env).0
  {
    seq(|videos|, i requires 0 <= i < |videos| => PlaylistItem(videos[i], filter, folder, env).0)
  }

  /** Every item's steps, listed in playlist order. */
  function ItemEffects(videos: seq<VideoData>, filter: VideoSearchOptions, folder: string, env: Env): seq<Effect> {
    if videos == [] then []
    else PlaylistItem(videos[0], filter, folder, env).1 + ItemEffects(videos[1..], filter, folder, env)
  }

  /** The effects of a playlist split in two are those of the first part, then
      those of the second: each item's effects stay together, in playlist order. */
  lemma {:induction false} ItemEffectsAppend(a: seq<VideoData>, b: seq<VideoData>, filter: VideoSearchOptions,
                                            folder: string, env: Env)
    ensures ItemEffects(a + b, filter, folder, env) == ItemEffects(a, filter, folder, env) + ItemEffects(b, filter, folder, env)
  {
    if a != [] {
      ItemEffectsAppend(a[1..], b, filter, folder, env);
      assert (a + b)[1..] == a[1..] + b;
    } else {
      assert a + b == b;
    }
  }

  /** The sequential fold over the results: the first failure, or success. */
  function FirstFailure(results: seq<Result<()>>): (r: Result<()>)
    ensures r.Ok? <==> forall i :: 0 <= i < |results| ==> results[i].Ok?
    ensures r.Ok? ==> r == Ok(())
    ensures !r.Ok? ==> exists i :: 0 <= i < |results| && results[i] == r
                                   && forall j :: 0 <= j < i ==> results[j].Ok?
  {
    if results == [] then Ok(())
    else if !results[0].Ok? then results[0]
    else
      var r := FirstFailure(results[1..]);
      if !r.Ok? then
        var i :| 0 <= i < |results[1..]| && results[1..][i] == r && forall j :: 0 <= j < i ==> results[1..][j].Ok?;
        assert results[i + 1] == r && forall j :: 0 <= j < i + 1 ==> results[j].Ok?;
        r
      else r
  }

  /** The failure the fold reports is the one of the earliest failing item. */
  lemma FirstFailureIsEarliest(results: seq<Result<()>>, i: nat)
    requires i < |results| && !results[i].Ok?
    requires forall j :: 0 <= j < i ==> results[j].Ok?
    ensures FirstFailure(results) == results[i]
  {
    var r := FirstFailure(results);
    var k :| 0 <= k < |results| && results[k] == r && forall j :: 0 <= j < k ==> results[j].Ok?;
    assert k == i;
  }

  /** The walk over the joined results: `?` on each in turn, stopping at the first
      failure. */
  method CheckResults(results: seq<Result<()>>) returns (r: Result<()>)
    ensures r == FirstFailure(results)
  {
    for i := 0 to |results|
      invariant forall j :: 0 <= j < i ==> results[j].Ok?
    {
      if results[i].IsFailure() {
        FirstFailureIsEarliest(results, i);
        return results[i];
      }
    }
    r := Ok(());
  }

  /** The body of the page `get_video_title` fetches, when it arrives. */
  function TitlePage(url: Url, env: Env): (page: Option<string>)
    ensures page.Some? <==> env.net(PageRequest(url)).Delivered? && env.net(PageRequest(url)).value.body.Delivered?
    ensures page.Some? ==> page.value == env.net(PageRequest(url)).value.body.value
  {
    match env.net(PageRequest(url))
    case Delivered(Response(_, Delivered(text))) => Some(text)
    case _ => None
  }

  /** What `download_playlist_to` does: fetch and scrape the playlist, run every item
      into `folder/<playlist name>`, and report the first failure in playlist order. */
  function PlaylistDownload(url: Url, filter: VideoSearchOptions, folder: string, env: Env): (out: (Result<()>, seq<Effect>))
    ensures |out.1| > 0 && out.1[0] == Fetch(PageRequest(url))
    ensures out.0.Ok? <==>
              (GetPlaylist(url, env).0.Ok?
               && var playlist := GetPlaylist(url, env).0.value;
                  forall i :: 0 <= i < |playlist.videos| ==>
                    PlaylistItem(playlist.videos[i], filter, env.paths.join(folder, playlist.name), env).0.Ok?)
    ensures GetPlaylist(url, env).0.IsFailure() ==> out == (GetPlaylist(url, env).0.PropagateFailure(), GetPlaylist(url, env).1)
  {
    var fetched := GetPlaylist(url, env);
    if fetched.0.IsFailure() then (fetched.0.PropagateFailure(), fetched.1)
    else
      var playlist := fetched.0.value;
      var path := env.paths.join(folder, playlist.name);
      (FirstFailure(ItemResults(playlist.videos, filter, path, env)), fetched.1 + ItemEffects(playlist.videos, filter, path, env))
  }

  /** When the playlist is read, the download reports the failure of the earliest
      failing item, whatever the later items do. */
  lemma PlaylistReportsEarliestFailure(url: Url, filter: VideoSearchOptions, folder: string, env: Env, i: nat)
    requires GetPlaylist(url, env).0.Ok?
    requires var playlist := GetPlaylist(url, env).0.value;
             var path := env.paths.join(folder, playlist.name);
             i < |playlist.videos| && !PlaylistItem(playlist.videos[i], filter, path, env).0.Ok?
             && forall j :: 0 <= j < i ==> PlaylistItem(playlist.videos[j], filter, path, env).0.Ok?
    ensures var playlist := GetPlaylist(url, env).0.value;
            PlaylistDownload(url, filter, folder, env).0
              == PlaylistItem(playlist.videos[i], filter, env.paths.join(folder, playlist.name), env).0
  {
    var playlist := GetPlaylist(url, env).0.value;
    var path := env.paths.join(folder, playlist.name);
    FirstFailureIsEarliest(ItemResults(playlist.videos, filter, path, env), i);
  }

  class YoutubeDownloader {
    var url: Url
    var filter: VideoSearchOptions
    var addUnderscoresInName: bool
    var videoName: Option<string>
    var isPlaylist: bool

    /** The struct literal of `new`: the defaults and the playlist flag. */
    constructor Init(url: Url, isPlaylist: bool)
      ensures this.url == url && this.isPlaylist == isPlaylist
      ensures filter == VideoAudio && !addUnderscoresInName && videoName.None?
    {
      this.url := url;
      filter := VideoAudio;
      addUnderscoresInName := false;
      videoName := None;
      this.isPlaylist := isPlaylist;
    }

    /** `new`: the link must parse, its domain must be a YouTube domain, and it must
        have path segments; the downloader downloads a playlist when a segment is
        exactly `playlist`. */
    static method New(parsed: Option<Url>) returns (r: Result<YoutubeDownloader>)
      ensures parsed.None? ==> r == Err(InvalidUrl(InvalidUrlFormatMessage(YOUTUBE_URL_FORMAT)))
      ensures parsed.Some? && !IsValidUrl(parsed.value) ==> r == Err(InvalidUrl(INVALID_DOMAIN_MESSAGE))
      ensures parsed.Some? && IsValidUrl(parsed.value) && parsed.value.pathSegments.None? ==>
                r == Err(InvalidUrl(VIDEO_NOT_FOUND_MESSAGE))
      ensures r.Ok? <==> parsed.Some? && IsValidUrl(parsed.value) && parsed.value.pathSegments.Some?
      ensures r.Ok? ==> fresh(r.value) && r.value.url == parsed.value
      ensures r.Ok? ==> r.value.filter == VideoAudio && !r.value.addUnderscoresInName && r.value.videoName.None?
      ensures r.Ok? ==> (r.value.isPlaylist <==> "playlist" in parsed.value.pathSegments.value)
    {
      var url :- ParseUrl(parsed, Some(YOUTUBE_URL_FORMAT));
      if !IsValidUrl(url) {
        return Err(InvalidUrl(INVALID_DOMAIN_MESSAGE));
      }
      if url.pathSegments.None? {
        return Err(InvalidUrl(VIDEO_NOT_FOUND_MESSAGE));
      }
      var playlist := IsPlaylist(url.pathSegments.value);
      var d := new YoutubeDownloader.Init(url, playlist);
      r := Ok(d);
    }

    /** `rename_with_underscores`: only the flag changes, to true. */
    method RenameWithUnderscores()
      modifies this
      ensures addUnderscoresInName
      ensures url == old(url) && filter == old(filter) && videoName == old(videoName) && isPlaylist == old(isPlaylist)
    {
      addUnderscoresInName := true;
    }

    /** `set_name`: only the name changes. */
    method SetName(newName: string)
      modifies this
      ensures videoName == Some(newName)
      ensures url == old(url) && filter == old(filter) && isPlaylist == old(isPlaylist)
      ensures addUnderscoresInName == old(addUnderscoresInName)
    {
      videoName := Some(newName);
    }

    /** `only_audio`: only the filter changes, to `Audio`. */
    method OnlyAudio()
      modifies this
      ensures filter == Audio
      ensures url == old(url) && videoName == old(videoName) && isPlaylist == old(isPlaylist)
      ensures addUnderscoresInName == old(addUnderscoresInName)
    {
      filter := Audio;
    }

    /** `video_and_audio`: only the filter changes, back to the default. */
    method VideoAndAudio()
      modifies this
      ensures filter == VideoAudio
      ensures url == old(url) && videoName == old(videoName) && isPlaylist == old(isPlaylist)
      ensures addUnderscoresInName == old(addUnderscoresInName)
    {
      filter := VideoAudio;
    }

    /** `only_video`: only the filter changes, to `Video`. */
    method OnlyVideo()
      modifies this
      ensures filter == VideoSearchOptions.Video
      ensures url == old(url) && videoName == old(videoName) && isPlaylist == old(isPlaylist)
      ensures addUnderscoresInName == old(addUnderscoresInName)
    {
      filter := VideoSearchOptions.Video;
    }

    /** `download_playlist_to`: the walk over the results stops at the first failure. */
    method DownloadPlaylistTo(folder: string, env: Env) returns (r: Result<()>, effects: seq<Effect>)
      ensures (r, effects) == PlaylistDownload(url, filter, folder, env)
    {
      var fetched := GetPlaylist(url, env);
      effects := fetched.1;
      if fetched.0.IsFailure() {
        return fetched.0.PropagateFailure(), effects;
      }
      var playlist := fetched.0.value;
      var path := env.paths.join(folder, playlist.name);
      var results := ItemResults(playlist.videos, filter, path, env);
      effects := effects + ItemEffects(playlist.videos, filter, path, env);
      r := CheckResults(results);
    }

    /** `download_to`: a playlist goes into the folder; a single video is saved under
        the path (with the filter's extension), once rusty_ytdl accepts the URL. */
    method DownloadTo(path: string, env: Env) returns (r: Result<()>, effects: seq<Effect>)
      ensures isPlaylist ==> (r, effects) == PlaylistDownload(url, filter, path, env)
      ensures !isPlaylist && !env.lib.accepts(url.serialized) ==> r == Err(VideoNotFound(VIDEO_NOT_FOUND_MESSAGE)) && effects == []
      ensures !isPlaylist && env.lib.accepts(url.serialized) ==>
                (r, effects) == DownloadVideoToPath(VideoHandle(url.serialized, filter), filter, path, env)
    {
      if isPlaylist {
        r, effects := DownloadPlaylistTo(path, env);
        return;
      }
      effects := [];
      var video :- GetVideo(url.serialized, filter, env.lib);
      var out := DownloadVideoToPath(video, filter, path, env);
      r, effects := out.0, out.1;
    }

    /** `download`: a playlist goes into `./`; a single video is looked up, the page's
        `title` element is read (a page without one panics on `unwrap`), and the
        video is saved under `./<title>`. */
    method Download(env: Env) returns (r: Result<()>, effects: seq<Effect>)
      ensures isPlaylist ==> (r, effects) == PlaylistDownload(url, filter, DEFAULT_DOWNLOAD_PATH, env)
      ensures !isPlaylist && !env.lib.accepts(url.serialized) ==> r == Err(VideoNotFound(VIDEO_NOT_FOUND_MESSAGE)) && effects == []
      ensures !isPlaylist && env.lib.accepts(url.serialized) ==> |effects| > 0 && effects[0] == Fetch(PageRequest(url))
      ensures !isPlaylist && env.lib.accepts(url.serialized) && env.net(PageRequest(url)).TransportError? ==>
                r == Err(Reqwest(env.net(PageRequest(url)).message)) && effects == [Fetch(PageRequest(url))]
      ensures !isPlaylist && env.lib.accepts(url.serialized) && env.net(PageRequest(url)).Delivered?
              && env.net(PageRequest(url)).value.body.TransportError? ==>
                r == Err(Reqwest(env.net(PageRequest(url)).value.body.message)) && effects == [Fetch(PageRequest(url))]
      ensures r.Panic? <==>
                (!isPlaylist && env.lib.accepts(url.serialized) && TitlePage(url, env).Some?
                 && env.pageTitle(TitlePage(url, env).value).None?)
                || (isPlaylist && PlaylistDownload(url, filter, DEFAULT_DOWNLOAD_PATH, env).0.Panic?)
      ensures !isPlaylist && r.Panic? ==> r == Panic(UNWRAP_NONE_PANIC) && effects == [Fetch(PageRequest(url))]
      ensures !isPlaylist && env.lib.accepts(url.serialized) && TitlePage(url, env).Some?
              && env.pageTitle(TitlePage(url, env).value).Some? ==>
                var path := env.paths.join(DEFAULT_DOWNLOAD_PATH, env.pageTitle(TitlePage(url, env).value).value);
                var video := VideoHandle(url.serialized, filter);
                r == DownloadVideoToPath(video, filter, path, env).0
                && effects == [Fetch(PageRequest(url))] + DownloadVideoToPath(video, filter, path, env).1
    {
      if isPlaylist {
        r, effects := DownloadPlaylistTo(DEFAULT_DOWNLOAD_PATH, env);
        return;
      }
      effects := [];
      var video :- GetVideo(url.serialized, filter, env.lib);
      var request := PageRequest(url);
      effects := [Fetch(request)];
      var response := env.net(request);
      if response.TransportError? {
        return Err(Reqwest(response.message)), effects;
      }
      var text := response.value.body;
      if text.TransportError? {
        return Err(Reqwest(text.message)), effects;
      }
      var title := env.pageTitle(text.value);
      if title.None? {
        return Panic(UNWRAP_NONE_PANIC), effects;
      }
      var out := DownloadVideoToPath(video, filter, env.paths.join(DEFAULT_DOWNLOAD_PATH, title.value), env);
      r := out.0;
      effects := effects + out.1;
    }
  }
}

=== FILE: youtube_initial_data.dfy ===
/** The playlist page's initial data (src/youtube/initial_data.rs): the records on
    the path from the page to its video list, the list's entries (a video or a
    continuation marker), and the three readers of that data. Fields whose type is
    an empty record, and so carry no information, are left out. */
module YoutubeInitialData {
  import opened Errors

  datatype TitleText = TitleText(text: string)

  /** A video's title as a list of text runs. */
  datatype VideoTitle = VideoTitle(runs: seq<TitleText>)

  datatype VideoData = VideoData(
    videoId: string,
    title: VideoTitle,
    lengthSeconds: string,
    trackingParams: string,
    isPlayable: bool)

  /** An entry of the playlist's video list: a video, or the marker that more
      entries can be loaded. */
  datatype PlaylistVideoRenderer =
    | PlaylistVideoRenderer(video: VideoData)
    | ContinuationItemRenderer

  datatype PlaylistVideoListRenderer = PlaylistVideoListRenderer(
    contents: seq<PlaylistVideoRenderer>,
    trackingParams: Option<string>,
    targetId: string,
    canReorder: bool,
    isEditable: bool,
    playlistId: string)

  function TitleErrorMessage(videoId: string): string {
    "Could not retrieve title of video with id `" + videoId + "`"
  }

  /** `filter_videos_data`: the video of a video entry, nothing for a continuation. */
  function FilterVideosData(entry: PlaylistVideoRenderer): (v: Option<VideoData>)
    ensures v.Some? <==> entry.PlaylistVideoRenderer?
    ensures v.Some? ==> entry == PlaylistVideoRenderer(v.value)
  {
    match entry
    case PlaylistVideoRenderer(video) => Some(video)
    case ContinuationItemRenderer => None
  }

  /** `filter_map(filter_videos_data)` over a list of entries, kept in order. */
  function Videos(entries: seq<PlaylistVideoRenderer>): (videos: seq<VideoData>)
    ensures |videos| <= |entries|
    ensures forall v :: v in videos ==> PlaylistVideoRenderer(v) in entries
  {
    if entries == [] then []
    else
      var rest := Videos(entries[1..]);
      assert forall v :: v in rest ==> PlaylistVideoRenderer(v) in entries by {
        forall v | v in rest
          ensures PlaylistVideoRenderer(v) in entries
        {
          assert PlaylistVideoRenderer(v) in entries[1..];
        }
      }
      match FilterVideosData(entries[0])
      case Some(v) => [v] + rest
      case None => rest
  }

  /** `get_videos`: the videos of the list's entries. */
  function GetVideos(list: PlaylistVideoListRenderer): (videos: seq<VideoData>)
    ensures |videos| <= |list.contents|
    ensures forall v :: v in videos ==> PlaylistVideoRenderer(v) in list.contents
  {
    Videos(list.contents)
  }

  /** Filtering a concatenation is concatenating the filtered parts. */
  lemma {:induction false} VideosAppend(a: seq<PlaylistVideoRenderer>, b: seq<PlaylistVideoRenderer>)
    ensures Videos(a + b) == Videos(a) + Videos(b)
    decreases |a|
  {
    if a == [] {
      assert a + b == b;
    } else {
      assert (a + b)[1..] == a[1..] + b;
      VideosAppend(a[1..], b);
    }
  }

  /** The positions of the video entries, in increasing order. */
  function VideoPositions(entries: seq<PlaylistVideoRenderer>): (ps: seq<nat>)
    ensures forall k :: 0 <= k < |ps| ==> ps[k] < |entries| && entries[ps[k]].PlaylistVideoRenderer?
    ensures forall k, l :: 0 <= k < l < |ps| ==> ps[k] < ps[l]
    ensures forall i :: 0 <= i < |entries| && entries[i].PlaylistVideoRenderer? ==> i in ps
  {
    if entries == [] then []
    else
      var last := |entries| - 1;
      var front := VideoPositions(entries[..last]);
      assert forall k :: 0 <= k < |front| ==> entries[front[k]] == entries[..last][front[k]];
      if entries[last].PlaylistVideoRenderer? then front + [last] else front
  }

  /** `get_videos` keeps exactly the video entries, in their order: its k-th video is
      the video of the k-th video entry. */
  lemma {:induction false} VideosAreTheVideoEntries(entries: seq<PlaylistVideoRenderer>)
    ensures |Videos(entries)| == |VideoPositions(entries)|
    ensures forall k :: 0 <= k < |Videos(entries)| ==>
              entries[VideoPositions(entries)[k]] == PlaylistVideoRenderer(Videos(entries)[k])
    decreases |entries|
  {
    if entries != [] {
      var last := |entries| - 1;
      var front := entries[..last];
      assert entries == front + [entries[last]];
      VideosAppend(front, [entries[last]]);
      assert Videos([entries[last]]) == (if entries[last].PlaylistVideoRenderer? then [entries[last].video] else []) by {
        assert [entries[last]][1..] == [];
      }
      VideosAreTheVideoEntries(front);
      forall k | 0 <= k < |VideoPositions(front)|
        ensures entries[VideoPositions(front)[k]] == front[VideoPositions(front)[k]]
      {
      }
    }
  }

  /** A list with no continuation marker loses nothing. */
  lemma {:induction false} VideosOfVideosOnly(entries: seq<PlaylistVideoRenderer>)
    requires forall i :: 0 <= i < |entries| ==> entries[i].PlaylistVideoRenderer?
    ensures |Videos(entries)| == |entries|
    ensures forall i :: 0 <= i < |entries| ==> Videos(entries)[i] == entries[i].video
    decreases |entries|
  {
    if entries != [] {
      VideosOfVideosOnly(entries[1..]);
    }
  }

  /** `get_title`: the text of the first run; the later runs are ignored. Without
      runs, a `YoutubeError` naming the video id. */
  function GetTitle(video: VideoData): (r: Result<string>)
    ensures |video.title.runs| > 0 <==> r.Ok?
    ensures r.Ok? ==> r.value == video.title.runs[0].text
    ensures r.Err? ==> r.error == YoutubeError(TitleErrorMessage(video.videoId))
    ensures !r.Panic?
  {
    if |video.title.runs| == 0 then Err(YoutubeError(TitleErrorMessage(video.videoId)))
    else Ok(video.title.runs[0].text)
  }

  /** Runs appended after the first do not change the title. */
  lemma GetTitleIgnoresLaterRuns(video: VideoData, more: seq<TitleText>)
    requires |video.title.runs| > 0
    ensures GetTitle(video.(title := VideoTitle(video.title.runs + more))) == GetTitle(video)
  {
  }

  /** `part` occurs in `text` at position `i`. */
  predicate OccursAt(text: string, i: nat, part: string) {
    i + |part| <= |text| && text[i..i + |part|] == part
  }

  /** The error text of `get_title` quotes the video id. */
  lemma TitleErrorNamesTheVideo(videoId: string)
    ensures exists i: nat :: OccursAt(TitleErrorMessage(videoId), i, videoId)
  {
    var head := "Could not retrieve title of video with id `";
    assert OccursAt(TitleErrorMessage(videoId), |head|, videoId);
  }

  // The path from the page to the video list. The fixed-size arrays `[T; 1]` of the
  // source hold exactly one element and are modelled as that element.

  datatype PlaylistVideoListRendererContainer = PlaylistVideoListRendererContainer(
    playlistVideoListRenderer: PlaylistVideoListRenderer)

  /** `ItemSectionRenderer`: `contents` is a `[_; 1]`. */
  datatype ItemSectionRenderer = ItemSectionRenderer(
    contents: PlaylistVideoListRendererContainer,
    trackingParams: string)

  datatype Content1 = Content1(itemSectionRenderer: ItemSectionRenderer)

  /** `SectionListRenderer`: `contents` is a pair whose second half, the
      continuation section, holds nothing the model keeps. */
  datatype SectionListRenderer = SectionListRenderer(
    contents: Content1,
    targetId: string,
    trackingParams: string)

  datatype TabContent = TabContent(sectionListRenderer: SectionListRenderer)

  datatype TabRendererObject = TabRendererObject(selected: bool, content: TabContent, trackingParams: string)

  datatype TabsObject = TabsObject(tabRenderer: TabRendererObject)

  /** `TwoColumnBrowseResultsRenderer`: `tabs` is a `[_; 1]`. */
  datatype TwoColumnBrowseResultsRenderer = TwoColumnBrowseResultsRenderer(tabs: TabsObject)

  datatype Content = Content(twoColumnBrowseResultsRenderer: TwoColumnBrowseResultsRenderer)

  datatype PlaylistMetadataRenderer = PlaylistMetadataRenderer(
    title: string,
    androidAppindexingLink: string,
    iosAppindexingLink: string)

  datatype PlaylistMetadata = PlaylistMetadata(playlistMetadataRender: PlaylistMetadataRenderer)

  datatype InitialData = InitialData(contents: Content, metadata: PlaylistMetadata, trackingParams: string)

  /** The video list the page holds: the one of the single item section of the
      single tab. */
  function VideoList(data: InitialData): PlaylistVideoListRenderer {
    data.contents.twoColumnBrowseResultsRenderer.tabs.tabRenderer.content
      .sectionListRenderer.contents.itemSectionRenderer.contents.playlistVideoListRenderer
  }

  /** `videos_data`: the videos of the page's video list, in order. */
  function VideosData(data: InitialData): (videos: seq<VideoData>)
    ensures |videos| <= |VideoList(data).contents|
    ensures forall v :: v in videos ==> PlaylistVideoRenderer(v) in VideoList(data).contents
  {
    GetVideos(VideoList(data))
  }

  /** `get_playlist_name`: the title in the playlist's metadata, unchanged. */
  function GetPlaylistName(data: InitialData): (name: string)
    ensures name == data.metadata.playlistMetadataRender.title
  {
    data.metadata.playlistMetadataRender.title
  }
}
